=== FILE: README.md ===
# My Food Bag demo site — a Dafny model of its logic

The site is a browser demo of a meal-kit shop that reports what its visitors do
to the Iterable marketing platform. Most of its JavaScript is DOM glue. This
project models the parts that compute something, as pure Dafny functions over
strings, maps and records, and proves what they promise:

- **`Validators`, `Address`, `DeliveryDate`, `Deadline`** (checkout.js). These
  cover the email and phone checks and the phone normaliser. They also cover
  the address parser and the delivery date/time parser, each of whose regular
  expressions is given as a declarative language plus a matcher proved against
  it. The last piece is the "next Monday at 18:00" deadline on an explicit
  proleptic Gregorian calendar.
- **`Checkout`** (checkout.js). This is the three-section checkout state
  machine: the submit handlers' guards, the saved snapshot and its 24-hour
  restore rule, and the progress step. It also holds the box-name and
  preference tables.
- **`Json` and `DotNotation`** (iterable-config.js, update-profile.js).
  - `Json` is a JSON-like `Value`, plus JavaScript truthiness.
  - It also gives the form fields' coercion rule (`true`, `false`, `null`,
    numeric text, else a string), exact to the `StringNumericLiteral` grammar.
  - It has insertion-ordered objects, and it writes a value along a dotted
    path.
  - `DotNotation` is `convertDotNotationToNested`.
- **`Session`** (iterable-config.js). This is the SDK wrapper's session record
  and the guards and payloads of `initializeIterable`, `resetIterable`,
  `trackEvent`, `updateUser` and `updateSubscription`. The SDK's own calls are
  opaque and are passed in as success or failure. The 1000 ms logout cooldown
  is an explicit event.
- **`HomePage`** (script.js). This covers `capitalizeDataFields`, the
  consent-to-channel list, the signup payload with its undefined fields
  dropped, the page name and category, the page-view once-flag and the
  testimonials carousel.
- **`ProfileForm` and `EventForm`** (update-profile.js, custom-event.js). These
  are the two key/value form builders and their submit handlers.
- **`SuccessPage`** (subscription-success.js). This covers the user display,
  the summary of SDK calls, the plan line and logout.
- **`Maybe` and `Text`** are shared helpers. `Text` covers JavaScript
  whitespace, `trim`, `split`, `replace` of the first occurrence, `padStart`
  and decimal digits.

"Now", today's weekday and date, the current year and the contents of
`localStorage` are parameters. Nothing reads a clock or a browser.

## Model

| member | source | states |
|---|---|---|
| Validators.ValidateEmail | checkout.js:28-31 | accepts exactly the text `[^\s@]+@[^\s@]+\.[^\s@]+`: three non-empty parts free of whitespace and `@`, the last two separated by a dot |
| Validators.EmailShapeSound | checkout.js:28-31 | text with no whitespace whose first `@` is preceded by something, and whose domain holds a dot neither first nor last, is accepted |
| Validators.EmailShapeComplete | checkout.js:28-31 | conversely, every accepted email has no whitespace, exactly one `@` with a non-empty local part, and a dot inside the domain |
| Validators.ValidatePhoneNumber | checkout.js:34-40 | after deleting whitespace, `-`, `(` and `)`, accepts exactly `+64`, `0` or nothing, then a digit 2–9, then 7–9 more digits |
| Validators.PhoneCheck | checkout.js:34-40 | the prefix-then-national-number check used by the validator decides the same language as the pattern with its alternatives |
| Validators.SeparatorsIgnored | checkout.js:34-59 | inserting a separator anywhere changes neither whether a number is valid nor its formatted form |
| Validators.FormatPhoneNumber | checkout.js:43-59 | the output never holds whitespace, `-`, `(`, `)` or `+`; an all-digit number starting with `0` and not `64` loses only that `0` |
| Validators.FormatValidPhone | checkout.js:43-59 | for a valid number, formatting removes exactly its `+64` or `0` prefix, or a leading `64` when unprefixed, never both, and leaves only digits |
| Validators.FormatDropsLeading64 | checkout.js:43-59 | an unprefixed valid number that begins with `64` loses those two digits |
| Validators.DigitsAreKept | checkout.js:34-59 | neither cleaning step alters a string of digits |
| Address.MatchRegionPostcode | checkout.js:878 | `^(.+?)\s+(\d+)$`: matches iff some split has a non-empty region with no line terminator, whitespace, then digits to the end; returns the split with the shortest region |
| Address.RegionPostcodeShape | checkout.js:878-885 | a match yields a non-empty region without line terminators and a non-empty all-digit postcode |
| Address.RegionPostcodeOf | checkout.js:878-885 | `region + " " + postcode` is matched back into the same region and postcode |
| Address.ParseAddress | checkout.js:868-896 | the four parts come from the first three trimmed comma parts exactly when there are at least three and the third matches; otherwise the text is the street and the rest empty |
| Address.ParseAddressRoundTrip | checkout.js:868-896 | an address written `street, suburb, region postcode` parses back to itself |
| DeliveryDate.DateMatchAt | checkout.js:904 | at a position, the date pattern (a word, spaces, a day number with an optional st, nd, rd or th, spaces, a word) matches iff its shape is present, and the groups returned are a match |
| DeliveryDate.DateMatchUnique | checkout.js:904 | the pattern has only one possible set of groups at a given position |
| DeliveryDate.FirstDateMatch | checkout.js:904 | returns the leftmost match, and none exactly when the text holds no date |
| DeliveryDate.LeftmostDateUnique | checkout.js:904 | the leftmost match and its groups are determined by the text |
| DeliveryDate.TimeMatchAt | checkout.js:934 | at a position, the time pattern (digits and am or pm, a dash between optional spaces, digits and am or pm) matches iff its shape is present, and the groups returned are a match |
| DeliveryDate.TimeMatchUnique | checkout.js:934 | the time groups at a position are unique |
| DeliveryDate.FirstTimeMatch | checkout.js:934 | returns the leftmost time range, and none exactly when there is none |
| DeliveryDate.MonthNumber | checkout.js:911-926 | a month is known iff it is one of the table's short or long lower-case names, and its number lies in 1..12 |
| DeliveryDate.ParseDeliveryDateTime | checkout.js:899-949 | with a date match and a known month (case-insensitive) the date is `year-MM-DD` from the given year and matched day, and the time is the leftmost range or `7am - 5pm`; otherwise it is today and `7am - 5pm` |
| DeliveryDate.IsoDateRoundTrip | checkout.js:931 | the formatted date splits at `-` into three digit fields reading back as year, month and day, the last two at least two wide |
| Deadline.DaysUntilMonday | checkout.js:851 | the offset `(8 - weekday) % 7`, or 7 when that is 0, lies in 1..7, lands on the first Monday strictly after today, and is 7 exactly on a Monday |
| Deadline.AddDaysOrdinal | checkout.js:853 | adding n days moves the day number forward by exactly n |
| Deadline.OrdinalInjective | checkout.js:853 | distinct valid dates have distinct day numbers, so day addition is well defined |
| Deadline.AddDaysWeekday | checkout.js:853 | the weekday after adding n days is the weekday n steps on |
| Deadline.DeadlineDate | checkout.js:849-854 | the deadline is a valid Monday 1 to 7 days ahead with no Monday in between |
| Deadline.DeadlineClockText | checkout.js:854-862 | the time part is `18:00:00` |
| Deadline.CalculateDeadlineDate | checkout.js:849-866 | the deadline text is the zero-padded date of the next Monday followed by ` 18:00:00` |
| Deadline.DeadlineFormat | checkout.js:857-864 | the result is the zero-padded `yyyy-MM-dd` of the deadline, a space and the clock text, and its first space-separated field is that date |
| Json.Coerce | update-profile.js:61-68 | `true`/`false`/`null` become those values; a non-empty numeric text becomes a number kept as its literal; anything else, `""` included, stays a string |
| Json.Put | custom-event.js:59 | assigning a key adds it to the key set, makes it read back the new value, leaves other keys and their order alone, and appends a new key at the end |
| Json.SetPath | update-profile.js:51-70 | writing along a path puts the value at that path, adds only the first segment to the top-level keys, leaves other top-level entries alone, and keeps the value of every path that parts from the written one, nested ones included |
| Json.SetPathFailsIff | update-profile.js:54-58 | the write throws iff some proper prefix of the path reaches a truthy value that is not an object |
| Json.SetPathFresh | update-profile.js:55-57 | through a missing or falsy first step the rest of the path is created as fresh objects |
| Json.SetPathIntoEmpty | update-profile.js:51-70 | into an empty object the write always succeeds and builds exactly the nested path |
| Json.LookupEmpty | update-profile.js:41 | an empty object holds nothing at any path |
| DotNotation.Step | iterable-config.js:176-207 | a dotted key places its value at its path and keeps every path that parts from it; an undotted object value is shallow-merged over an object or spread array already there, and replaces a falsy or truthy primitive; any other undotted value replaces what is there |
| DotNotation.ConvertDotNotationToNested | iterable-config.js:173-211 | the top-level keys are exactly the first dot-segments of the input keys |
| DotNotation.StepKeepsApartPath | iterable-config.js:176-207 | a value found under a path is unchanged by a later entry whose path parts from it |
| DotNotation.DottedValuePlaced | iterable-config.js:177-192 | a dotted entry's value is found at its path when no later entry's path is a prefix of it, equal to it or an extension of it |
| DotNotation.UndottedIsIdentity | iterable-config.js:193-206 | on input with no dotted keys the conversion is the identity |
| Session.ResetIterable | iterable-config.js:464-502 | the session ends unbound, with no instance and no email, in the logout cooldown, and with its API key kept |
| Session.InitializeIterable | iterable-config.js:41-151 | cooldown, missing key or empty email returns nothing and changes nothing; the same user gets the existing instance back; otherwise an instance is returned and bound to the email exactly when one is created and `setEmail`, when offered, succeeds; a switch resets first |
| Session.SwitchUserStartsCooldown | iterable-config.js:67-72 | switching users always leaves the cooldown flag set |
| Session.InitializeAgain | iterable-config.js:74-77 | initialising again for the bound email returns the same instance and changes nothing |
| Session.TrackEvent | iterable-config.js:219-317 | rejects when unbound or with no email at all, and when a needed `setEmail` fails; past those guards a payload is sent exactly when the dot-notation conversion succeeds, else its error rejects; an SDK with `setEmail` ends bound to the target email; id, createdAt, campaignId and templateId are sent only when truthy |
| Session.TrackNeverLacksEmail | iterable-config.js:232-237 | with a bound session, `trackEvent` never fails for want of an email |
| Session.UpdateUser | iterable-config.js:326-400 | rejects when unbound or without email; past those guards a payload is sent exactly when the conversion succeeds, else its error rejects; merge and create-fields flags default to true; userId only when given; the session is untouched |
| Session.UpdateSubscription | iterable-config.js:415-458 | sends exactly the given unsubscribed channel ids when bound, and rejects otherwise |
| Session.CooldownReenablesInit | iterable-config.js:492-497 | during the cooldown after a reset, initialisation is refused; once the timer clears the flag, a key and an email bind the new instance |
| Session.ApplyPreserves | iterable-config.js:28-34 | every operation keeps "bound iff instance iff email, and bound implies email and key present", keeps the key, and only the timer clears the cooldown |
| Session.ReplayPreserves | iterable-config.js:28-34 | the same holds after any sequence of operations |
| Session.InitialSatisfiesInv | iterable-config.js:28-34 | the record at load satisfies the invariant |
| Checkout.LoadPlanData | checkout.js:772-777 | no plan field is ever empty; a non-empty parameter is kept as given; with no parameters the plan is 2 people, 5 meals, preference `all` |
| Checkout.ReloadPlanIsStable | checkout.js:772-777 | loading the plan again from a query holding the loaded plan gives the same plan |
| Checkout.SaveCheckoutState | checkout.js:62-71 | the snapshot holds the three sections, the plan and the time, and a consistent machine gives a consistent snapshot |
| Checkout.RestoreCheckoutState | checkout.js:74-128 | restores iff a snapshot exists and is younger than 86,400,000 ms, merging its sections key by key when section1 is present and taking its plan when present; otherwise changes nothing |
| Checkout.SaveRestoreRoundTrip | checkout.js:62-82 | restoring a saved snapshot brings back the saved sections and plan exactly when it is fresh |
| Checkout.HandleSignupSubmit | checkout.js:187-341 | an invalid trimmed email changes nothing; a valid one stores the email, saves the state before the change, completes section 1 and shows section 2 |
| Checkout.HandleDeliverySubmit | checkout.js:344-455 | an empty address or date changes nothing; otherwise saves the state, completes section 2 and shows section 3 |
| Checkout.HandleUserInfoSubmit | checkout.js:458-618 | blank names or mobile, an invalid mobile, or no stored email change nothing; otherwise completes section 3 and clears the saved state |
| Checkout.InitialInv | checkout.js:14-18 | initially only section 1 is visible and the invariant holds |
| Checkout.ApplyPreserves | checkout.js:187-618 | every handler and restore keeps "section 1 visible; a later section visible only once the one before is completed" |
| Checkout.RunPreserves | checkout.js:187-618 | the invariant holds after any sequence of submits and restores |
| Checkout.HandlersKeepCompletion | checkout.js:187-618 | no submit handler un-completes a section |
| Checkout.RestoreAfterSignupLags | checkout.js:206-322 | the snapshot is saved before the signup changes, so restoring right after signup hides section 2 again |
| Checkout.ProgressStep | checkout.js:1063-1082 | step 3 iff section 2 completed and 3 visible, else step 2 iff section 1 completed and 2 visible, else step 1 |
| Checkout.ProgressIsLastVisible | checkout.js:1063-1082 | on a consistent machine the step is the last visible section |
| Checkout.GetBoxName | checkout.js:837-846 | vegan, gourmet and gluten-free name their boxes; every other preference gives "Ready Made" |
| Checkout.GetPreferenceText | checkout.js:821-834 | "My Choice" exactly for preferences outside the nine-entry table |
| HomePage.CapitalizeDataFields | script.js:49-74 | keys and order kept; excluded keys, non-strings and blank strings pass unchanged; other strings get an upper first and lower rest |
| HomePage.CapitalizeKeepsKeys | script.js:49-74 | the key set is preserved |
| HomePage.CapitalizeKeepsBlank | script.js:64-71 | capitalising never turns a blank string non-blank or back, so the skip rule is stable |
| HomePage.CapitalizeIdempotent | script.js:71 | capitalising a string twice is capitalising it once |
| HomePage.CapitalizeDataFieldsIdempotent | script.js:49-74 | the whole conversion is idempotent |
| HomePage.UnsubscribedChannels | script.js:685-704 | holds 105894 iff email consent is off and 105898 iff SMS consent is off, nothing else, email first |
| HomePage.SubscriptionAlwaysUpdated | script.js:707 | the guard before `updateSubscription` holds for every pair of consents |
| HomePage.StripUndefined | script.js:668-673 | exactly the defined entries survive, with their values |
| HomePage.SignupDataFields | script.js:648-673 | names always sent; phone, preferences, address, people and meals only when non-empty or truthy, in declaration order |
| HomePage.PageName | script.js:150-151 | the page name is a single path segment: it never holds a `/` |
| HomePage.PageNameOfFile | script.js:150-151 | a `/name.html` path without dots or `index` in the name yields the name |
| HomePage.HowItWorksPageName | script.js:150-156 | the how-it-works page is recognised as `how-it-works` |
| HomePage.PageCategory | script.js:164-180 | `how-it-works` is "Information" / "How it Works"; unknown names are "General" with themselves as sub-category |
| HomePage.TrackPageView | script.js:130-237 | sends iff not yet sent, some email known, the SDK bound and the page is how-it-works; then sets the flag and sends the category, sub-category and URL |
| HomePage.AtMostOncePerLoad | script.js:131-135 | repeated firing sends at most once per page load |
| HomePage.FlagStaysSet | script.js:235 | only a failed send or a new page load clears the flag |
| HomePage.MaxSlide | script.js:932-933 | with three cards per view the last slide is 0 for three cards or fewer, and otherwise leaves exactly three cards in view |
| HomePage.Prev | script.js:945-950 | a prev click moves back one slide from above the start and never goes below 0 |
| HomePage.Next | script.js:952-957 | a next click moves forward one slide below the last and never passes it |
| HomePage.PrevUndoesNext | script.js:945-957 | a prev click undoes a next click inside the range |
| HomePage.ClicksStayInRange | script.js:928-957 | the slide index stays within 0..max(0, cards − 3) under any clicks |
| ProfileForm.AddPair | update-profile.js:46-70 | a blank key is skipped; otherwise the value lands at the key's dotted path, only the first segment is added at top level, and every path that parts from the key's keeps its value |
| ProfileForm.GetProfileDataFields | update-profile.js:40-74 | the top-level keys are the first segments of the non-blank keys |
| ProfileForm.LastPairWins | update-profile.js:70 | the last row's value is what its path holds |
| ProfileForm.EarlierPairKept | update-profile.js:51-70 | a row's value survives a later row whose path parts from it, such as `company.size` after `company.name` |
| ProfileForm.BlankKeySkipped | update-profile.js:49 | a row with a blank key changes nothing |
| ProfileForm.NoKeysNoUpdate | update-profile.js:40-74 | rows with no filled-in key build an empty object |
| ProfileForm.SubmitProfile | update-profile.js:95-140 | empty email or no fields stop before the SDK; otherwise it initialises only if unbound, passes the three flags and counts the top-level keys |
| EventForm.GetDataFields | custom-event.js:40-63 | the keys are exactly the non-blank trimmed keys, kept flat and unique |
| EventForm.LastDuplicateWins | custom-event.js:59 | a later row with the same key overwrites the value and leaves the other keys alone |
| EventForm.ParseInt10 | custom-event.js:106 | `parseInt(s, 10)`: no number iff no digit follows the optional sign; negative only with `-` |
| EventForm.ParseIntOfLiteral | custom-event.js:106 | `parseInt` reads back any printed integer, whatever non-digit text follows |
| EventForm.NumericId | custom-event.js:104-112 | a blank id is null; otherwise it is the number `parseInt` reads |
| EventForm.SubmitCustomEvent | custom-event.js:81-144 | blank event name is an error; a blank email falls back to the stored one, erring only when there is none and the SDK is unbound; the trimmed name and fields are sent |
| EventForm.FallbackReachesBoundUser | custom-event.js:115-123 | an event sent with no email to a bound session goes to the bound user and is not rejected for want of one |
| SuccessPage.ShowUser | subscription-success.js:8-50 | logged in iff email and first name; email shows `-` when absent; the name only with a first name, joined to a non-empty last name |
| SuccessPage.ApiSummary | subscription-success.js:53-95 | three calls with "Sign Up" first iff a signup id is stored, else two; the profile update and "Subscription Started" always end it |
| SuccessPage.BoxName | subscription-success.js:109-116 | the box name is one of the page table's names: the entry for a listed preference, and "Ready Made" otherwise |
| SuccessPage.BoxNamesAgree | subscription-success.js:109-116 | this page's box table agrees with the checkout page's `getBoxName` on every string |
| SuccessPage.PlanFromQuery | subscription-success.js:103-106 | the query defaults are those of the checkout page's `loadPlanData` |
| SuccessPage.PeopleUnit | subscription-success.js:120 | "person" exactly for one person |
| SuccessPage.PlanText | subscription-success.js:120 | the plan line starts with the box name and ends with the people unit |
| SuccessPage.PlanTextShape | subscription-success.js:120 | the plan line begins with the checkout box name and ends in "person" iff people is `1` |
| SuccessPage.HandleLogout | subscription-success.js:132-152 | removes exactly the four user keys, keeps every other entry, and resets a bound session |
| SuccessPage.LogoutShowsNobody | subscription-success.js:132-152 | after logout the page shows nobody, the email as `-`, two calls, and the session is unbound |
| Text.Trim | checkout.js:871 | the result is the input with leading and trailing JavaScript whitespace removed, and has none at either end |
| Text.Split | checkout.js:871 | `split` yields at least one part and no part holds the separator |
| Text.JoinSplit | checkout.js:871 | joining the parts with the separator gives back the text |
| Text.ReplaceFirst | script.js:151 | `replace` with a string pattern substitutes only the first occurrence, or nothing when there is none |
| Text.PadStart2Value | checkout.js:858-862 | `padStart(2, '0')` keeps a digit string's value |
| Text.DecimalRoundTrip | checkout.js:858-859 | printing a number in decimal and reading it back gives the number |

## Left out

- The DOM. Element reads and writes, notifications, modals, dropdowns, scrolling and listener wiring are presentation only.
- Prices. `8.85`, `5.75`, `parseFloat` and `toFixed` are floating-point display arithmetic.
- Clocks, time zones and timers.
  - `Date.now`, `new Date()` and `toISOString` are replaced by parameters.
  - The 100 ms, 500 ms and 1000 ms waits become sequential steps or the explicit cooldown event.
  - `new Date(year, month - 1, day)` in the delivery parser is computed and never used.
- `localStorage` and JSON text.
  - Storage is a map only where a property needs it.
  - A snapshot that does not parse, or whose timestamp is not a number, is not modelled. A missing timestamp counts as not fresh, as `NaN` does.
  - The form values saved next to the snapshot are not modelled, and neither are the `iterable_user_*` keys that the user-info step writes.
- The Iterable SDK.
  - `initializeWithConfig`, `setEmail`, `track`, `updateUser`, `updateSubscriptions` and `logout` are foreign calls, passed in as success or failure.
  - A `setEmail` failure inside `trackEvent` is an explicit flag.
  - JWT generation is not modelled.
- `SDK_ENABLED` is the constant `true`, so the disabled branches are dropped.
- Checkout.GetBoxName: a preference naming an inherited `Object.prototype` property is an unknown key in the model and gives "Ready Made". JavaScript finds the inherited value, which is truthy, and returns it. With `?preference=constructor` that is the `Object` function. `toString`, `valueOf`, `hasOwnProperty` and `__proto__` behave the same way.
- Checkout.GetPreferenceText: the same gap as `Checkout.GetBoxName`. The model gives "My Choice" where JavaScript returns the inherited value.
- SuccessPage.BoxName: the same gap as `Checkout.GetBoxName`. `SuccessPage.PlanText` then prints the function's source text, `function Object() { [native code] }`, where the model prints "Ready Made".
- DeliveryDate.MonthNumber: a month word that lower-cases to `constructor` or `__proto__` finds a truthy inherited value in JavaScript. The date branch is then taken, and the month prints as that value's string form. The model reports an unknown month and falls back to today's date.
- Object-key enumeration order for integer-like keys is not modelled. Fields keep insertion order.
- Case mapping. `toUpperCase` and `toLowerCase` are ASCII only, and Unicode case mapping is not modelled.
- Regular expressions.
  - The three patterns are stated as languages and matched deterministically.
  - `\w` and `\d` are ASCII, as JavaScript has them without the `u` flag.
- DotNotation.Step: a dotted path through an array is reported as an error instead of writing a property onto the array. A path through a truthy primitive throws in the model, as strict mode does for a property write on a primitive. The exception is described under `Json.SetPathFailsIff`: JavaScript does not throw when the next segment names a method the primitive's wrapper inherits. A dotted key whose non-final segment names an inherited `Object.prototype` property has the gap described under `Json.SetPath`.
- EventForm.ParseInt10: reads trimmed text only. `parseInt`'s `0x` prefix does not apply with radix 10, and large values keep full precision rather than rounding to a double.
- EventForm.NumericId: `NaN` from `parseInt` is modelled as an absent id. Both are falsy, so `trackEvent` drops either.
- EventForm.SubmitCustomEvent: the form's user id and `createNewFields: true` are handed to `trackEvent`, which puts neither in its payload, so the model leaves both out.
- ProfileForm.SubmitProfile: the form's user id is read but never passed to `updateUser`. The model passes none, as the code does.
- The delivery handler reads `deliveryDateValue` but only checks it for emptiness, and the model does the same.
- Checkout.HandleSignupSubmit: the sign-up handler's SDK calls (checkout.js:211-305) are not modelled, and the handler does not drive `Session`. Those calls are `initializeIterable`, `updateUser` with the account and plan payload, the "Sign Up" `trackEvent`, and the write of `iterable_signup_event_id`. The model covers the handler's validation and step change only.
- Checkout.HandleUserInfoSubmit: the user-info handler's SDK calls (checkout.js:539-580) are not modelled. Those are `updateUser` with the profile, address and delivery payload, and the "Subscription Started" `trackEvent`. Its storage writes and the redirect to the success page are not modelled either.
- Checkout.HandleDeliverySubmit: the delivery handler's `updateUser` with the address and delivery date (checkout.js:389-420) is not modelled, and the handler does not drive `Session`.
- ProfileForm.GetProfileDataFields: a user-typed `__proto__` segment is an ordinary key in the model. In JavaScript, writing it sets or walks the object's prototype, so the key never appears among the object's own fields. `EventForm.GetDataFields` has the same gap. A non-final segment naming another inherited `Object.prototype` property has the gap described under `Json.SetPath`. For example, `constructor.x` gives `{constructor: {x: 5}}` in the model, but `{}` in JavaScript, which then reports that there are no fields.
- ProfileForm.AddPair: the gap described under `Json.SetPath` applies. A key with a non-final inherited segment lands at its path in the model but not in JavaScript.
- Json.SetPath: a non-final segment naming an inherited `Object.prototype` property, such as `constructor`, `toString`, `valueOf` or `hasOwnProperty`, is treated as a missing key. The model creates a fresh `{}` there, and the value lands at its path. In JavaScript `!current[part]` finds the inherited function, which is truthy, so no `{}` is created and the walk continues into that function. The final write then lands on the function, where it is lost from the result, or it throws in strict mode when the property is read-only (`constructor.name`). The model has no prototype chain, so it does not promise the JavaScript outcome on such keys.
- DotNotation.ConvertDotNotationToNested: the gap described under `Json.SetPath` applies to dotted keys. Its top-level keys are the first segments of the input keys, whereas JavaScript leaves out a first segment such as `constructor` that names an inherited property and is followed by more segments. This also holds for flat keys from the custom-event form that reach `trackEvent`.
- Json.SetPathFailsIff: truthiness of a number is decided on its literal text, with no double rounding. A literal that underflows to zero, such as `1e-400`, is truthy in the model but `0` and falsy in JavaScript, so the model throws where JavaScript writes. `Json.Truthy` shares this gap, and so do its uses in `DotNotation.Step` and `Session.IfTruthy`. Separately, the model reports `WriteToPrimitive` whenever a step before the last reaches a truthy primitive. In JavaScript, when the next segment names a method that the primitive's wrapper inherits (`toString`, `valueOf`, `toFixed` and the like), `!current[part]` finds that function, and the walk continues into it without throwing. The final write then lands on the built-in function and is lost from the result. For example, `a = "abc"` followed by `a.toString.x = 1` gives `{a: "abc"}` in JavaScript, where the model reports an error.
- DeliveryDate.ParseDeliveryDateTime: the day is printed from an unbounded integer. JavaScript prints `parseInt`'s double, so a day of 17 or more digits is rounded, and one of 1e21 or more prints in exponent form (`1e+21`). The model prints the exact digits.
- Pricing, promo codes, the recipe carousel's pixel maths and the plan pickers on the home page are UI only.
- vite.config.js is build configuration.

=== FILE: address.dfy ===
/**
 * `parseAddress` of checkout.js: the text of the chosen delivery address,
 * written "Street, Suburb, Region Postcode", split into its four components.
 */
module Address {
  import opened Maybe
  import opened Text

  datatype Address = Address(street: string, suburb: string, region: string, postcode: string)

  predicate NotLineTerminator(c: char) {
    !IsLineTerminator(c)
  }

  /**
   * The split `^(.+?)\s+(\d+)$` can make of `s`: the region `s[..i]` (at least
   * one character, none a line terminator), whitespace `s[i..j]`, and the
   * postcode `s[j..]`, a digit run reaching the end.
   */
  predicate RegionPostcodeAt(s: string, i: int, j: int) {
    1 <= i < j < |s| && All(s[..i], NotLineTerminator)
    && (forall x :: i <= x < j ==> IsSpace(s[x]))
    && (forall x :: j <= x < |s| ==> IsDigit(s[x]))
  }

  /** Where the postcode would start: before the trailing digit run. */
  function PostcodeStart(s: string): (j: nat)
    ensures j <= |s|
  {
    |s| - TrailingRun(s, IsDigit)
  }

  /** Where the shortest region would end: before the whitespace preceding the postcode, and not before 1. */
  function RegionEnd(s: string): (i: nat)
    ensures 1 <= i
  {
    var j := PostcodeStart(s);
    var w := TrailingRun(s[..j], IsSpace);
    if j - w >= 1 then j - w else 1
  }

  /** The regex matches exactly when the candidate split is a split. */
  predicate Matches(s: string) {
    RegionPostcodeAt(s, RegionEnd(s), PostcodeStart(s))
  }

  /**
   * `regionPostcode.match(/^(.+?)\s+(\d+)$/)`: the lazy group takes the
   * shortest region for which the rest matches; the postcode is the whole
   * trailing digit run.
   */
  function MatchRegionPostcode(s: string): (r: Option<(string, string)>)
    ensures r.Some? <==> exists i, j :: RegionPostcodeAt(s, i, j)
    ensures r.Some? ==>
      (exists i, j :: RegionPostcodeAt(s, i, j) && r.value == (s[..i], s[j..])
        && forall i', j' :: RegionPostcodeAt(s, i', j') ==> i <= i' && j == j')
  {
    var i, j := RegionEnd(s), PostcodeStart(s);
    RegionPostcodeLeast(s);
    if Matches(s) then Some((s[..i], s[j..])) else None
  }

  lemma RegionPostcodeLeast(s: string)
    ensures forall i', j' :: RegionPostcodeAt(s, i', j') ==>
      j' == PostcodeStart(s) && RegionEnd(s) <= i' && Matches(s)
  {
    forall i', j' | RegionPostcodeAt(s, i', j')
      ensures j' == PostcodeStart(s) && RegionEnd(s) <= i' && Matches(s)
    {
      RegionPostcodeLeastAt(s, i', j');
    }
  }

  /** Any split has the candidate's postcode start and a region at least as long as the candidate's. */
  lemma RegionPostcodeLeastAt(s: string, i': int, j': int)
    requires RegionPostcodeAt(s, i', j')
    ensures j' == PostcodeStart(s) && RegionEnd(s) <= i' && Matches(s)
  {
    PostcodeStartAt(s, i', j');
    var t := s[..j'];
    TrailingRunCovers(t, IsSpace, i');
    var i := RegionEnd(s);
    assert s[..i] == s[..i'][..i];
  }

  lemma PostcodeStartAt(s: string, i': int, j': int)
    requires RegionPostcodeAt(s, i', j')
    ensures j' == PostcodeStart(s)
  {
    TrailingRunCovers(s, IsDigit, j');
    assert !IsDigit(s[j' - 1]);
  }

  /** Whatever the match returns is a region without line terminators and a non-empty digit postcode. */
  lemma RegionPostcodeShape(s: string)
    requires MatchRegionPostcode(s).Some?
    ensures var (region, postcode) := MatchRegionPostcode(s).value;
      |region| >= 1 && |postcode| >= 1 && All(postcode, IsDigit) && All(region, NotLineTerminator)
  {
  }

  /**
   * `parseAddress`: with at least three comma-separated parts whose third
   * matches "region, whitespace, postcode", the trimmed first and second parts
   * and the two halves of the third; otherwise the whole text as the street.
   */
  function ParseAddress(text: string): (a: Address)
    ensures var parts := Split(text, ',');
      a.postcode != "" <==> |parts| >= 3 && MatchRegionPostcode(Trim(parts[2])).Some?
    ensures a.postcode == "" ==> a == Address(text, "", "", "")
    ensures a.postcode != "" ==> var parts := Split(text, ',');
      a.street == Trim(parts[0]) && a.suburb == Trim(parts[1])
      && (a.region, a.postcode) == MatchRegionPostcode(Trim(parts[2])).value
  {
    var parts := seq(|Split(text, ',')|, k requires 0 <= k < |Split(text, ',')| => Trim(Split(text, ',')[k]));
    if |parts| >= 3 then
      match MatchRegionPostcode(parts[2])
      case Some((region, postcode)) =>
        RegionPostcodeShape(parts[2]);
        Address(parts[0], parts[1], region, postcode)
      case None => Address(text, "", "", "")
    else
      Address(text, "", "", "")
  }

  /** A component the parser can return between commas: trimmed and free of commas. */
  predicate IsField(x: string) {
    Unpadded(x) && ',' !in x
  }

  /**
   * Writing an address out as "street, suburb, region postcode" and parsing
   * the text gives the address back, for every street and suburb without
   * commas or surrounding whitespace, every region of that kind without line
   * terminators, and every non-empty digit postcode.
   */
  lemma ParseAddressRoundTrip(a: Address)
    requires IsField(a.street) && IsField(a.suburb) && IsField(a.region) && |a.region| >= 1
    requires All(a.region, NotLineTerminator)
    requires |a.postcode| >= 1 && All(a.postcode, IsDigit)
    ensures ParseAddress(a.street + ", " + a.suburb + ", " + (a.region + " " + a.postcode)) == a
  {
    var third := a.region + " " + a.postcode;
    var text := a.street + ", " + a.suburb + ", " + third;
    assert Split(text, ',') == [a.street, [' '] + a.suburb, [' '] + third] by {
      ThirdPart(a.region, a.postcode);
      WrittenParts(a.street, a.suburb, third);
    }
    assert Trim(a.street) == a.street by {
      TrimUnpadded(a.street);
    }
    assert Trim([' '] + a.suburb) == a.suburb by {
      TrimLeadingSpace(a.suburb);
    }
    assert MatchRegionPostcode(Trim([' '] + third)) == Some((a.region, a.postcode)) by {
      ThirdPart(a.region, a.postcode);
      TrimLeadingSpace(third);
      RegionPostcodeOf(a.region, a.postcode);
    }
    ParseOfThreeParts(text, a.street, [' '] + a.suburb, [' '] + third);
  }

  /** How a text of exactly three comma-separated parts is parsed. */
  lemma ParseOfThreeParts(text: string, p0: string, p1: string, p2: string)
    requires Split(text, ',') == [p0, p1, p2] && MatchRegionPostcode(Trim(p2)).Some?
    ensures ParseAddress(text) ==
      Address(Trim(p0), Trim(p1), MatchRegionPostcode(Trim(p2)).value.0, MatchRegionPostcode(Trim(p2)).value.1)
  {
    RegionPostcodeShape(Trim(p2));
  }

  /** The comma-separated parts of a written address. */
  lemma WrittenParts(street: string, suburb: string, third: string)
    requires ',' !in street && ',' !in suburb && ',' !in third
    ensures Split(street + ", " + suburb + ", " + third, ',') == [street, [' '] + suburb, [' '] + third]
  {
    var r1 := [' '] + third;
    var r2 := [' '] + suburb + [','] + r1;
    WrittenText(street, suburb, third);
    SplitTwo([' '] + suburb, r1);
    SplitCons(street, r2, ',');
  }

  lemma SplitTwo(a: string, b: string)
    requires ',' !in a && ',' !in b
    ensures Split(a + [','] + b, ',') == [a, b]
  {
    SplitCons(a, b, ',');
    SplitWithoutSep(b, ',');
  }

  lemma WrittenText(street: string, suburb: string, third: string)
    ensures street + ", " + suburb + ", " + third == street + [','] + ([' '] + suburb + [','] + ([' '] + third))
  {
  }

  /** The third part written for a region and a postcode has no comma and no surrounding whitespace. */
  lemma ThirdPart(region: string, postcode: string)
    requires IsField(region) && |region| >= 1
    requires |postcode| >= 1 && All(postcode, IsDigit)
    ensures ',' !in region + " " + postcode && Unpadded(region + " " + postcode)
  {
    var third := region + " " + postcode;
    forall x | 0 <= x < |third|
      ensures third[x] != ','
    {
      if x < |region| {
        assert third[x] == region[x];
      } else if x > |region| {
        assert third[x] == postcode[x - |region| - 1];
      }
    }
    assert third[0] == region[0];
    assert third[|third| - 1] == postcode[|postcode| - 1];
  }

  /** The third part of a written address splits back into its region and postcode. */
  lemma RegionPostcodeOf(region: string, postcode: string)
    requires IsField(region) && |region| >= 1 && All(region, NotLineTerminator)
    requires |postcode| >= 1 && All(postcode, IsDigit)
    ensures MatchRegionPostcode(region + " " + postcode) == Some((region, postcode))
  {
    var s := region + " " + postcode;
    var n := |region|;
    assert s[..n] == region;
    assert s[n + 1..] == postcode;
    assert RegionPostcodeAt(s, n, n + 1);
    var r := MatchRegionPostcode(s);
    RegionPostcodeLeast(s);
    var i, j := RegionEnd(s), PostcodeStart(s);
    assert j == n + 1;
    assert s[n - 1] == region[n - 1];
  }
}

=== FILE: checkout.dfy ===
/**
 * The three-step checkout page of checkout.js: the `sectionStates` record
 * advanced by the signup, delivery and user-info submit handlers, the
 * snapshot the handlers save and `restoreCheckoutState` reads back, the
 * progress indicator, and the two preference lookups. Form fields, the clock
 * and the stored snapshot are parameters; the DOM is not modelled.
 */
module Checkout {
  import opened Maybe
  import opened Text
  import Validators

  datatype Section = Section(completed: bool, visible: bool)

  datatype Sections = Sections(section1: Section, section2: Section, section3: Section)

  /** `planData`, as `loadPlanData` fills it from the page URL. */
  datatype PlanData = PlanData(people: string, meals: string, preference: string)

  /**
   * A parsed `checkout_state` entry: every key may be missing (`None`), since
   * the entry may have been written by an older page.
   */
  datatype Snapshot = Snapshot(
    section1: Option<Section>,
    section2: Option<Section>,
    section3: Option<Section>,
    planData: Option<PlanData>,
    timestamp: Option<int>)

  /**
   * The page: the section record, the plan, and the two storage entries the
   * handlers consult (`checkout_state` and `checkout_email`).
   */
  datatype Page = Page(sections: Sections, plan: PlanData, saved: Option<Snapshot>, savedEmail: Option<string>)

  /** Only the first section is shown when the page loads. */
  const InitialSections := Sections(Section(false, true), Section(false, false), Section(false, false))

  /** `urlParams.get(k) || default` for the three plan parameters. */
  function LoadPlanData(people: Option<string>, meals: Option<string>, preference: Option<string>): (p: PlanData)
    ensures p.people != "" && p.meals != "" && p.preference != ""
    ensures people.Some? && people.value != "" ==> p.people == people.value
    ensures meals.Some? && meals.value != "" ==> p.meals == meals.value
    ensures preference.Some? && preference.value != "" ==> p.preference == preference.value
    ensures people.None? && meals.None? && preference.None? ==> p == PlanData("2", "5", "all")
  {
    PlanData(OrDefault(people, "2"), OrDefault(meals, "5"), OrDefault(preference, "all"))
  }

  /** Loading the plan from a query that holds the loaded plan gives the same plan. */
  lemma ReloadPlanIsStable(people: Option<string>, meals: Option<string>, preference: Option<string>)
    ensures var p := LoadPlanData(people, meals, preference);
      LoadPlanData(Some(p.people), Some(p.meals), Some(p.preference)) == p
  {
  }

  /** `x || d` for a string that may be missing. */
  function OrDefault(x: Option<string>, d: string): string {
    if x.Some? && x.value != "" then x.value else d
  }

  // ---------------------------------------------------------------------
  // The invariant
  // ---------------------------------------------------------------------

  /**
   * The first section is always shown, and a later section is shown only
   * once the one before it is completed.
   */
  predicate SectionsInv(s: Sections) {
    s.section1.visible
    && (s.section2.visible ==> s.section1.completed)
    && (s.section3.visible ==> s.section2.completed)
  }

  /** A snapshot as the handlers write it: every section present, and consistent. */
  predicate SnapshotInv(st: Snapshot) {
    st.section1.Some? && st.section2.Some? && st.section3.Some?
    && SectionsInv(Sections(st.section1.value, st.section2.value, st.section3.value))
  }

  predicate Inv(p: Page) {
    SectionsInv(p.sections) && (p.saved.Some? ==> SnapshotInv(p.saved.value))
  }

  // ---------------------------------------------------------------------
  // Saving and restoring
  // ---------------------------------------------------------------------

  /** `saveCheckoutState`: the sections and plan as they are now, stamped with `now`. */
  function SaveCheckoutState(s: Sections, plan: PlanData, now: int): (st: Snapshot)
    ensures SectionsInv(s) ==> SnapshotInv(st)
    ensures st.timestamp == Some(now) && st.planData == Some(plan)
    ensures st.section1 == Some(s.section1) && st.section2 == Some(s.section2) && st.section3 == Some(s.section3)
  {
    Snapshot(Some(s.section1), Some(s.section2), Some(s.section3), Some(plan), Some(now))
  }

  /** 24 hours in milliseconds. */
  const MaxAge := 24 * 60 * 60 * 1000

  /**
   * `restoreCheckoutState` at time `now`: a snapshot younger than a day is
   * applied (its sections only when it has a first section, key by key over
   * the current record) and the result is `true`; otherwise nothing changes
   * and the result is `false`. A missing timestamp makes the age `NaN`.
   */
  function RestoreCheckoutState(p: Page, now: int): (r: (bool, Page))
    ensures !r.0 ==> r.1 == p
    ensures r.0 <==> p.saved.Some? && p.saved.value.timestamp.Some? && now - p.saved.value.timestamp.value < MaxAge
    ensures r.1.saved == p.saved && r.1.savedEmail == p.savedEmail
    ensures r.0 && p.saved.value.section1.Some? ==>
      var st := p.saved.value;
      r.1.sections == Sections(st.section1.value, st.section2.GetOr(p.sections.section2), st.section3.GetOr(p.sections.section3))
    ensures r.0 && p.saved.value.section1.None? ==> r.1.sections == p.sections
    ensures r.0 ==> r.1.plan == p.saved.value.planData.GetOr(p.plan)
  {
    match p.saved
    case None => (false, p)
    case Some(st) =>
      if st.timestamp.None? || now - st.timestamp.value >= MaxAge then (false, p)
      else
        var sections :=
          if st.section1.Some? then
            Sections(st.section1.value, st.section2.GetOr(p.sections.section2), st.section3.GetOr(p.sections.section3))
          else p.sections;
        (true, p.(sections := sections, plan := st.planData.GetOr(p.plan)))
  }

  /**
   * Restoring a snapshot the page saved at `savedAt` gives back exactly the
   * sections and plan saved, when less than a day has passed, and nothing
   * otherwise.
   */
  lemma SaveRestoreRoundTrip(p: Page, s: Sections, plan: PlanData, savedAt: int, now: int)
    requires p.saved == Some(SaveCheckoutState(s, plan, savedAt))
    ensures var (restored, q) := RestoreCheckoutState(p, now);
      (restored <==> now - savedAt < MaxAge)
      && (restored ==> q == p.(sections := s, plan := plan))
      && (!restored ==> q == p)
  {
  }

  // ---------------------------------------------------------------------
  // The submit handlers
  // ---------------------------------------------------------------------

  /**
   * `handleSignupSubmit`: the trimmed email must be present and valid.
   * Then the email and a snapshot of the state before the step are stored,
   * and section 1 is completed and section 2 shown, whatever the SDK calls
   * in between do (their failures are caught).
   */
  function HandleSignupSubmit(p: Page, email: string, now: int): (r: Page)
    ensures !Validators.ValidateEmail(Trim(email)) ==> r == p
    ensures Validators.ValidateEmail(Trim(email)) ==>
      r.sections == p.sections.(section1 := p.sections.section1.(completed := true),
                                section2 := p.sections.section2.(visible := true))
      && r.savedEmail == Some(Trim(email)) && r.plan == p.plan
      && r.saved == Some(SaveCheckoutState(p.sections, p.plan, now))
  {
    var e := Trim(email);
    if e == "" || !Validators.ValidateEmail(e) then p
    else
      var saved := SaveCheckoutState(p.sections, p.plan, now);
      var s := p.sections;
      Page(s.(section1 := s.section1.(completed := true), section2 := s.section2.(visible := true)),
           p.plan, Some(saved), Some(e))
  }

  /**
   * `handleDeliverySubmit`: an address and a date must be selected. Then a
   * snapshot is stored, section 2 is completed and section 3 shown; the
   * profile update in between cannot stop it.
   */
  function HandleDeliverySubmit(p: Page, addressValue: string, dateValue: string, now: int): (r: Page)
    ensures addressValue == "" || dateValue == "" ==> r == p
    ensures addressValue != "" && dateValue != "" ==>
      r.sections == p.sections.(section2 := p.sections.section2.(completed := true),
                                section3 := p.sections.section3.(visible := true))
      && r.savedEmail == p.savedEmail && r.plan == p.plan
      && r.saved == Some(SaveCheckoutState(p.sections, p.plan, now))
  {
    if addressValue == "" || dateValue == "" then p
    else
      var s := p.sections;
      p.(sections := s.(section2 := s.section2.(completed := true), section3 := s.section3.(visible := true)),
         saved := Some(SaveCheckoutState(s, p.plan, now)))
  }

  /** The guard of `handleUserInfoSubmit`: three non-empty trimmed fields, a valid mobile number, and a stored email. */
  predicate UserInfoAccepted(p: Page, firstName: string, lastName: string, mobile: string) {
    Trim(firstName) != "" && Trim(lastName) != "" && Trim(mobile) != ""
    && Validators.ValidatePhoneNumber(Trim(mobile))
    && p.savedEmail.Some? && p.savedEmail.value != ""
  }

  /**
   * `handleUserInfoSubmit`: when accepted, the checkout entries are cleared
   * and section 3 is completed.
   */
  function HandleUserInfoSubmit(p: Page, firstName: string, lastName: string, mobile: string): (r: Page)
    ensures !UserInfoAccepted(p, firstName, lastName, mobile) ==> r == p
    ensures UserInfoAccepted(p, firstName, lastName, mobile) ==>
      r.sections == p.sections.(section3 := p.sections.section3.(completed := true))
      && r.saved.None? && r.savedEmail.None? && r.plan == p.plan
  {
    var f, l, m := Trim(firstName), Trim(lastName), Trim(mobile);
    if f == "" || l == "" || m == "" then p
    else if !Validators.ValidatePhoneNumber(m) then p
    else if p.savedEmail.None? || p.savedEmail.value == "" then p
    else
      var s := p.sections;
      Page(s.(section3 := s.section3.(completed := true)), p.plan, None, None)
  }

  // ---------------------------------------------------------------------
  // Runs of the page
  // ---------------------------------------------------------------------

  datatype Event =
    | Signup(email: string)
    | Delivery(addressValue: string, dateValue: string)
    | UserInfo(firstName: string, lastName: string, mobile: string)
    | Restore

  /** One event at time `now`. */
  function Apply(p: Page, e: Event, now: int): Page {
    match e
    case Signup(email) => HandleSignupSubmit(p, email, now)
    case Delivery(a, d) => HandleDeliverySubmit(p, a, d, now)
    case UserInfo(f, l, m) => HandleUserInfoSubmit(p, f, l, m)
    case Restore => RestoreCheckoutState(p, now).1
  }

  /** Every handler, and a restore of what they saved, keeps the invariant. */
  lemma ApplyPreserves(p: Page, e: Event, now: int)
    requires Inv(p)
    ensures Inv(Apply(p, e, now))
  {
  }

  /** The submit handlers never un-complete a section. */
  lemma HandlersKeepCompletion(p: Page, e: Event, now: int)
    requires !e.Restore?
    ensures var q := Apply(p, e, now);
      (p.sections.section1.completed ==> q.sections.section1.completed)
      && (p.sections.section2.completed ==> q.sections.section2.completed)
      && (p.sections.section3.completed ==> q.sections.section3.completed)
  {
  }

  /** A run of events, the `i`-th at time `times[i]`. */
  function Run(p: Page, events: seq<Event>, times: seq<int>): Page
    requires |events| == |times|
    decreases |events|
  {
    if |events| == 0 then p else Run(Apply(p, events[0], times[0]), events[1..], times[1..])
  }

  /** From a fresh page with no stored snapshot, or one the page itself wrote, the invariant always holds. */
  lemma {:induction false} RunPreserves(p: Page, events: seq<Event>, times: seq<int>)
    requires Inv(p) && |events| == |times|
    ensures Inv(Run(p, events, times))
    decreases |events|
  {
    if |events| > 0 {
      ApplyPreserves(p, events[0], times[0]);
      RunPreserves(Apply(p, events[0], times[0]), events[1..], times[1..]);
    }
  }

  lemma InitialInv(plan: PlanData, email: Option<string>)
    ensures Inv(Page(InitialSections, plan, None, email))
  {
  }

  /**
   * The signup handler stores its snapshot before it completes the step, so
   * restoring right after a signup from a fresh page brings back the fresh
   * sections: section 2 is hidden again.
   */
  lemma RestoreAfterSignupLags(plan: PlanData, email: string, savedAt: int, now: int)
    requires Validators.ValidateEmail(Trim(email)) && now - savedAt < MaxAge
    ensures var p := HandleSignupSubmit(Page(InitialSections, plan, None, None), email, savedAt);
      p.sections.section2.visible
      && RestoreCheckoutState(p, now).1.sections == InitialSections
  {
  }

  // ---------------------------------------------------------------------
  // The progress indicator
  // ---------------------------------------------------------------------

  /** `updateProgressIndicator`: the step whose marker is the last one lit. */
  function ProgressStep(s: Sections): (n: int)
    ensures 1 <= n <= 3
    ensures n == 3 <==> s.section2.completed && s.section3.visible
    ensures n == 2 <==> s.section1.completed && s.section2.visible && !(s.section2.completed && s.section3.visible)
  {
    if s.section2.completed && s.section3.visible then 3
    else if s.section1.completed && s.section2.visible then 2
    else 1
  }

  /**
   * On a consistent record the step is simply the last section shown.
   */
  lemma ProgressIsLastVisible(s: Sections)
    requires SectionsInv(s)
    ensures ProgressStep(s) == (if s.section3.visible then 3 else if s.section2.visible then 2 else 1)
  {
  }

  // ---------------------------------------------------------------------
  // Preference lookups
  // ---------------------------------------------------------------------

  /** `getBoxName`: the box for one of the four named preferences, and "Ready Made" for any other. */
  function GetBoxName(preference: string): (name: string)
    ensures preference == "vegan" ==> name == "Vegan and Veggie"
    ensures preference == "gourmet" ==> name == "Gourmet"
    ensures preference == "gluten-free" ==> name == "Gluten Free"
    ensures preference !in {"vegan", "gourmet", "gluten-free"} ==> name == "Ready Made"
  {
    match preference
    case "vegan" => "Vegan and Veggie"
    case "gourmet" => "Gourmet"
    case "gluten-free" => "Gluten Free"
    case "diabetes" => "Ready Made"
    case _ => "Ready Made"
  }

  /** The nine preferences the plan picker offers. */
  const Preferences: seq<string> :=
    ["all", "high-protein", "quick-easy", "kid-friendly", "low-carb", "vegan", "gourmet", "gluten-free", "diabetes"]

  /** `getPreferenceText`: the label of a known preference, and "My Choice" for any other. */
  function GetPreferenceText(preference: string): (text: string)
    ensures preference !in Preferences <==> text == "My Choice"
  {
    match preference
    case "all" => "I Like Everything"
    case "high-protein" => "High Protein"
    case "quick-easy" => "Quick & Easy"
    case "kid-friendly" => "Kid-Friendly"
    case "low-carb" => "Low Carb & Healthier"
    case "vegan" => "Vegan & Veggie"
    case "gourmet" => "Gourmet"
    case "gluten-free" => "Gluten Free"
    case "diabetes" => "Diabetes Plan"
    case _ => "My Choice"
  }
}

=== FILE: deadline.dfy ===
/**
 * `calculateDeadlineDate` of checkout.js: the next Monday strictly after
 * today, at 18:00:00, written `yyyy-MM-dd HH:mm:ss`. Today's date is a
 * parameter; days are added in the proleptic Gregorian calendar, which is
 * what `setDate` with an overflowing day of the month does.
 */
module Deadline {
  import opened Text
  import DeliveryDate

  /** `Date.prototype.getDay`: 0 is Sunday, 1 is Monday, …, 6 is Saturday. */
  type Weekday = w: int | 0 <= w <= 6

  const Monday: Weekday := 1

  /** The weekday `k` days after a day whose weekday is `w`. */
  function WeekdayAfter(w: Weekday, k: int): Weekday {
    (w + k) % 7
  }

  /**
   * `(8 - now.getDay()) % 7 || 7`: the number of days to the next Monday
   * strictly after today, a full week when today is itself a Monday.
   */
  function DaysUntilMonday(w: Weekday): (n: int)
    ensures 1 <= n <= 7
    ensures WeekdayAfter(w, n) == Monday
    ensures forall k :: 1 <= k < n ==> WeekdayAfter(w, k) != Monday
    ensures n == 7 <==> w == Monday
  {
    var r := (8 - w) % 7;
    if r == 0 then 7 else r
  }

  // ---------------------------------------------------------------------
  // The calendar
  // ---------------------------------------------------------------------

  datatype Date = Date(year: int, month: int, day: int)

  predicate IsLeapYear(y: int) {
    y % 4 == 0 && (y % 100 != 0 || y % 400 == 0)
  }

  function DaysInMonth(y: int, m: int): int
    requires 1 <= m <= 12
  {
    if m == 2 then (if IsLeapYear(y) then 29 else 28)
    else if m == 4 || m == 6 || m == 9 || m == 11 then 30
    else 31
  }

  function DaysInYear(y: int): int {
    if IsLeapYear(y) then 366 else 365
  }

  predicate Valid(d: Date) {
    d.year >= 1 && 1 <= d.month <= 12 && 1 <= d.day <= DaysInMonth(d.year, d.month)
  }

  /** Days in the years before `y`, counted from 1 January of year 1. */
  function DaysBeforeYear(y: int): nat
    requires y >= 1
  {
    if y == 1 then 0 else DaysBeforeYear(y - 1) + DaysInYear(y - 1)
  }

  /** Days in the months of year `y` before month `m`. */
  function DaysBeforeMonth(y: int, m: int): nat
    requires 1 <= m <= 12
  {
    if m == 1 then 0 else DaysBeforeMonth(y, m - 1) + DaysInMonth(y, m - 1)
  }

  /** The months before December take all of the year but its last 31 days. */
  lemma DaysBeforeDecember(y: int)
    ensures DaysBeforeMonth(y, 12) + DaysInMonth(y, 12) == DaysInYear(y)
  {
    var feb := DaysInMonth(y, 2);
    assert DaysBeforeMonth(y, 2) == 31;
    assert DaysBeforeMonth(y, 3) == 31 + feb;
    assert DaysBeforeMonth(y, 4) == 62 + feb;
    assert DaysBeforeMonth(y, 5) == 92 + feb;
    assert DaysBeforeMonth(y, 6) == 123 + feb;
    assert DaysBeforeMonth(y, 7) == 153 + feb;
    assert DaysBeforeMonth(y, 8) == 184 + feb;
    assert DaysBeforeMonth(y, 9) == 215 + feb;
    assert DaysBeforeMonth(y, 10) == 245 + feb;
    assert DaysBeforeMonth(y, 11) == 276 + feb;
    assert DaysBeforeMonth(y, 12) == 306 + feb;
  }

  /** The day number of a date: 1 January of year 1 is day 1. */
  function Ordinal(d: Date): int
    requires Valid(d)
  {
    DaysBeforeYear(d.year) + DaysBeforeMonth(d.year, d.month) + d.day
  }

  /** The weekday of a date; 1 January of year 1 was a Monday. */
  function WeekdayOf(d: Date): Weekday
    requires Valid(d)
  {
    Ordinal(d) % 7
  }

  /** The day after `d`, rolling over into the next month and year. */
  function NextDay(d: Date): (r: Date)
    requires Valid(d)
    ensures Valid(r)
  {
    if d.day < DaysInMonth(d.year, d.month) then Date(d.year, d.month, d.day + 1)
    else if d.month < 12 then Date(d.year, d.month + 1, 1)
    else Date(d.year + 1, 1, 1)
  }

  /** `deadlineDate.setDate(now.getDate() + n)`: `n` days after `d`. */
  function AddDays(d: Date, n: nat): (r: Date)
    requires Valid(d)
    ensures Valid(r)
    decreases n
  {
    if n == 0 then d else AddDays(NextDay(d), n - 1)
  }

  /** The next day is one day number later. */
  lemma NextDayOrdinal(d: Date)
    requires Valid(d)
    ensures Ordinal(NextDay(d)) == Ordinal(d) + 1
  {
    if d.day == DaysInMonth(d.year, d.month) && d.month == 12 {
      DaysBeforeDecember(d.year);
    }
  }

  /** Adding `n` days adds `n` to the day number. */
  lemma {:induction false} AddDaysOrdinal(d: Date, n: nat)
    requires Valid(d)
    ensures Ordinal(AddDays(d, n)) == Ordinal(d) + n
    decreases n
  {
    if n > 0 {
      NextDayOrdinal(d);
      AddDaysOrdinal(NextDay(d), n - 1);
    }
  }

  /** Different valid dates have different day numbers, so a day number names one date. */
  lemma OrdinalInjective(d: Date, e: Date)
    requires Valid(d) && Valid(e) && Ordinal(d) == Ordinal(e)
    ensures d == e
  {
    if d.year < e.year {
      YearsApart(d, e);
    } else if e.year < d.year {
      YearsApart(e, d);
    } else if d.month < e.month {
      MonthsApart(d, e);
    } else if e.month < d.month {
      MonthsApart(e, d);
    }
  }

  lemma YearsApart(d: Date, e: Date)
    requires Valid(d) && Valid(e) && d.year < e.year
    ensures Ordinal(d) < Ordinal(e)
  {
    DaysBeforeDecember(d.year);
    if d.month < 12 {
      DaysBeforeMonthGrows(d.year, d.month, 12);
    }
    DaysBeforeYearGrows(d.year, e.year);
  }

  lemma {:induction false} DaysBeforeYearGrows(y: int, z: int)
    requires 1 <= y < z
    ensures DaysBeforeYear(y) + DaysInYear(y) <= DaysBeforeYear(z)
    decreases z - y
  {
    if y + 1 < z {
      DaysBeforeYearGrows(y + 1, z);
    }
  }

  lemma MonthsApart(d: Date, e: Date)
    requires Valid(d) && Valid(e) && d.year == e.year && d.month < e.month
    ensures Ordinal(d) < Ordinal(e)
  {
    DaysBeforeMonthGrows(d.year, d.month, e.month);
  }

  lemma {:induction false} DaysBeforeMonthGrows(y: int, m: int, n: int)
    requires 1 <= m < n <= 12
    ensures DaysBeforeMonth(y, m) + DaysInMonth(y, m) <= DaysBeforeMonth(y, n)
    decreases n - m
  {
    if m + 1 < n {
      DaysBeforeMonthGrows(y, m + 1, n);
    }
  }

  // ---------------------------------------------------------------------
  // The deadline
  // ---------------------------------------------------------------------

  /** Moving `n` days forward moves the weekday forward by `n`, modulo 7. */
  lemma AddDaysWeekday(d: Date, n: nat)
    requires Valid(d)
    ensures WeekdayOf(AddDays(d, n)) == WeekdayAfter(WeekdayOf(d), n)
  {
    AddDaysOrdinal(d, n);
    var o := Ordinal(d);
    assert o == 7 * (o / 7) + o % 7;
    assert o + n == 7 * (o / 7) + (o % 7 + n);
    ModShift(o / 7, o % 7 + n);
  }

  lemma ModShift(q: int, r: int)
    requires r >= 0
    ensures (7 * q + r) % 7 == r % 7
  {
  }

  /**
   * The date part of the deadline: a Monday one to seven days after `today`,
   * with no Monday in between.
   */
  function DeadlineDate(today: Date): (r: Date)
    requires Valid(today)
    ensures Valid(r) && WeekdayOf(r) == Monday
    ensures 1 <= Ordinal(r) - Ordinal(today) <= 7
    ensures forall k: nat :: 1 <= k < Ordinal(r) - Ordinal(today) ==> WeekdayOf(AddDays(today, k)) != Monday
  {
    var n := DaysUntilMonday(WeekdayOf(today));
    DeadlineFacts(today, n);
    AddDays(today, n)
  }

  lemma DeadlineFacts(today: Date, n: nat)
    requires Valid(today) && n == DaysUntilMonday(WeekdayOf(today))
    ensures WeekdayOf(AddDays(today, n)) == Monday && Ordinal(AddDays(today, n)) == Ordinal(today) + n
    ensures forall k: nat :: 1 <= k < n ==> WeekdayOf(AddDays(today, k)) != Monday
  {
    AddDaysOrdinal(today, n);
    AddDaysWeekday(today, n);
    forall k: nat | 1 <= k < n
      ensures WeekdayOf(AddDays(today, k)) != Monday
    {
      AddDaysWeekday(today, k);
    }
  }

  /** `setHours(18, 0, 0, 0)`. */
  const DeadlineHours: nat := 18
  const DeadlineMinutes: nat := 0
  const DeadlineSeconds: nat := 0

  /** `${hours}:${minutes}:${seconds}`, each padded to two digits. */
  function ClockText(h: nat, m: nat, s: nat): string {
    PadStart2(NatToDecimal(h)) + ":" + PadStart2(NatToDecimal(m)) + ":" + PadStart2(NatToDecimal(s))
  }

  lemma DeadlineClockText()
    ensures ClockText(DeadlineHours, DeadlineMinutes, DeadlineSeconds) == "18:00:00"
  {
    assert NatToDecimal(18) == "18";
    assert NatToDecimal(0) == "0";
    assert PadStart2("0") == "00";
  }

  /** `${year}-${month}-${day} ${hours}:${minutes}:${seconds}`, every field but the year padded to two digits. */
  function CalculateDeadlineDate(today: Date): (r: string)
    requires Valid(today)
    ensures var d := DeadlineDate(today); r == DeliveryDate.IsoDate(d.year, d.month, d.day) + " 18:00:00"
  {
    var d := DeadlineDate(today);
    DeadlineClockText();
    DeliveryDate.IsoDate(d.year, d.month, d.day) + " " + ClockText(DeadlineHours, DeadlineMinutes, DeadlineSeconds)
  }

  /**
   * The deadline text is the date of the next Monday, a space and
   * `18:00:00`; the text before the space is exactly that date.
   */
  lemma DeadlineFormat(today: Date)
    requires Valid(today)
    ensures var d := DeadlineDate(today);
      CalculateDeadlineDate(today) == DeliveryDate.IsoDate(d.year, d.month, d.day) + " " + "18:00:00"
    ensures var d := DeadlineDate(today);
      Split(CalculateDeadlineDate(today), ' ')[0] == DeliveryDate.IsoDate(d.year, d.month, d.day)
  {
    var d := DeadlineDate(today);
    DeadlineClockText();
    IsoDateHasNoSpace(d.year, d.month, d.day);
    SplitHeadBefore(DeliveryDate.IsoDate(d.year, d.month, d.day), "18:00:00", ' ');
  }

  lemma SplitHeadBefore(a: string, b: string, sep: char)
    requires sep !in a
    ensures Split(a + [sep] + b, sep)[0] == a
  {
    SplitCons(a, b, sep);
  }

  lemma IsoDateHasNoSpace(year: nat, month: nat, day: nat)
    ensures ' ' !in DeliveryDate.IsoDate(year, month, day)
  {
    var y, m, d := NatToDecimal(year), PadStart2(NatToDecimal(month)), PadStart2(NatToDecimal(day));
    PadStart2Value(NatToDecimal(month));
    PadStart2Value(NatToDecimal(day));
    assert DeliveryDate.IsoDate(year, month, day) == y + "-" + m + "-" + d;
  }
}

=== FILE: delivery_date.dfy ===
/**
 * `parseDeliveryDateTime` of checkout.js: the label of the chosen delivery
 * slot, such as "Mon 2nd Feb 7am - 5pm", turned into an ISO date and a time
 * window. The date is found with `/(\w+)\s+(\d+)(?:st|nd|rd|th)?\s+(\w+)/i`
 * and the window with `/(\d+(?:am|pm))\s*-\s*(\d+(?:am|pm))/i`, each at the
 * leftmost position where it matches.
 */
module DeliveryDate {
  import opened Maybe
  import opened Text

  /** The three capture groups of the date pattern. */
  datatype DateGroups = DateGroups(dayName: string, day: string, month: string)

  /** The window used when none is found in the label. */
  const DefaultTime: string := "7am - 5pm"

  /** `(?:st|nd|rd|th)` under the `i` flag, at index `c`. */
  predicate OrdinalSuffixAt(s: string, c: nat) {
    c + 2 <= |s| &&
    var x, y := LowerChar(s[c]), LowerChar(s[c + 1]);
    (x == 's' && y == 't') || (x == 'n' && y == 'd') || (x == 'r' && y == 'd') || (x == 't' && y == 'h')
  }

  /** `(?:am|pm)` under the `i` flag, at index `c`. */
  predicate MeridiemAt(s: string, c: nat) {
    c + 2 <= |s| && (LowerChar(s[c]) == 'a' || LowerChar(s[c]) == 'p') && LowerChar(s[c + 1]) == 'm'
  }

  // ---------------------------------------------------------------------
  // The date pattern
  // ---------------------------------------------------------------------

  /**
   * A way the date pattern can match at `p`: a word `s[p..a]`, whitespace
   * `s[a..b]`, digits `s[b..c]`, an optional ordinal suffix `s[c..d]`,
   * whitespace `s[d..e]` and a word `s[e..f]`.
   */
  predicate DateShape(s: string, p: int, a: int, b: int, c: int, d: int, e: int, f: int) {
    0 <= p < a < b < c <= d < e < f <= |s|
    && Each(s, p, a, IsWordChar) && Each(s, a, b, IsSpace) && Each(s, b, c, IsDigit)
    && (d == c || (d == c + 2 && OrdinalSuffixAt(s, c)))
    && Each(s, d, e, IsSpace) && Each(s, e, f, IsWordChar)
  }

  /** The date pattern matches at `p` in some way. */
  ghost predicate DateMatchable(s: string, p: int) {
    exists a, b, c, d, e, f :: DateShape(s, p, a, b, c, d, e, f)
  }

  /**
   * The groups the date pattern captures when it matches at `p`: among the
   * ways it can match, the one whose final greedy word is not followed by
   * another word character.
   */
  ghost predicate DateMatch(s: string, p: int, g: DateGroups) {
    exists a, b, c, d, e, f :: DateShape(s, p, a, b, c, d, e, f) && (f == |s| || !IsWordChar(s[f]))
      && g == DateGroups(s[p..a], s[b..c], s[e..f])
  }

  /** `text.match(re)` for the date pattern: `p` is the leftmost position where it matches, with groups `g`. */
  ghost predicate LeftmostDate(s: string, p: int, g: DateGroups) {
    DateMatch(s, p, g) && forall q :: 0 <= q < p ==> !DateMatchable(s, q)
  }

  ghost predicate NoDate(s: string) {
    forall q :: 0 <= q <= |s| ==> !DateMatchable(s, q)
  }

  /**
   * Once the maximal runs from `p` are known, the pattern matches at `p`
   * exactly when each of them is non-empty: a shorter run would be followed
   * by a character of its own class, which the next part of the pattern
   * does not accept.
   */
  lemma DateShapeForced(s: string, p: int, a: int, b: int, c: int, d: int, e: int, f: int)
    requires MaxRun(s, p, a, IsWordChar) && MaxRun(s, a, b, IsSpace) && MaxRun(s, b, c, IsDigit)
    requires d == (if OrdinalSuffixAt(s, c) then c + 2 else c)
    requires MaxRun(s, d, e, IsSpace) && MaxRun(s, e, f, IsWordChar)
    ensures DateMatchable(s, p) <==> p < a < b < c && d < e < f
  {
    if p < a < b < c && d < e < f {
      assert DateShape(s, p, a, b, c, d, e, f);
    }
    if DateMatchable(s, p) {
      var a', b', c', d', e', f' :| DateShape(s, p, a', b', c', d', e', f');
      DateShapeRuns(s, p, a', b', c', d', e', f');
      MaxRunUnique(s, p, a, a', IsWordChar);
      MaxRunUnique(s, a, b, b', IsSpace);
      MaxRunUnique(s, b, c, c', IsDigit);
      MaxRunUnique(s, d, e, e', IsSpace);
      MaxRunCovers(s, e, f, IsWordChar, f');
    }
  }

  /** The first five runs of any way the pattern matches are the maximal ones. */
  lemma DateShapeRuns(s: string, p: int, a: int, b: int, c: int, d: int, e: int, f: int)
    requires DateShape(s, p, a, b, c, d, e, f)
    ensures MaxRun(s, p, a, IsWordChar) && MaxRun(s, a, b, IsSpace) && MaxRun(s, b, c, IsDigit)
    ensures d == (if OrdinalSuffixAt(s, c) then c + 2 else c) && MaxRun(s, d, e, IsSpace)
  {
    assert !IsDigit(s[c]) && (OrdinalSuffixAt(s, c) <==> d == c + 2) by {
      if d == c {
        assert IsSpace(s[d]);
      }
    }
  }

  /**
   * `re.exec` of the date pattern anchored at `p`. Every greedy run in it is
   * followed by a character its class excludes, so backtracking never
   * settles on a shorter run: each run is the maximal one, and the ordinal
   * suffix is taken whenever it is there.
   */
  method DateMatchAt(s: string, p: nat) returns (r: Option<DateGroups>)
    requires p <= |s|
    ensures r.Some? <==> DateMatchable(s, p)
    ensures r.Some? ==> DateMatch(s, p, r.value)
  {
    var a := RunEnd(s, p, IsWordChar);
    var b := RunEnd(s, a, IsSpace);
    var c := RunEnd(s, b, IsDigit);
    var d := if OrdinalSuffixAt(s, c) then c + 2 else c;
    var e := RunEnd(s, d, IsSpace);
    var f := RunEnd(s, e, IsWordChar);
    DateShapeForced(s, p, a, b, c, d, e, f);
    if p < a < b < c && d < e < f {
      assert DateShape(s, p, a, b, c, d, e, f);
      r := Some(DateGroups(s[p..a], s[b..c], s[e..f]));
    } else {
      r := None;
    }
  }

  /** The pattern captures one set of groups at a position: the final word can only end where the word does. */
  lemma DateMatchUnique(s: string, p: int, g: DateGroups, g': DateGroups)
    requires DateMatch(s, p, g) && DateMatch(s, p, g')
    ensures g == g'
  {
    var a, b, c, d, e, f :| DateShape(s, p, a, b, c, d, e, f) && (f == |s| || !IsWordChar(s[f]))
      && g == DateGroups(s[p..a], s[b..c], s[e..f]);
    var a', b', c', d', e', f' :| DateShape(s, p, a', b', c', d', e', f') && (f' == |s| || !IsWordChar(s[f']))
      && g' == DateGroups(s[p..a'], s[b'..c'], s[e'..f']);
    DateShapeRuns(s, p, a, b, c, d, e, f);
    DateShapeRuns(s, p, a', b', c', d', e', f');
    MaxRunUnique(s, p, a, a', IsWordChar);
    MaxRunUnique(s, a, b, b', IsSpace);
    MaxRunUnique(s, b, c, c', IsDigit);
    MaxRunUnique(s, d, e, e', IsSpace);
    MaxRunUnique(s, e, f, f', IsWordChar);
  }

  /** The day group of a match is a non-empty digit string. */
  lemma DateMatchDay(s: string, p: int, g: DateGroups)
    requires DateMatch(s, p, g)
    ensures |g.day| >= 1 && All(g.day, IsDigit)
  {
  }

  /** `deliveryDateText.match(dateRe)`: the leftmost match, tried at each position in turn. */
  method FirstDateMatch(s: string) returns (r: Option<(nat, DateGroups)>)
    ensures r.Some? ==> r.value.0 <= |s| && LeftmostDate(s, r.value.0, r.value.1)
    ensures r.None? <==> NoDate(s)
  {
    var p := 0;
    while p <= |s|
      invariant p <= |s| + 1
      invariant forall q :: 0 <= q < p ==> !DateMatchable(s, q)
    {
      var m := DateMatchAt(s, p);
      if m.Some? {
        return Some((p, m.value));
      }
      p := p + 1;
    }
    r := None;
  }

  // ---------------------------------------------------------------------
  // The time-window pattern
  // ---------------------------------------------------------------------

  /**
   * A way the window pattern can match at `p`: digits `s[p..a]` and am/pm,
   * whitespace up to the dash at `b`, whitespace up to `c`, then digits
   * `s[c..d]` and am/pm.
   */
  predicate TimeShape(s: string, p: int, a: int, b: int, c: int, d: int) {
    0 <= p < a && a + 2 <= b < c < d && d + 2 <= |s|
    && Each(s, p, a, IsDigit) && MeridiemAt(s, a) && Each(s, a + 2, b, IsSpace) && s[b] == '-'
    && Each(s, b + 1, c, IsSpace) && Each(s, c, d, IsDigit) && MeridiemAt(s, d)
  }

  ghost predicate TimeMatchable(s: string, p: int) {
    exists a, b, c, d :: TimeShape(s, p, a, b, c, d)
  }

  /** The two groups the window pattern captures at `p`. */
  ghost predicate TimeMatch(s: string, p: int, g: (string, string)) {
    exists a, b, c, d :: TimeShape(s, p, a, b, c, d) && g == (s[p..a + 2], s[c..d + 2])
  }

  ghost predicate LeftmostTime(s: string, p: int, g: (string, string)) {
    TimeMatch(s, p, g) && forall q :: 0 <= q < p ==> !TimeMatchable(s, q)
  }

  ghost predicate NoTime(s: string) {
    forall q :: 0 <= q <= |s| ==> !TimeMatchable(s, q)
  }

  /** Every run of a way the window pattern matches is the maximal one. */
  lemma TimeShapeRuns(s: string, p: int, a: int, b: int, c: int, d: int)
    requires TimeShape(s, p, a, b, c, d)
    ensures MaxRun(s, p, a, IsDigit) && MaxRun(s, a + 2, b, IsSpace)
    ensures MaxRun(s, b + 1, c, IsSpace) && MaxRun(s, c, d, IsDigit)
  {
  }

  /**
   * Once the maximal runs are known, the window pattern matches at `p`
   * exactly when they are non-empty where the pattern needs it and are
   * followed by am/pm and the dash.
   */
  lemma TimeShapeForced(s: string, p: int, a: int, b: int, c: int, d: int)
    requires MaxRun(s, p, a, IsDigit) && a + 2 <= |s| && MaxRun(s, a + 2, b, IsSpace)
    requires b < |s| && MaxRun(s, b + 1, c, IsSpace) && MaxRun(s, c, d, IsDigit)
    ensures TimeMatchable(s, p) <==> p < a && MeridiemAt(s, a) && s[b] == '-' && c < d && MeridiemAt(s, d)
  {
    if p < a && MeridiemAt(s, a) && s[b] == '-' && c < d && MeridiemAt(s, d) {
      assert TimeShape(s, p, a, b, c, d);
    }
    if TimeMatchable(s, p) {
      var a', b', c', d' :| TimeShape(s, p, a', b', c', d');
      TimeShapeRuns(s, p, a', b', c', d');
      MaxRunUnique(s, p, a, a', IsDigit);
      MaxRunUnique(s, a + 2, b, b', IsSpace);
      MaxRunUnique(s, b + 1, c, c', IsSpace);
      MaxRunUnique(s, c, d, d', IsDigit);
    }
  }

  /** Where the first digit run is too short for am/pm or the dash is missing, the pattern cannot match. */
  lemma TimeShapeCut(s: string, p: int, a: int, b: int)
    requires MaxRun(s, p, a, IsDigit)
    requires a + 2 <= |s| ==> MaxRun(s, a + 2, b, IsSpace)
    requires a + 2 > |s| || b == |s|
    ensures !TimeMatchable(s, p)
  {
    if TimeMatchable(s, p) {
      var a', b', c', d' :| TimeShape(s, p, a', b', c', d');
      TimeShapeRuns(s, p, a', b', c', d');
      MaxRunUnique(s, p, a, a', IsDigit);
      MaxRunUnique(s, a + 2, b, b', IsSpace);
    }
  }

  /** `re.exec` of the window pattern anchored at `p`; as for the date, every run is maximal. */
  method TimeMatchAt(s: string, p: nat) returns (r: Option<(string, string)>)
    requires p <= |s|
    ensures r.Some? <==> TimeMatchable(s, p)
    ensures r.Some? ==> TimeMatch(s, p, r.value)
  {
    var a := RunEnd(s, p, IsDigit);
    var b := a;
    if a + 2 <= |s| {
      b := RunEnd(s, a + 2, IsSpace);
    }
    if a + 2 > |s| || b == |s| {
      TimeShapeCut(s, p, a, b);
      return None;
    }
    var c := RunEnd(s, b + 1, IsSpace);
    var d := RunEnd(s, c, IsDigit);
    TimeShapeForced(s, p, a, b, c, d);
    if p < a && MeridiemAt(s, a) && s[b] == '-' && c < d && MeridiemAt(s, d) {
      assert TimeShape(s, p, a, b, c, d);
      r := Some((s[p..a + 2], s[c..d + 2]));
    } else {
      r := None;
    }
  }

  /** The window pattern captures one pair of groups at a position. */
  lemma TimeMatchUnique(s: string, p: int, g: (string, string), g': (string, string))
    requires TimeMatch(s, p, g) && TimeMatch(s, p, g')
    ensures g == g'
  {
    var a, b, c, d :| TimeShape(s, p, a, b, c, d) && g == (s[p..a + 2], s[c..d + 2]);
    var a', b', c', d' :| TimeShape(s, p, a', b', c', d') && g' == (s[p..a' + 2], s[c'..d' + 2]);
    TimeShapeSame(s, p, a, b, c, d, a', b', c', d');
    TimeGroupsSame(s, p, g, g', a, b, c, d, a', b', c', d');
  }

  lemma TimeGroupsSame(s: string, p: int, g: (string, string), g': (string, string),
                       a: int, b: int, c: int, d: int, a': int, b': int, c': int, d': int)
    requires TimeShape(s, p, a, b, c, d) && g == (s[p..a + 2], s[c..d + 2])
    requires TimeShape(s, p, a', b', c', d') && g' == (s[p..a' + 2], s[c'..d' + 2])
    requires a == a' && c == c' && d == d'
    ensures g == g'
  {
  }

  lemma TimeShapeSame(s: string, p: int, a: int, b: int, c: int, d: int, a': int, b': int, c': int, d': int)
    requires TimeShape(s, p, a, b, c, d) && TimeShape(s, p, a', b', c', d')
    ensures a == a' && c == c' && d == d'
  {
    TimeShapeRuns(s, p, a, b, c, d);
    TimeShapeRuns(s, p, a', b', c', d');
    MaxRunUnique(s, p, a, a', IsDigit);
    MaxRunUnique(s, a + 2, b, b', IsSpace);
    MaxRunUnique(s, b + 1, c, c', IsSpace);
    MaxRunUnique(s, c, d, d', IsDigit);
  }

  /** `deliveryDateText.match(timeRe)`: the leftmost match of the window pattern. */
  method FirstTimeMatch(s: string) returns (r: Option<(nat, (string, string))>)
    ensures r.Some? ==> r.value.0 <= |s| && LeftmostTime(s, r.value.0, r.value.1)
    ensures r.None? <==> NoTime(s)
  {
    var p := 0;
    while p <= |s|
      invariant p <= |s| + 1
      invariant forall q :: 0 <= q < p ==> !TimeMatchable(s, q)
    {
      var m := TimeMatchAt(s, p);
      if m.Some? {
        return Some((p, m.value));
      }
      p := p + 1;
    }
    r := None;
  }

  // ---------------------------------------------------------------------
  // Months and the parsed result
  // ---------------------------------------------------------------------

  /** The keys of the month table, in lower case, with their month numbers. */
  const MonthNames: seq<(string, nat)> := [
    ("jan", 1), ("january", 1), ("feb", 2), ("february", 2), ("mar", 3), ("march", 3),
    ("apr", 4), ("april", 4), ("may", 5), ("jun", 6), ("june", 6), ("jul", 7), ("july", 7),
    ("aug", 8), ("august", 8), ("sep", 9), ("september", 9), ("oct", 10), ("october", 10),
    ("nov", 11), ("november", 11), ("dec", 12), ("december", 12)]

  /** `monthMap[name]` for an already lower-cased name. */
  function MonthNumber(name: string): (r: Option<nat>)
    ensures r.Some? <==> exists i :: 0 <= i < |MonthNames| && MonthNames[i].0 == name
    ensures r.Some? ==> 1 <= r.value <= 12
    ensures r.Some? ==> exists i :: 0 <= i < |MonthNames| && MonthNames[i] == (name, r.value)
  {
    MonthIn(MonthNames, name)
  }

  function MonthIn(table: seq<(string, nat)>, name: string): (r: Option<nat>)
    requires forall i :: 0 <= i < |table| ==> 1 <= table[i].1 <= 12
    ensures r.Some? <==> exists i :: 0 <= i < |table| && table[i].0 == name
    ensures r.Some? ==> 1 <= r.value <= 12
    ensures r.Some? ==> exists i :: 0 <= i < |table| && table[i] == (name, r.value)
  {
    if |table| == 0 then None
    else if table[0].0 == name then Some(table[0].1)
    else
      MonthInTail(table, name);
      MonthIn(table[1..], name)
  }

  lemma MonthInTail(table: seq<(string, nat)>, name: string)
    requires |table| > 0 && table[0].0 != name
    ensures (exists i :: 0 <= i < |table| && table[i].0 == name) <==> (exists i :: 0 <= i < |table[1..]| && table[1..][i].0 == name)
    ensures forall v :: (exists i :: 0 <= i < |table[1..]| && table[1..][i] == (name, v)) ==> (exists i :: 0 <= i < |table| && table[i] == (name, v))
  {
    if exists i :: 0 <= i < |table| && table[i].0 == name {
      var i :| 0 <= i < |table| && table[i].0 == name;
      assert table[1..][i - 1] == table[i];
    }
    forall v | exists i :: 0 <= i < |table[1..]| && table[1..][i] == (name, v)
      ensures exists i :: 0 <= i < |table| && table[i] == (name, v)
    {
      var i :| 0 <= i < |table[1..]| && table[1..][i] == (name, v);
      assert table[i + 1] == (name, v);
    }
  }

  /** `${year}-${MM}-${DD}` with the month and day padded to two digits. */
  function IsoDate(year: nat, month: nat, day: nat): string {
    NatToDecimal(year) + "-" + PadStart2(NatToDecimal(month)) + "-" + PadStart2(NatToDecimal(day))
  }

  /** The window `parseDeliveryDateTime` reports for a label: the leftmost written one, or the default. */
  ghost predicate WindowOf(text: string, time: string) {
    (NoTime(text) && time == DefaultTime)
    || exists q, g :: LeftmostTime(text, q, g) && time == g.0 + " - " + g.1
  }

  /** A text has at most one leftmost match of the date pattern. */
  lemma LeftmostDateUnique(s: string, q: int, g: DateGroups, q': int, g': DateGroups)
    requires LeftmostDate(s, q, g) && LeftmostDate(s, q', g')
    ensures q == q' && g == g'
  {
    DateMatchIsMatchable(s, q, g);
    DateMatchIsMatchable(s, q', g');
    DateMatchUnique(s, q, g, g');
  }

  lemma DateMatchIsMatchable(s: string, p: int, g: DateGroups)
    requires DateMatch(s, p, g)
    ensures DateMatchable(s, p) && 0 <= p <= |s|
  {
    var a, b, c, d, e, f :| DateShape(s, p, a, b, c, d, e, f) && (f == |s| || !IsWordChar(s[f]))
      && g == DateGroups(s[p..a], s[b..c], s[e..f]);
  }

  /**
   * `parseDeliveryDateTime(deliveryDateValue, deliveryDateText)`. The value
   * argument is never read, so it is not a parameter here; `year` stands for
   * `new Date().getFullYear()` and `today` for the date part of the current
   * time's ISO string. With a leftmost date match whose month word is in the
   * month table, the date is that year, month and day, and the window is
   * looked for; in every other case the result is today with the default
   * window.
   */
  method ParseDeliveryDateTime(text: string, year: nat, today: string) returns (date: string, time: string)
    ensures NoDate(text) ==> date == today && time == DefaultTime
    ensures forall q, g :: LeftmostDate(text, q, g) && MonthNumber(Lower(g.month)).None? ==>
      date == today && time == DefaultTime
    ensures forall q, g :: LeftmostDate(text, q, g) && MonthNumber(Lower(g.month)).Some? ==>
      (DateMatchDay(text, q, g);
       date == IsoDate(year, MonthNumber(Lower(g.month)).value, DecimalValue(g.day)) && WindowOf(text, time))
  {
    date, time := today, DefaultTime;
    var dm := FirstDateMatch(text);
    if dm.Some? {
      var (q0, g0) := dm.value;
      DateMatchDay(text, q0, g0);
      var month := MonthNumber(Lower(g0.month));
      if month.Some? {
        date := IsoDate(year, month.value, DecimalValue(g0.day));
        var tm := FirstTimeMatch(text);
        if tm.Some? {
          time := tm.value.1.0 + " - " + tm.value.1.1;
        }
        assert WindowOf(text, time);
      }
      forall q, g | LeftmostDate(text, q, g)
        ensures q == q0 && g == g0
      {
        LeftmostDateUnique(text, q, g, q0, g0);
      }
      forall q, g | LeftmostDate(text, q, g) && MonthNumber(Lower(g.month)).Some?
        ensures (DateMatchDay(text, q, g);
          date == IsoDate(year, MonthNumber(Lower(g.month)).value, DecimalValue(g.day)) && WindowOf(text, time))
      {
        assert g == g0;
      }
    } else {
      forall q, g | LeftmostDate(text, q, g)
        ensures 0 <= q <= |text| && DateMatchable(text, q)
      {
        DateMatchIsMatchable(text, q, g);
      }
    }
  }

  /**
   * The produced date reads back as the year, the month and the day: split at
   * the dashes, the three parts are digit strings whose values are those
   * numbers, and month and day are written with at least two digits.
   */
  lemma IsoDateRoundTrip(year: nat, month: nat, day: nat)
    ensures var parts := Split(IsoDate(year, month, day), '-');
      |parts| == 3 && All(parts[0], IsDigit) && All(parts[1], IsDigit) && All(parts[2], IsDigit)
      && DecimalValue(parts[0]) == year && DecimalValue(parts[1]) == month && DecimalValue(parts[2]) == day
      && |parts[1]| >= 2 && |parts[2]| >= 2
  {
    var y, m, d := NatToDecimal(year), PadStart2(NatToDecimal(month)), PadStart2(NatToDecimal(day));
    PadStart2Value(NatToDecimal(month));
    PadStart2Value(NatToDecimal(day));
    DecimalRoundTrip(year);
    DecimalRoundTrip(month);
    DecimalRoundTrip(day);
    DashedParts(y, m, d);
  }

  /** Three digit strings joined with dashes split back into themselves. */
  lemma DashedParts(y: string, m: string, d: string)
    requires All(y, IsDigit) && All(m, IsDigit) && All(d, IsDigit)
    ensures Split(y + "-" + m + "-" + d, '-') == [y, m, d]
  {
    NoDash(y);
    NoDash(m);
    NoDash(d);
    DashedText(y, m, d);
    SplitCons(m, d, '-');
    SplitWithoutSep(d, '-');
    SplitCons(y, m + ['-'] + d, '-');
  }

  lemma DashedText(y: string, m: string, d: string)
    ensures y + "-" + m + "-" + d == y + ['-'] + (m + ['-'] + d)
  {
  }

  lemma NoDash(s: string)
    requires All(s, IsDigit)
    ensures '-' !in s
  {
  }
}

=== FILE: dot_notation.dfy ===
/**
 * `convertDotNotationToNested` of iterable-config.js: the data fields of an
 * `updateUser` or `trackEvent` call, walked in enumeration order, with every
 * dotted key (`account.boxName`) turned into a nested object path.
 */
module DotNotation {
  import opened Maybe
  import opened Text
  import opened Json

  predicate IsDotted(key: string) {
    '.' in key
  }

  /** The top-level key an entry ends up under: the text before the first dot. */
  function FirstSegment(key: string): string {
    Split(key, '.')[0]
  }

  lemma FirstSegmentUndotted(key: string)
    requires !IsDotted(key)
    ensures FirstSegment(key) == key
  {
    SplitWithoutSep(key, '.');
  }

  lemma DecimalInjective(i: nat, j: nat)
    requires NatToDecimal(i) == NatToDecimal(j)
    ensures i == j
  {
    DecimalRoundTrip(i);
    DecimalRoundTrip(j);
  }

  /** The own enumerable properties `{ ...v }` copies out of an object or array. */
  function SpreadOf(v: Value): map<string, Value>
    requires v.Obj? || v.Arr?
  {
    match v
    case Obj(m) => m
    case Arr(xs) =>
      assert forall i: nat, j: nat :: NatToDecimal(i) == NatToDecimal(j) ==> i == j by {
        forall i: nat, j: nat | NatToDecimal(i) == NatToDecimal(j) ensures i == j {
          DecimalInjective(i, j);
        }
      }
      map i: nat | i < |xs| :: NatToDecimal(i) := xs[i]
  }

  /**
   * One iteration of the conversion loop: a dotted key writes its path; an
   * undotted key holding a plain object is shallow-merged into an object
   * already there; any other undotted entry is assigned as is.
   */
  function Step(nested: map<string, Value>, key: string, value: Value): (r: Result<map<string, Value>, PathError>)
    ensures r.Ok? ==> r.value.Keys == nested.Keys + {FirstSegment(key)}
    ensures r.Ok? ==> forall k :: k in nested && k != FirstSegment(key) ==> r.value[k] == nested[k]
    ensures IsDotted(key) && r.Ok? ==> Lookup(Obj(r.value), Split(key, '.')) == Some(value)
    ensures IsDotted(key) && r.Ok? ==>
      forall q :: |q| >= 1 && Apart(q, Split(key, '.')) ==> Lookup(Obj(r.value), q) == Lookup(Obj(nested), q)
    ensures !IsDotted(key) ==> r.Ok?
    ensures !IsDotted(key) && !value.Obj? ==> r.value[key] == value
    ensures !IsDotted(key) && value.Obj? && key in nested && nested[key].Obj? ==>
      r.value[key] == Obj(nested[key].fields + value.fields)
    ensures !IsDotted(key) && value.Obj? && (key !in nested || !Truthy(nested[key])) ==>
      r.value[key] == value
    ensures !IsDotted(key) && value.Obj? && key in nested && nested[key].Arr? ==>
      r.value[key] == Obj(SpreadOf(nested[key]) + value.fields)
    ensures !IsDotted(key) && value.Obj? && key in nested && Truthy(nested[key]) && !nested[key].Obj? && !nested[key].Arr? ==>
      r.value[key] == value
  {
    if IsDotted(key) then
      SetPath(nested, Split(key, '.'), value)
    else
      FirstSegmentUndotted(key);
      if value.Obj? && key in nested && Truthy(nested[key]) && (nested[key].Obj? || nested[key].Arr?) then
        Ok(nested[key := Obj(SpreadOf(nested[key]) + value.fields)])
      else
        Ok(nested[key := value])
  }

  /** The set of top-level keys an input produces. */
  function FirstSegments(data: Fields): set<string> {
    set i | 0 <= i < |data| :: FirstSegment(data[i].0)
  }

  lemma FirstSegmentsSnoc(data: Fields)
    requires |data| > 0
    ensures FirstSegments(data) == FirstSegments(data[..|data| - 1]) + {FirstSegment(data[|data| - 1].0)}
  {
    var p := data[..|data| - 1];
    forall s | s in FirstSegments(data)
      ensures s in FirstSegments(p) + {FirstSegment(data[|data| - 1].0)}
    {
      var i :| 0 <= i < |data| && FirstSegment(data[i].0) == s;
      if i < |data| - 1 {
        assert p[i] == data[i];
      }
    }
    forall s | s in FirstSegments(p)
      ensures s in FirstSegments(data)
    {
      var i :| 0 <= i < |p| && FirstSegment(p[i].0) == s;
      assert data[i] == p[i];
    }
  }

  /**
   * `convertDotNotationToNested(dataFields)`. A strict-mode TypeError thrown
   * by a write through a primitive is the `Err` outcome; the callers catch it
   * and reject.
   */
  function ConvertDotNotationToNested(data: Fields): (r: Result<map<string, Value>, PathError>)
    ensures r.Ok? ==> r.value.Keys == FirstSegments(data)
    decreases |data|
  {
    if |data| == 0 then Ok(map[])
    else
      FirstSegmentsSnoc(data);
      match ConvertDotNotationToNested(data[..|data| - 1])
      case Err(e) => Err(e)
      case Ok(n) => Step(n, data[|data| - 1].0, data[|data| - 1].1)
  }

  /** A value found under a path depends only on the entry of its first key. */
  lemma LookupSameHead(m: map<string, Value>, m': map<string, Value>, path: seq<string>)
    requires |path| >= 1
    requires path[0] in m && path[0] in m' && m[path[0]] == m'[path[0]]
    ensures Lookup(Obj(m), path) == Lookup(Obj(m'), path)
  {
  }

  /** A value found under a path survives one step whose key's path parts from it. */
  lemma StepKeepsApartPath(n: map<string, Value>, key: string, value: Value, path: seq<string>)
    requires |path| >= 1 && Lookup(Obj(n), path).Some?
    requires Apart(Split(key, '.'), path)
    requires Step(n, key, value).Ok?
    ensures Lookup(Obj(Step(n, key, value).value), path) == Lookup(Obj(n), path)
  {
    if !IsDotted(key) {
      FirstSegmentUndotted(key);
      SplitWithoutSep(key, '.');
      assert path[..1] == [path[0]];
      LookupSameHead(n, Step(n, key, value).value, path);
    }
  }

  /**
   * A dotted entry's value sits at its path in the result, provided every
   * later entry's path parts from it: none is a prefix of it, equal to it, or
   * an extension of it. Later entries under the same top-level key, such as
   * `company.size` after `company.name`, leave it in place.
   */
  lemma {:induction false} DottedValuePlaced(data: Fields, i: nat)
    requires i < |data| && IsDotted(data[i].0)
    requires forall j :: i < j < |data| ==> Apart(Split(data[j].0, '.'), Split(data[i].0, '.'))
    requires ConvertDotNotationToNested(data).Ok?
    ensures Lookup(Obj(ConvertDotNotationToNested(data).value), Split(data[i].0, '.')) == Some(data[i].1)
    decreases |data|
  {
    var p := data[..|data| - 1];
    var last := data[|data| - 1];
    if i < |data| - 1 {
      assert p[i] == data[i];
      forall j | i < j < |p|
        ensures Apart(Split(p[j].0, '.'), Split(p[i].0, '.'))
      {
        assert p[j] == data[j];
      }
      var n := ConvertDotNotationToNested(p).value;
      DottedValuePlaced(p, i);
      StepKeepsApartPath(n, last.0, last.1, Split(data[i].0, '.'));
    }
  }

  /** On input without dotted keys, the conversion returns the object unchanged. */
  lemma {:induction false} UndottedIsIdentity(data: Fields)
    requires UniqueKeys(data)
    requires forall i :: 0 <= i < |data| ==> !IsDotted(data[i].0)
    ensures ConvertDotNotationToNested(data) == Ok(ToMap(data))
    decreases |data|
  {
    if |data| > 0 {
      var p := data[..|data| - 1];
      var last := data[|data| - 1];
      assert data == p + [last];
      UniqueKeysSnoc(p, last);
      forall i | 0 <= i < |p|
        ensures !IsDotted(p[i].0)
      {
        assert p[i] == data[i];
      }
      UndottedIsIdentity(p);
      var n := ToMap(p);
      assert Step(n, last.0, last.1) == Ok(n[last.0 := last.1]);
      ToMapSnoc(p, last);
    }
  }
}

=== FILE: event_form.dfy ===
/**
 * The custom-event form of custom-event.js: the key/value rows kept as flat
 * keys (`getDataFields`), `parseInt` of the campaign and template ids, and
 * the submit handler's guards and email fallback before `trackEvent`.
 */
module EventForm {
  import opened Maybe
  import opened Text
  import opened Json
  import Session
  import ProfileForm

  type Pair = ProfileForm.Pair

  /** The non-empty trimmed keys of the rows. */
  function KeysOfPairs(pairs: seq<Pair>): set<string>
    decreases |pairs|
  {
    if |pairs| == 0 then {}
    else
      var k := ProfileForm.KeyOf(pairs[|pairs| - 1]);
      KeysOfPairs(pairs[..|pairs| - 1]) + (if k != "" then {k} else {})
  }

  /**
   * `getDataFields`: every row with a non-empty trimmed key sets
   * `fields[key]` to the coerced value; a dotted key stays one flat key, and
   * a repeated key keeps its first position and takes the last value.
   */
  function GetDataFields(pairs: seq<Pair>): (r: Fields)
    ensures UniqueKeys(r)
    ensures KeysOf(r) == KeysOfPairs(pairs)
    decreases |pairs|
  {
    if |pairs| == 0 then []
    else
      var f := GetDataFields(pairs[..|pairs| - 1]);
      var p := pairs[|pairs| - 1];
      if ProfileForm.KeyOf(p) == "" then f else Put(f, ProfileForm.KeyOf(p), ProfileForm.ValueOf(p))
  }

  /** The last row with a key decides its value, and the other keys keep theirs. */
  lemma LastDuplicateWins(pairs: seq<Pair>, p: Pair)
    requires ProfileForm.KeyOf(p) != ""
    ensures Get(GetDataFields(pairs + [p]), ProfileForm.KeyOf(p)) == Some(ProfileForm.ValueOf(p))
    ensures forall k :: k != ProfileForm.KeyOf(p) ==> Get(GetDataFields(pairs + [p]), k) == Get(GetDataFields(pairs), k)
  {
    assert (pairs + [p])[..|pairs|] == pairs;
  }

  // ---------------------------------------------------------------------
  // parseInt
  // ---------------------------------------------------------------------

  /** Where the digits start: after one optional sign. */
  function DigitsStart(s: string): nat {
    if |s| > 0 && (s[0] == '-' || s[0] == '+') then 1 else 0
  }

  /**
   * `parseInt(s, 10)` of trimmed text: an optional sign and the longest run
   * of decimal digits after it, the rest ignored; `None` (`NaN`) when there
   * is no digit.
   */
  function ParseInt10(s: string): (r: Option<int>)
    ensures r.None? <==> DigitsStart(s) == |s| || !IsDigit(s[DigitsStart(s)])
    ensures r.Some? && r.value < 0 ==> s[0] == '-'
  {
    var start := DigitsStart(s);
    var n := Run(s, start, IsDigit);
    if n == 0 then None
    else
      var magnitude: int := DecimalValue(s[start..start + n]);
      Some(if s[0] == '-' then -magnitude else magnitude)
  }

  /** The run of digits at `start` is exactly the digits of `d` when they are followed by a non-digit or the end. */
  lemma RunOfDigits(s: string, start: nat, d: string)
    requires start + |d| <= |s| && s[start..start + |d|] == d && All(d, IsDigit)
    requires start + |d| == |s| || !IsDigit(s[start + |d|])
    ensures Run(s, start, IsDigit) == |d|
  {
    assert forall j :: start <= j < start + |d| ==> s[j] == d[j - start];
  }

  /**
   * `parseInt` reads back the number `String` prints, whatever follows it
   * when that does not start with a digit.
   */
  lemma ParseIntOfLiteral(i: int, tail: string)
    requires |tail| == 0 || !IsDigit(tail[0])
    ensures ParseInt10(IntLiteral(i) + tail) == Some(i)
  {
    var s := IntLiteral(i) + tail;
    var d := NatToDecimal(if i < 0 then -i else i);
    DecimalRoundTrip(if i < 0 then -i else i);
    if i < 0 {
      assert s == "-" + d + tail;
      assert DigitsStart(s) == 1;
      assert s[1..1 + |d|] == d;
      RunOfDigits(s, 1, d);
    } else {
      assert s == d + tail;
      assert s[0] == d[0];
      assert DigitsStart(s) == 0;
      assert s[..|d|] == d;
      RunOfDigits(s, 0, d);
    }
  }

  /** A campaign or template id: `null` when blank, else `parseInt` of the trimmed text (`NaN`, falsy, is `None` too). */
  function NumericId(text: string): (r: Option<Value>)
    ensures Trim(text) == "" ==> r.None?
    ensures r.Some? ==> ParseInt10(Trim(text)).Some? && r.value == Num(IntLiteral(ParseInt10(Trim(text)).value))
    ensures ParseInt10(Trim(text)).Some? && Trim(text) != "" ==> r.Some?
  {
    var t := Trim(text);
    if t == "" then None
    else match ParseInt10(t)
      case None => None
      case Some(n) => Some(Num(IntLiteral(n)))
  }

  // ---------------------------------------------------------------------
  // The submit handler
  // ---------------------------------------------------------------------

  datatype Outcome =
    | NameRequired                                  // "Please enter an event name"
    | SignInRequired                                // "Please sign in or provide an email address"
    | Track(eventName: string, data: Session.EventData)

  predicate Present(s: Option<string>) {
    s.Some? && s.value != ""
  }

  /**
   * The submit handler: the event name is required; a blank email falls
   * back to the stored one, and is an error only when there is none and
   * the SDK is not initialised (otherwise the SDK's bound email is used).
   */
  function SubmitCustomEvent(eventName: string, email: string, id: string, pairs: seq<Pair>,
                             campaignId: string, templateId: string,
                             storedEmail: Option<string>, sdkInitialized: bool): (r: Outcome)
    ensures r.NameRequired? <==> Trim(eventName) == ""
    ensures r.SignInRequired? <==>
      Trim(eventName) != "" && Trim(email) == "" && !Present(storedEmail) && !sdkInitialized
    ensures r.Track? ==>
      r.eventName == Trim(eventName)
      && r.data.email == (if Trim(email) != "" then Some(Trim(email)) else if Present(storedEmail) then storedEmail else None)
      && r.data.dataFields == GetDataFields(pairs)
      && r.data.campaignId == NumericId(campaignId) && r.data.templateId == NumericId(templateId)
      && (r.data.id.Some? <==> Trim(id) != "")
      && r.data.createdAt.None?
  {
    var name := Trim(eventName);
    if name == "" then NameRequired
    else
      var e := Trim(email);
      var target := if e != "" then Some(e) else if Present(storedEmail) then storedEmail else None;
      if target.None? && !sdkInitialized then SignInRequired
      else
        var idValue := if Trim(id) != "" then Some(Str(Trim(id))) else None;
        Track(name, Session.EventData(target, GetDataFields(pairs), idValue, None,
                                      NumericId(campaignId), NumericId(templateId)))
  }

  /**
   * With the SDK bound to a user, an event the form sends without any email
   * goes to that user: `trackEvent` never rejects it for want of an email.
   */
  lemma FallbackReachesBoundUser(s: Session.Session, eventName: string, id: string, pairs: seq<Pair>,
                                 campaignId: string, templateId: string, setEmailSucceeds: bool, trackSucceeds: bool)
    requires Session.Inv(s) && s.isInitialized
    requires SubmitCustomEvent(eventName, "", id, pairs, campaignId, templateId, None, true).Track?
    ensures var r := SubmitCustomEvent(eventName, "", id, pairs, campaignId, templateId, None, true);
      Session.TargetEmail(s, r.data) == s.currentUserEmail
      && Session.TrackEvent(s, r.eventName, r.data, setEmailSucceeds, trackSucceeds).reply != Session.Rejected(Session.EmailRequired)
  {
  }
}

=== FILE: homepage.dfy ===
/**
 * The pure helpers of the home page script (script.js): the capitalisation
 * of event fields, the signup handler's subscription list and profile
 * fields, the page-view tracker with its once-per-load flag, and the
 * testimonial carousel's slide index.
 */
module HomePage {
  import opened Maybe
  import opened Text
  import opened Json

  // ---------------------------------------------------------------------
  // capitalizeDataFields
  // ---------------------------------------------------------------------

  /** Fields whose values keep their casing. */
  const ExcludedFromCapitalization: seq<string> := [
    "email", "firstName", "lastName", "phoneNumber",
    "address.street", "address.suburb", "address.region", "address.postcode",
    "order.deliveryDate", "order.deliveryTime", "order.deadlineDate", "order.deliveryInstructions",
    "order.price", "order.discount", "order.savings",
    "numberOfPeople", "mealsPerWeek", "timeSpentSeconds", "estimatedPrice",
    "pageUrl", "preference", "preferenceName", "buttonId", "buttonText",
    "pageCategory", "pageSubCategory"]

  /** `!value || value.trim() === ''`. */
  predicate Blank(s: string) {
    Trim(s) == ""
  }

  /** First character upper-cased, the rest lower-cased (ASCII letters only). */
  function Capitalize(s: string): (r: string)
    ensures |r| == |s|
    ensures |s| > 0 ==> r[0] == UpperChar(s[0])
    ensures forall i :: 1 <= i < |s| ==> r[i] == LowerChar(s[i])
  {
    if s == "" then "" else [UpperChar(s[0])] + Lower(s[1..])
  }

  /** Whether a field's value is rewritten: a non-blank string under a key not excluded. */
  predicate Capitalized(key: string, v: Value) {
    key !in ExcludedFromCapitalization && v.Str? && !Blank(v.s)
  }

  /**
   * `capitalizeDataFields`: the same keys in the same order; a non-blank
   * string under a key not excluded is capitalised, every other value is
   * kept.
   */
  function CapitalizeDataFields(f: Fields): (r: Fields)
    ensures |r| == |f|
    ensures forall i :: 0 <= i < |f| ==> r[i].0 == f[i].0
    ensures forall i :: 0 <= i < |f| && !Capitalized(f[i].0, f[i].1) ==> r[i].1 == f[i].1
    ensures forall i :: 0 <= i < |f| && Capitalized(f[i].0, f[i].1) ==> r[i].1 == Str(Capitalize(f[i].1.s))
  {
    seq(|f|, i requires 0 <= i < |f| =>
      (f[i].0, if Capitalized(f[i].0, f[i].1) then Str(Capitalize(f[i].1.s)) else f[i].1))
  }

  /** Entry-wise same keys means the same key set. */
  lemma {:induction false} SameKeys(f: Fields, g: Fields)
    requires |f| == |g| && forall i :: 0 <= i < |f| ==> f[i].0 == g[i].0
    ensures KeysOf(f) == KeysOf(g)
    decreases |f|
  {
    if |f| > 0 {
      SameKeys(f[1..], g[1..]);
    }
  }

  /** Capitalisation keeps the key set. */
  lemma CapitalizeKeepsKeys(f: Fields)
    ensures KeysOf(CapitalizeDataFields(f)) == KeysOf(f)
  {
    SameKeys(CapitalizeDataFields(f), f);
  }

  /** A string is blank exactly when all its characters are whitespace. */
  lemma BlankIsAllSpace(s: string)
    ensures Blank(s) <==> All(s, IsSpace)
  {
    var a, b :| 0 <= a <= b <= |s| && Trim(s) == s[a..b] && All(s[..a], IsSpace) && All(s[b..], IsSpace);
    if Trim(s) == "" {
      forall x | 0 <= x < |s|
        ensures IsSpace(s[x])
      {
        if x < a {
          assert s[x] == s[..a][x];
        } else {
          assert s[x] == s[b..][x - b];
        }
      }
    }
  }

  /** Capitalisation turns no character into whitespace and no whitespace into anything else. */
  lemma CapitalizeKeepsBlank(s: string)
    ensures Blank(Capitalize(s)) <==> Blank(s)
  {
    var r := Capitalize(s);
    BlankIsAllSpace(s);
    BlankIsAllSpace(r);
    forall i | 0 <= i < |s|
      ensures IsSpace(r[i]) <==> IsSpace(s[i])
    {
      CaseKeepsSpace(s[i]);
    }
  }

  /** ASCII case mapping neither makes nor removes whitespace. */
  lemma CaseKeepsSpace(c: char)
    ensures IsSpace(UpperChar(c)) <==> IsSpace(c)
    ensures IsSpace(LowerChar(c)) <==> IsSpace(c)
  {
  }

  /** Capitalising twice is capitalising once. */
  lemma CapitalizeIdempotent(s: string)
    ensures Capitalize(Capitalize(s)) == Capitalize(s)
  {
  }

  /** Capitalising a set of fields twice changes nothing more. */
  lemma CapitalizeDataFieldsIdempotent(f: Fields)
    ensures CapitalizeDataFields(CapitalizeDataFields(f)) == CapitalizeDataFields(f)
  {
    var r := CapitalizeDataFields(f);
    forall i | 0 <= i < |f|
      ensures CapitalizeDataFields(r)[i] == r[i]
    {
      if Capitalized(f[i].0, f[i].1) {
        CapitalizeKeepsBlank(f[i].1.s);
        CapitalizeIdempotent(f[i].1.s);
      }
    }
  }

  // ---------------------------------------------------------------------
  // The signup handler
  // ---------------------------------------------------------------------

  const EmailChannelId := 105894
  const SmsChannelId := 105898

  /** The channels a new subscriber has not consented to, email first. */
  function UnsubscribedChannels(consentEmail: bool, consentSms: bool): (r: seq<int>)
    ensures EmailChannelId in r <==> !consentEmail
    ensures SmsChannelId in r <==> !consentSms
    ensures forall i :: 0 <= i < |r| ==> r[i] == EmailChannelId || r[i] == SmsChannelId
    ensures |r| == (if consentEmail then 0 else 1) + (if consentSms then 0 else 1)
    ensures |r| == 2 ==> r[0] == EmailChannelId
  {
    (if consentEmail then [] else [EmailChannelId]) + (if consentSms then [] else [SmsChannelId])
  }

  /**
   * `unsubscribedChannels.length > 0 || consentEmail || consentSMS`: the
   * subscription call it guards is made for every pair of consents.
   */
  lemma SubscriptionAlwaysUpdated(consentEmail: bool, consentSms: bool)
    ensures |UnsubscribedChannels(consentEmail, consentSms)| > 0 || consentEmail || consentSms
  {
  }

  /** An entry that may hold `undefined` (`None`). */
  type Draft = seq<(string, Option<Value>)>

  /** Deleting the keys whose value is `undefined`, keeping the others in order. */
  function StripUndefined(d: Draft): (r: Fields)
    ensures |r| <= |d|
    ensures forall k, v :: (k, v) in r <==> (k, Some(v)) in d
    decreases |d|
  {
    if |d| == 0 then []
    else
      var rest := StripUndefined(d[1..]);
      assert forall e :: e in d <==> e == d[0] || e in d[1..];
      match d[0].1
      case None => rest
      case Some(v) => [(d[0].0, v)] + rest
  }

  /** `x || undefined` for a text field. */
  function TextOrUndefined(s: string): Option<Value> {
    if s != "" then Some(Str(s)) else None
  }

  /** `if (x) obj.k = x`: the entry, present only when the value is truthy. */
  function IfTruthy(v: Value): Option<Value> {
    if Truthy(v) then Some(v) else None
  }

  /** The entry `k: v`, or nothing when `v` is undefined. */
  function Entry(k: string, v: Option<Value>): Fields {
    if v.Some? then [(k, v.value)] else []
  }

  function PreferenceList(preferences: seq<string>): Value {
    Arr(seq(|preferences|, i requires 0 <= i < |preferences| => Str(preferences[i])))
  }

  /**
   * The profile fields the signup handler writes, in order: `undefined` for
   * an empty phone and an empty preference list; the address and the plan
   * choice only when truthy.
   */
  function SignupDraft(firstName: string, lastName: string, phone: string, preferences: seq<string>,
                       deliveryAddress: string, people: Value, meals: Value): Draft
  {
    [("firstName", Some(Str(firstName)))]
    + ([("lastName", Some(Str(lastName)))]
    + ([("phoneNumber", TextOrUndefined(phone))]
    + ([("recipePreferences", if |preferences| > 0 then Some(PreferenceList(preferences)) else None)]
    + ((if deliveryAddress != "" then [("deliveryAddress", Some(Str(deliveryAddress)))] else [])
    + ((if Truthy(people) then [("numberOfPeople", Some(people))] else [])
    + (if Truthy(meals) then [("mealsPerWeek", Some(meals))] else []))))))
  }

  /**
   * The profile fields the signup handler sends once the undefined ones are
   * deleted: both names, then the phone, the preference list, the address
   * and the plan choice, each only when present.
   */
  function SignupDataFields(firstName: string, lastName: string, phone: string, preferences: seq<string>,
                            deliveryAddress: string, people: Value, meals: Value): (r: Fields)
    ensures r == [("firstName", Str(firstName))]
      + ([("lastName", Str(lastName))]
      + (Entry("phoneNumber", TextOrUndefined(phone))
      + (Entry("recipePreferences", if |preferences| > 0 then Some(PreferenceList(preferences)) else None)
      + (Entry("deliveryAddress", TextOrUndefined(deliveryAddress))
      + (Entry("numberOfPeople", IfTruthy(people))
      + Entry("mealsPerWeek", IfTruthy(meals)))))))
  {
    var d := SignupDraft(firstName, lastName, phone, preferences, deliveryAddress, people, meals);
    SignupStrip(firstName, lastName, phone, preferences, deliveryAddress, people, meals);
    StripUndefined(d)
  }

  lemma SignupStrip(firstName: string, lastName: string, phone: string, preferences: seq<string>,
                    deliveryAddress: string, people: Value, meals: Value)
    ensures StripUndefined(SignupDraft(firstName, lastName, phone, preferences, deliveryAddress, people, meals))
      == [("firstName", Str(firstName))]
      + ([("lastName", Str(lastName))]
      + (Entry("phoneNumber", TextOrUndefined(phone))
      + (Entry("recipePreferences", if |preferences| > 0 then Some(PreferenceList(preferences)) else None)
      + (Entry("deliveryAddress", TextOrUndefined(deliveryAddress))
      + (Entry("numberOfPeople", IfTruthy(people))
      + Entry("mealsPerWeek", IfTruthy(meals)))))))
  {
    var a7: Draft := if Truthy(meals) then [("mealsPerWeek", Some(meals))] else [];
    var a6: Draft := if Truthy(people) then [("numberOfPeople", Some(people))] else [];
    var a5: Draft := if deliveryAddress != "" then [("deliveryAddress", Some(Str(deliveryAddress)))] else [];
    var s7 := StripUndefined(a7);
    assert s7 == Entry("mealsPerWeek", IfTruthy(meals)) by {
      if Truthy(meals) { StripCons(a7[0], []); }
    }
    var s6 := StripUndefined(a6 + a7);
    assert s6 == Entry("numberOfPeople", IfTruthy(people)) + s7 by {
      if Truthy(people) { StripCons(a6[0], a7); } else { assert a6 + a7 == a7; }
    }
    var s5 := StripUndefined(a5 + (a6 + a7));
    assert s5 == Entry("deliveryAddress", TextOrUndefined(deliveryAddress)) + s6 by {
      if deliveryAddress != "" { StripCons(a5[0], a6 + a7); } else { assert a5 + (a6 + a7) == a6 + a7; }
    }
    var e4 := ("recipePreferences", if |preferences| > 0 then Some(PreferenceList(preferences)) else None);
    StripCons(e4, a5 + (a6 + a7));
    var e3 := ("phoneNumber", TextOrUndefined(phone));
    StripCons(e3, [e4] + (a5 + (a6 + a7)));
    var e2 := ("lastName", Some(Str(lastName)));
    StripCons(e2, [e3] + ([e4] + (a5 + (a6 + a7))));
    var e1 := ("firstName", Some(Str(firstName)));
    StripCons(e1, [e2] + ([e3] + ([e4] + (a5 + (a6 + a7)))));
  }

  /** Deleting the undefined entries works entry by entry from the front. */
  lemma StripCons(e: (string, Option<Value>), d: Draft)
    ensures StripUndefined([e] + d) == Entry(e.0, e.1) + StripUndefined(d)
  {
    assert ([e] + d)[0] == e;
    assert ([e] + d)[1..] == d;
  }

  // ---------------------------------------------------------------------
  // Page views
  // ---------------------------------------------------------------------

  /**
   * The page name of a location path: its last segment (or `index.html`),
   * with the first `.html` removed and then the first `index` turned into
   * `home`.
   */
  function PageName(pathname: string): (r: string)
    ensures '/' !in r
  {
    var parts := Split(pathname, '/');
    var current := if parts[|parts| - 1] == "" then "index.html" else parts[|parts| - 1];
    ReplaceFirstAvoids(current, ".html", "", '/');
    ReplaceFirstAvoids(ReplaceFirst(current, ".html", ""), "index", "home", '/');
    ReplaceFirst(ReplaceFirst(current, ".html", ""), "index", "home")
  }

  /** A replacement brings in no character that neither the text nor the replacement holds. */
  lemma ReplaceFirstAvoids(s: string, pat: string, rep: string, c: char)
    requires c !in s && c !in rep
    ensures c !in ReplaceFirst(s, pat, rep)
  {
    var r := ReplaceFirst(s, pat, rep);
    if IndexOf(s, pat, 0).Some? {
      var i := IndexOf(s, pat, 0).value;
      assert c !in s[..i] && c !in s[i + |pat|..];
    }
  }

  /** A text in which `pat` occurs nowhere is left alone by a replacement of `pat`. */
  lemma ReplaceAbsent(s: string, pat: string, rep: string)
    requires forall j: nat :: !OccursAt(s, pat, j)
    ensures ReplaceFirst(s, pat, rep) == s
  {
  }

  /**
   * A page `/<name>.html`, for a name without slashes, dots or `index`, is
   * called by its name.
   */
  lemma PageNameOfFile(name: string)
    requires '/' !in name && '.' !in name
    requires forall j: nat :: !OccursAt(name, "index", j)
    ensures PageName("/" + name + ".html") == name
  {
    var file := name + ".html";
    assert '/' !in file by {
      assert forall i :: 0 <= i < |file| ==> file[i] == (if i < |name| then name[i] else ".html"[i - |name|]);
    }
    assert "/" + name + ".html" == "" + ['/'] + file;
    SplitCons("", file, '/');
    SplitWithoutSep(file, '/');
    assert Split("/" + name + ".html", '/') == ["", file];
    assert file != "";
    assert OccursAt(file, ".html", |name|) by {
      assert file[|name|..|name| + 5] == ".html";
    }
    forall j: nat | j < |name|
      ensures !OccursAt(file, ".html", j)
    {
      assert file[j] == name[j];
    }
    assert IndexOf(file, ".html", 0) == Some(|name|);
    assert file[..|name|] == name;
    assert file[|name| + 5..] == "";
    assert ReplaceFirst(file, ".html", "") == name;
    ReplaceAbsent(name, "index", "home");
  }

  lemma NoIndexWithoutX(s: string)
    requires 'x' !in s
    ensures forall j: nat :: !OccursAt(s, "index", j)
  {
    forall j: nat
      ensures !OccursAt(s, "index", j)
    {
      if j + 5 <= |s| {
        assert s[j + 4] in s;
        assert s[j..j + 5][4] != "index"[4];
      }
    }
  }

  /** The how-it-works page is the page called "how-it-works". */
  lemma HowItWorksPageName()
    ensures PageName("/" + "how-it-works" + ".html") == "how-it-works"
  {
    var name := "how-it-works";
    assert '/' !in name && '.' !in name && 'x' !in name;
    NoIndexWithoutX(name);
    PageNameOfFile(name);
  }

  /** `pageCategory` and `pageSubCategory` of a page name. */
  function PageCategory(pageName: string): (r: (string, string))
    ensures pageName == "how-it-works" ==> r == ("Information", "How it Works")
    ensures pageName !in {"home", "index", "", "checkout", "how-it-works"} ==> r == ("General", pageName)
  {
    if pageName == "home" || pageName == "index" || pageName == "" then ("Homepage", "Landing Page")
    else if pageName == "checkout" then ("Checkout", "Sign Up Flow")
    else if pageName == "how-it-works" then ("Information", "How it Works")
    else ("General", pageName)
  }

  /** The `Page Viewed` event handed to `trackEvent`. */
  datatype PageView = PageView(email: string, dataFields: Fields)

  /** What the tracker reads from the page at the moment it fires. */
  datatype Visit = Visit(
    currentUserEmail: Option<string>,
    storedEmail: Option<string>,
    sdkInitialized: bool,
    pathname: string,
    href: string,
    timeSpentSeconds: int)

  /** `iterableConfig.currentUserEmail || localStorage.getItem('iterable_user_email')`. */
  function UserEmail(v: Visit): Option<string> {
    if v.currentUserEmail.Some? && v.currentUserEmail.value != "" then v.currentUserEmail
    else if v.storedEmail.Some? && v.storedEmail.value != "" then v.storedEmail
    else None
  }

  /** Whether `trackPageView` sends on this visit, given the flag. */
  predicate WillTrack(tracked: bool, v: Visit) {
    !tracked && UserEmail(v).Some? && v.sdkInitialized && PageName(v.pathname) == "how-it-works"
  }

  /**
   * `trackPageView`: nothing when already tracked, signed out, the SDK
   * not ready, or on any page but how-it-works; otherwise the flag is set and
   * the event is sent with the page's category fields.
   */
  function TrackPageView(tracked: bool, v: Visit): (r: (bool, Option<PageView>))
    ensures r.1.Some? <==> WillTrack(tracked, v)
    ensures r.1.None? ==> r.0 == tracked
    ensures r.1.Some? ==> r.0 && Some(r.1.value.email) == UserEmail(v)
    ensures r.1.Some? ==>
      && ("pageCategory", Str("Information")) in r.1.value.dataFields
      && ("pageSubCategory", Str("How it Works")) in r.1.value.dataFields
      && ("pageUrl", Str(v.href)) in r.1.value.dataFields
  {
    if tracked then (tracked, None)
    else
      var email := UserEmail(v);
      if email.None? then (tracked, None)
      else if !v.sdkInitialized then (tracked, None)
      else
        var name := PageName(v.pathname);
        if name != "how-it-works" then (tracked, None)
        else
          var (category, sub) := PageCategory(name);
          var fields := [("pageCategory", Str(category)), ("pageUrl", Str(v.href)),
                         ("timeSpentSeconds", Num(IntLiteral(v.timeSpentSeconds)))]
                        + (if sub != "" then [("pageSubCategory", Str(sub))] else []);
          (true, Some(PageView(email.value, fields)))
  }

  /** What can happen to the flag: a trigger firing, a send failing, a new page load. */
  datatype TrackerEvent = Fire(visit: Visit) | SendFailed | PageLoad

  function TrackerStep(tracked: bool, e: TrackerEvent): (r: (bool, nat)) {
    match e
    case Fire(v) => var (t, sent) := TrackPageView(tracked, v); (t, if sent.Some? then 1 else 0)
    case SendFailed => (false, 0)
    case PageLoad => (false, 0)
  }

  /** The number of page views sent over a sequence of events. */
  function Sends(tracked: bool, events: seq<TrackerEvent>): nat
    decreases |events|
  {
    if |events| == 0 then 0
    else
      var (t, n) := TrackerStep(tracked, events[0]);
      n + Sends(t, events[1..])
  }

  /**
   * Between two page loads, and as long as no send fails, at most one page
   * view is sent, and none once one has been.
   */
  lemma {:induction false} AtMostOncePerLoad(tracked: bool, events: seq<TrackerEvent>)
    requires forall i :: 0 <= i < |events| ==> events[i].Fire?
    ensures Sends(tracked, events) <= (if tracked then 0 else 1)
    decreases |events|
  {
    if |events| > 0 {
      var (t, n) := TrackerStep(tracked, events[0]);
      AtMostOncePerLoad(t, events[1..]);
    }
  }

  /** Only a failure or a new page load clears the flag. */
  lemma FlagStaysSet(e: TrackerEvent)
    requires TrackerStep(true, e).0 == false
    ensures e.SendFailed? || e.PageLoad?
  {
  }

  // ---------------------------------------------------------------------
  // The testimonial carousel
  // ---------------------------------------------------------------------

  const CardsPerView := 3

  /** `Math.max(0, cards - cardsPerView)`. */
  function MaxSlide(cards: nat): (m: nat)
    ensures cards <= CardsPerView ==> m == 0
    ensures cards > CardsPerView ==> m + CardsPerView == cards
  {
    if cards > CardsPerView then cards - CardsPerView else 0
  }

  /** A click on the previous button. */
  function Prev(slide: int): (r: int)
    ensures slide > 0 ==> r == slide - 1
    ensures slide <= 0 ==> r == slide
    ensures 0 <= slide ==> 0 <= r <= slide
  {
    if slide > 0 then slide - 1 else slide
  }

  /** A click on the next button. */
  function Next(slide: int, maxSlide: int): (r: int)
    ensures slide < maxSlide ==> r == slide + 1
    ensures slide >= maxSlide ==> r == slide
    ensures slide <= maxSlide ==> slide <= r <= maxSlide
  {
    if slide < maxSlide then slide + 1 else slide
  }

  /** Next then previous comes back, where next moves. */
  lemma PrevUndoesNext(slide: int, maxSlide: int)
    requires 0 <= slide < maxSlide
    ensures Prev(Next(slide, maxSlide)) == slide
  {
  }

  /** Clicks, `true` for next and `false` for previous, from the first slide. */
  function Clicks(slide: int, maxSlide: int, clicks: seq<bool>): int
    decreases |clicks|
  {
    if |clicks| == 0 then slide
    else Clicks(if clicks[0] then Next(slide, maxSlide) else Prev(slide), maxSlide, clicks[1..])
  }

  /** Whatever the clicks, the slide stays between 0 and the last full view. */
  lemma {:induction false} ClicksStayInRange(cards: nat, slide: int, clicks: seq<bool>)
    requires 0 <= slide <= MaxSlide(cards)
    ensures 0 <= Clicks(slide, MaxSlide(cards), clicks) <= MaxSlide(cards)
    decreases |clicks|
  {
    if |clicks| > 0 {
      var m := MaxSlide(cards);
      ClicksStayInRange(cards, if clicks[0] then Next(slide, m) else Prev(slide), clicks[1..]);
    }
  }
}

=== FILE: json.dfy ===
/**
 * The JSON-like values the site builds and hands to the engagement SDK,
 * JavaScript truthiness over them, the text-to-value coercion of the two
 * key/value forms, insertion-ordered top-level objects, and the
 * "walk a dotted path, creating `{}` for missing or falsy steps" write that
 * both the dot-notation converter and the profile form perform.
 */
module Json {
  import opened Maybe
  import opened Text

  /**
   * A JavaScript value as it appears in a payload. A number is kept as the
   * numeric literal it was written as (`Num("42")`, `Num("0x1F")`); nested
   * objects are maps, because their key order carries no meaning once sent.
   */
  datatype Value =
    | Null
    | Bool(b: bool)
    | Num(literal: string)
    | Str(s: string)
    | Arr(items: seq<Value>)
    | Obj(fields: map<string, Value>)

  // ---------------------------------------------------------------------
  // Numeric literals: the strings for which `isNaN(s)` is false
  // ---------------------------------------------------------------------

  predicate IsHexDigit(c: char) {
    IsDigit(c) || ('a' <= c <= 'f') || ('A' <= c <= 'F')
  }

  predicate IsOctDigit(c: char) {
    '0' <= c <= '7'
  }

  predicate IsBinDigit(c: char) {
    c == '0' || c == '1'
  }

  predicate NotExponentMark(c: char) {
    c != 'e' && c != 'E'
  }

  predicate NotDot(c: char) {
    c != '.'
  }

  predicate IsZeroOrDot(c: char) {
    c == '0' || c == '.'
  }

  predicate SomeDigits(s: string, p: char -> bool) {
    |s| > 0 && All(s, p)
  }

  /** `0x…`, `0o…` or `0b…` with at least one digit of the radix. */
  predicate IsNonDecimalLiteral(s: string) {
    && |s| >= 3 && s[0] == '0'
    && (|| (s[1] in "xX" && SomeDigits(s[2..], IsHexDigit))
        || (s[1] in "oO" && SomeDigits(s[2..], IsOctDigit))
        || (s[1] in "bB" && SomeDigits(s[2..], IsBinDigit)))
  }

  /** Digits with at most one `.`, and at least one digit on some side of it. */
  predicate IsMantissa(m: string) {
    var d := Run(m, 0, NotDot);
    if d == |m| then SomeDigits(m, IsDigit)
    else All(m[..d], IsDigit) && All(m[d + 1..], IsDigit) && (d > 0 || d + 1 < |m|)
  }

  predicate IsExponentPart(x: string) {
    if |x| > 0 && (x[0] == '+' || x[0] == '-') then SomeDigits(x[1..], IsDigit) else SomeDigits(x, IsDigit)
  }

  predicate IsUnsignedDecimalLiteral(s: string) {
    || s == "Infinity"
    || (var e := Run(s, 0, NotExponentMark);
        IsMantissa(s[..e]) && (e == |s| || IsExponentPart(s[e + 1..])))
  }

  function Unsigned(s: string): string {
    if |s| > 0 && (s[0] == '+' || s[0] == '-') then s[1..] else s
  }

  /**
   * `!isNaN(s)` for a string with no surrounding white space: the empty
   * string (which converts to 0) or a StringNumericLiteral of ECMA-262.
   */
  predicate IsNumericText(s: string) {
    |s| == 0 || IsNonDecimalLiteral(s) || IsUnsignedDecimalLiteral(Unsigned(s))
  }

  /** The literal denotes +0 or -0: every digit of its significand is zero. */
  predicate DenotesZero(lit: string) {
    if IsNonDecimalLiteral(lit) then All(lit[2..], c => c == '0')
    else
      var u := Unsigned(lit);
      u != "Infinity" && All(u[..Run(u, 0, NotExponentMark)], IsZeroOrDot)
  }

  /** JavaScript truthiness. */
  predicate Truthy(v: Value) {
    match v
    case Null => false
    case Bool(b) => b
    case Num(lit) => !DenotesZero(lit)
    case Str(s) => |s| > 0
    case Arr(_) => true
    case Obj(_) => true
  }

  /**
   * The value coercion both key/value forms apply to a trimmed value text:
   * `"true"`, `"false"` and `"null"` become the literals, non-empty numeric
   * text becomes a number, and everything else (the empty text included)
   * stays a string.
   */
  function Coerce(text: string): (v: Value)
    ensures v.Bool? <==> text == "true" || text == "false"
    ensures v.Bool? ==> (v.b <==> text == "true")
    ensures v.Null? <==> text == "null"
    ensures v.Num? <==> text != "" && IsNumericText(text) && text != "true" && text != "false" && text != "null"
    ensures v.Num? ==> v.literal == text
    ensures v.Str? ==> v.s == text
    ensures v.Str? || v.Num? || v.Bool? || v.Null?
  {
    if text == "true" then Bool(true)
    else if text == "false" then Bool(false)
    else if text == "null" then Null
    else if IsNumericText(text) && text != "" then Num(text)
    else Str(text)
  }

  /** The literal `String(i)` produces for an integer. */
  function IntLiteral(i: int): string {
    if i < 0 then "-" + NatToDecimal(-i) else NatToDecimal(i)
  }

  // ---------------------------------------------------------------------
  // Insertion-ordered objects
  // ---------------------------------------------------------------------

  /** A plain object whose key order matters: its entries in enumeration order. */
  type Fields = seq<(string, Value)>

  function KeysOf(f: Fields): set<string> {
    if |f| == 0 then {} else {f[0].0} + KeysOf(f[1..])
  }

  predicate UniqueKeys(f: Fields) {
    |f| == 0 || (f[0].0 !in KeysOf(f[1..]) && UniqueKeys(f[1..]))
  }

  /** `obj[k]`: the value of key `k`, if present. */
  function Get(f: Fields, k: string): (r: Option<Value>)
    ensures r.Some? <==> k in KeysOf(f)
  {
    if |f| == 0 then None else if f[0].0 == k then Some(f[0].1) else Get(f[1..], k)
  }

  /**
   * `obj[k] = v`: an existing key keeps its position and takes the new value;
   * a new key is appended at the end.
   */
  function Put(f: Fields, k: string, v: Value): (r: Fields)
    ensures KeysOf(r) == KeysOf(f) + {k}
    ensures Get(r, k) == Some(v)
    ensures forall k' :: k' != k ==> Get(r, k') == Get(f, k')
    ensures UniqueKeys(f) ==> UniqueKeys(r)
    ensures k in KeysOf(f) ==> |r| == |f|
    ensures k !in KeysOf(f) ==> r == f + [(k, v)]
    ensures forall i :: 0 <= i < |f| ==> r[i].0 == f[i].0
  {
    if |f| == 0 then [(k, v)]
    else if f[0].0 == k then [(k, v)] + f[1..]
    else [f[0]] + Put(f[1..], k, v)
  }

  /** The object an ordered entry list denotes, forgetting the order. */
  function ToMap(f: Fields): (m: map<string, Value>)
    ensures m.Keys == KeysOf(f)
    ensures forall k :: k in m ==> Get(f, k) == Some(m[k])
  {
    if |f| == 0 then map[] else ToMap(f[1..])[f[0].0 := f[0].1]
  }

  /** Appending an entry adds its key. */
  lemma {:induction false} KeysOfSnoc(f: Fields, e: (string, Value))
    ensures KeysOf(f + [e]) == KeysOf(f) + {e.0}
    decreases |f|
  {
    if |f| > 0 {
      assert (f + [e])[1..] == f[1..] + [e];
      KeysOfSnoc(f[1..], e);
    }
  }

  /** Looking a key up after appending an entry: earlier entries take precedence. */
  lemma {:induction false} GetSnoc(f: Fields, e: (string, Value), k: string)
    ensures Get(f + [e], k) == (if k in KeysOf(f) then Get(f, k) else if k == e.0 then Some(e.1) else None)
    decreases |f|
  {
    if |f| > 0 {
      assert (f + [e])[1..] == f[1..] + [e];
      GetSnoc(f[1..], e, k);
    } else {
      assert f + [e] == [e];
    }
  }

  /** An entry list has unique keys exactly when its prefix does and the last key is new. */
  lemma {:induction false} UniqueKeysSnoc(f: Fields, e: (string, Value))
    ensures UniqueKeys(f + [e]) <==> UniqueKeys(f) && e.0 !in KeysOf(f)
    decreases |f|
  {
    if |f| > 0 {
      assert (f + [e])[1..] == f[1..] + [e];
      UniqueKeysSnoc(f[1..], e);
      KeysOfSnoc(f[1..], e);
    } else {
      assert f + [e] == [e];
    }
  }

  /** Every key of an entry list is the key of one of its entries. */
  lemma {:induction false} KeysOfIndex(f: Fields, k: string)
    ensures k in KeysOf(f) <==> exists i :: 0 <= i < |f| && f[i].0 == k
    decreases |f|
  {
    if |f| > 0 {
      KeysOfIndex(f[1..], k);
      if k in KeysOf(f[1..]) {
        var i :| 0 <= i < |f[1..]| && f[1..][i].0 == k;
        assert f[i + 1].0 == k;
      }
      if exists i :: 0 <= i < |f| && f[i].0 == k {
        var i :| 0 <= i < |f| && f[i].0 == k;
        if i > 0 {
          assert f[1..][i - 1].0 == k;
        }
      }
    }
  }

  /** Appending an entry with a new key to an entry list adds exactly that key to the object. */
  lemma ToMapSnoc(f: Fields, e: (string, Value))
    requires e.0 !in KeysOf(f)
    ensures ToMap(f + [e]) == ToMap(f)[e.0 := e.1]
  {
    KeysOfSnoc(f, e);
    var a := ToMap(f + [e]);
    var b := ToMap(f)[e.0 := e.1];
    assert a.Keys == b.Keys;
    forall k | k in a
      ensures a[k] == b[k]
    {
      GetSnoc(f, e, k);
    }
  }

  // ---------------------------------------------------------------------
  // Dotted-path writes
  // ---------------------------------------------------------------------

  /** Why a dotted-path write cannot complete. */
  datatype PathError =
    | WriteToPrimitive   // a truthy string, number or boolean lies on the path: a TypeError in strict mode
    | WriteIntoArray     // an array lies on the path: JavaScript writes a property of the array; not modelled

  /** The value reached by following `path` through nested objects. */
  function Lookup(v: Value, path: seq<string>): Option<Value>
    decreases |path|
  {
    if |path| == 0 then Some(v)
    else match v
      case Obj(m) => if path[0] in m then Lookup(m[path[0]], path[1..]) else None
      case _ => None
  }

  /** A step of a path that the write cannot pass: a truthy value that is not a plain object. */
  predicate Blocks(o: Option<Value>) {
    o.Some? && Truthy(o.value) && !o.value.Obj?
  }

  /** The chain of one-key objects that a write into fresh `{}` steps builds. */
  function Nest(path: seq<string>, v: Value): Value
    decreases |path|
  {
    if |path| == 0 then v else Obj(map[path[0] := Nest(path[1..], v)])
  }

  /** Neither path is a prefix of the other: they part at some key. */
  predicate Apart(p: seq<string>, q: seq<string>) {
    !(p <= q) && !(q <= p)
  }

  /**
   * `for (i < n - 1) { if (!cur[p[i]]) cur[p[i]] = {}; cur = cur[p[i]]; } cur[p[n - 1]] = v`
   * on the object `m`: a missing or falsy step becomes `{}`, a plain object is
   * descended into, anything else stops the write.
   */
  function SetPath(m: map<string, Value>, path: seq<string>, v: Value): (r: Result<map<string, Value>, PathError>)
    requires |path| >= 1
    ensures r.Ok? ==> r.value.Keys == m.Keys + {path[0]}
    ensures r.Ok? ==> forall k :: k in m && k != path[0] ==> r.value[k] == m[k]
    ensures r.Ok? ==> Lookup(Obj(r.value), path) == Some(v)
    ensures r.Ok? ==> forall q :: |q| >= 1 && Apart(q, path) ==> Lookup(Obj(r.value), q) == Lookup(Obj(m), q)
    decreases |path|
  {
    var head := path[0];
    if |path| == 1 then Ok(m[head := v])
    else
      var child := if head in m && Truthy(m[head]) then m[head] else Obj(map[]);
      match child
      case Obj(cm) =>
        (match SetPath(cm, path[1..], v)
         case Ok(cm') =>
           assert forall q :: |q| >= 2 && q[0] == head && Apart(q, path) ==> Apart(q[1..], path[1..]);
           Ok(m[head := Obj(cm')])
         case Err(e) => Err(e))
      case Arr(_) => Err(WriteIntoArray)
      case _ => Err(WriteToPrimitive)
  }

  /** Nothing can block a path inside an empty object. */
  lemma LookupEmpty(path: seq<string>)
    requires |path| >= 1
    ensures Lookup(Obj(map[]), path) == None
  {
  }

  /** Below a value that is not a plain object, every longer path is missing. */
  lemma LookupThroughLeaf(x: Value, path: seq<string>)
    requires |path| >= 1 && !x.Obj?
    ensures Lookup(x, path) == None
  {
  }

  lemma LookupStep(m: map<string, Value>, path: seq<string>, j: nat)
    requires 1 <= j <= |path|
    ensures Lookup(Obj(m), path[..j]) ==
      (if path[0] in m then Lookup(m[path[0]], path[1..][..j - 1]) else None)
  {
    assert path[..j][1..] == path[1..][..j - 1];
  }

  /**
   * The write fails exactly when some proper prefix of the path reaches a
   * truthy value that is not a plain object.
   */
  lemma {:induction false} SetPathFailsIff(m: map<string, Value>, path: seq<string>, v: Value)
    requires |path| >= 1
    ensures SetPath(m, path, v).Err? <==> exists j :: 1 <= j < |path| && Blocks(Lookup(Obj(m), path[..j]))
    decreases |path|
  {
    if |path| == 1 {
      return;
    }
    var head := path[0];
    LookupStep(m, path, 1);
    assert path[1..][..0] == [];
    if head in m && Truthy(m[head]) {
      var x := m[head];
      assert Lookup(Obj(m), path[..1]) == Some(x);
      if x.Obj? {
        SetPathFailsIff(x.fields, path[1..], v);
        FailsThroughObject(m, path, v);
      } else {
        assert Blocks(Lookup(Obj(m), path[..1]));
      }
    } else {
      SetPathFailsIff(map[], path[1..], v);
      FailsThroughFresh(m, path, v);
    }
  }

  /** The step of `SetPathFailsIff` through a plain object at the first key. */
  lemma FailsThroughObject(m: map<string, Value>, path: seq<string>, v: Value)
    requires |path| >= 2 && path[0] in m && m[path[0]].Obj?
    requires SetPath(m[path[0]].fields, path[1..], v).Err? <==>
      exists j :: 1 <= j < |path| - 1 && Blocks(Lookup(m[path[0]], path[1..][..j]))
    ensures SetPath(m, path, v).Err? <==> exists j :: 1 <= j < |path| && Blocks(Lookup(Obj(m), path[..j]))
  {
    var x := m[path[0]];
    LookupStep(m, path, 1);
    assert Lookup(Obj(m), path[..1]) == Some(x);
    forall j | 2 <= j < |path|
      ensures Lookup(Obj(m), path[..j]) == Lookup(x, path[1..][..j - 1])
    {
      LookupStep(m, path, j);
    }
    if SetPath(m, path, v).Err? {
      var j' :| 1 <= j' < |path| - 1 && Blocks(Lookup(x, path[1..][..j']));
      assert Blocks(Lookup(Obj(m), path[..j' + 1]));
    } else {
      forall j | 1 <= j < |path|
        ensures !Blocks(Lookup(Obj(m), path[..j]))
      {
        if j >= 2 {
          assert !Blocks(Lookup(x, path[1..][..j - 1]));
        }
      }
    }
  }

  /** The step of `SetPathFailsIff` through a missing or falsy first key, which becomes `{}`. */
  lemma FailsThroughFresh(m: map<string, Value>, path: seq<string>, v: Value)
    requires |path| >= 2 && !(path[0] in m && Truthy(m[path[0]]))
    requires SetPath(map[], path[1..], v).Err? <==>
      exists j :: 1 <= j < |path| - 1 && Blocks(Lookup(Obj(map[]), path[1..][..j]))
    ensures SetPath(m, path, v).Err? <==> exists j :: 1 <= j < |path| && Blocks(Lookup(Obj(m), path[..j]))
  {
    var head := path[0];
    forall j | 1 <= j < |path|
      ensures !Blocks(Lookup(Obj(m), path[..j]))
    {
      LookupStep(m, path, j);
      assert path[1..][..0] == [];
      if j >= 2 && head in m {
        LookupThroughLeaf(m[head], path[1..][..j - 1]);
      }
    }
    forall j | 1 <= j < |path| - 1
      ensures !Blocks(Lookup(Obj(map[]), path[1..][..j]))
    {
      LookupEmpty(path[1..][..j]);
    }
  }


  /**
   * When the first step is missing or falsy, the write replaces it by a fresh
   * chain of objects holding just the new value.
   */
  lemma {:induction false} SetPathFresh(m: map<string, Value>, path: seq<string>, v: Value)
    requires |path| >= 2
    requires path[0] !in m || !Truthy(m[path[0]])
    ensures SetPath(m, path, v) == Ok(m[path[0] := Nest(path[1..], v)])
    decreases |path|
  {
    SetPathIntoEmpty(path[1..], v);
  }

  /** Writing a path into `{}` builds the chain of one-key objects. */
  lemma {:induction false} SetPathIntoEmpty(path: seq<string>, v: Value)
    requires |path| >= 1
    ensures SetPath(map[], path, v) == Ok(map[path[0] := Nest(path[1..], v)])
    decreases |path|
  {
    if |path| >= 2 {
      SetPathIntoEmpty(path[1..], v);
      assert Nest(path[1..], v) == Obj(map[path[1] := Nest(path[2..], v)]);
    } else {
      assert path[1..] == [];
    }
  }
}

=== FILE: maybe.dfy ===
/** Failure-carrying wrappers shared by every module of the model. */
module Maybe {

  /** A value that may be missing: JavaScript's `null`/`undefined` where the source tests for it. */
  datatype Option<+T> = None | Some(value: T) {

    /** The wrapped value, or `default` when missing. */
    function GetOr(default: T): T {
      match this
      case Some(v) => v
      case None => default
    }
  }

  /** The outcome of an operation that can fail with an error of type `E`. */
  datatype Result<+T, +E> = Ok(value: T) | Err(error: E)
}

=== FILE: profile_form.dfy ===
/**
 * The profile-update form of update-profile.js: the key/value rows turned
 * into a nested data-field object (`getProfileDataFields`) and the submit
 * handler's guards before `updateUser`.
 */
module ProfileForm {
  import opened Maybe
  import opened Text
  import opened Json
  import DotNotation
  import Session

  /** One key/value row of the form, as typed. */
  datatype Pair = Pair(key: string, value: string)

  /** The trimmed key of a row; rows with an empty one are skipped. */
  function KeyOf(p: Pair): string {
    Trim(p.key)
  }

  /** The trimmed value of a row, coerced to `true`, `false`, `null`, a number or a string. */
  function ValueOf(p: Pair): Value {
    Coerce(Trim(p.value))
  }

  /** The top-level keys the rows name: the first dot-segment of every non-empty key. */
  function KeySegments(pairs: seq<Pair>): set<string>
    decreases |pairs|
  {
    if |pairs| == 0 then {}
    else
      var p := pairs[|pairs| - 1];
      KeySegments(pairs[..|pairs| - 1]) + (if KeyOf(p) != "" then {DotNotation.FirstSegment(KeyOf(p))} else {})
  }

  /**
   * One row of the loop: a non-empty key is split at its dots and the value
   * written along that path, creating `{}` for every missing or falsy step.
   */
  function AddPair(fields: map<string, Value>, p: Pair): (r: Result<map<string, Value>, PathError>)
    ensures KeyOf(p) == "" ==> r == Ok(fields)
    ensures KeyOf(p) != "" && r.Ok? ==> r.value.Keys == fields.Keys + {DotNotation.FirstSegment(KeyOf(p))}
    ensures KeyOf(p) != "" && r.Ok? ==> Lookup(Obj(r.value), Split(KeyOf(p), '.')) == Some(ValueOf(p))
    ensures KeyOf(p) != "" && r.Ok? ==>
      forall k :: k in fields && k != DotNotation.FirstSegment(KeyOf(p)) ==> r.value[k] == fields[k]
    ensures KeyOf(p) != "" && r.Ok? ==>
      forall q :: |q| >= 1 && Apart(q, Split(KeyOf(p), '.')) ==> Lookup(Obj(r.value), q) == Lookup(Obj(fields), q)
  {
    if KeyOf(p) == "" then Ok(fields) else SetPath(fields, Split(KeyOf(p), '.'), ValueOf(p))
  }

  /**
   * `getProfileDataFields`: the rows applied in order to `{}`. A write
   * through a truthy primitive throws, and the exception leaves the submit
   * handler.
   */
  function GetProfileDataFields(pairs: seq<Pair>): (r: Result<map<string, Value>, PathError>)
    ensures r.Ok? ==> r.value.Keys == KeySegments(pairs)
    decreases |pairs|
  {
    if |pairs| == 0 then Ok(map[])
    else
      match GetProfileDataFields(pairs[..|pairs| - 1])
      case Err(e) => Err(e)
      case Ok(m) => AddPair(m, pairs[|pairs| - 1])
  }

  /** The last row wins: its value is what the object holds at its path. */
  lemma LastPairWins(pairs: seq<Pair>, p: Pair)
    requires KeyOf(p) != "" && GetProfileDataFields(pairs + [p]).Ok?
    ensures Lookup(Obj(GetProfileDataFields(pairs + [p]).value), Split(KeyOf(p), '.')) == Some(ValueOf(p))
  {
    assert (pairs + [p])[..|pairs|] == pairs;
  }

  /**
   * A row's value survives a later row whose path parts from it, such as
   * `company.size` after `company.name`.
   */
  lemma EarlierPairKept(pairs: seq<Pair>, p: Pair, later: Pair)
    requires KeyOf(p) != "" && (KeyOf(later) == "" || Apart(Split(KeyOf(later), '.'), Split(KeyOf(p), '.')))
    requires GetProfileDataFields(pairs + [p, later]).Ok?
    ensures Lookup(Obj(GetProfileDataFields(pairs + [p, later]).value), Split(KeyOf(p), '.')) == Some(ValueOf(p))
  {
    assert (pairs + [p, later])[..|pairs| + 1] == pairs + [p];
    LastPairWins(pairs, p);
  }

  /** A row whose key is blank changes nothing. */
  lemma BlankKeySkipped(pairs: seq<Pair>, p: Pair)
    requires KeyOf(p) == ""
    ensures GetProfileDataFields(pairs + [p]) == GetProfileDataFields(pairs)
  {
    assert (pairs + [p])[..|pairs|] == pairs;
  }

  /** What the submit handler does. */
  datatype Outcome =
    | EmailRequired                 // "Please enter an email address"
    | NoFields                      // "Please add at least one data field"
    | Thrown(error: PathError)      // getProfileDataFields threw
    | Update(initializeFirst: bool, email: string, dataFields: map<string, Value>,
             options: Session.UpdateOptions, fieldsCount: nat)

  /**
   * The submit handler: a trimmed email and at least one top-level field are
   * required; the SDK is initialised first only when it is not yet; the three
   * checkboxes go to `updateUser` unchanged, and the success message counts
   * the top-level keys.
   */
  function SubmitProfile(email: string, pairs: seq<Pair>, mergeNestedObjects: bool, createNewFields: bool,
                         preferUserId: bool, sdkInitialized: bool): (r: Outcome)
    ensures Trim(email) == "" <==> r.EmailRequired?
    ensures r.Update? <==>
      Trim(email) != "" && GetProfileDataFields(pairs).Ok? && |KeySegments(pairs)| > 0
    ensures r.NoFields? <==>
      Trim(email) != "" && GetProfileDataFields(pairs).Ok? && |KeySegments(pairs)| == 0
    ensures r.Update? ==>
      r.email == Trim(email) && r.initializeFirst == !sdkInitialized
      && GetProfileDataFields(pairs) == Ok(r.dataFields) && r.fieldsCount == |r.dataFields.Keys|
      && r.options == Session.UpdateOptions(Some(mergeNestedObjects), Some(createNewFields), None, Some(preferUserId))
  {
    var e := Trim(email);
    if e == "" then EmailRequired
    else
      match GetProfileDataFields(pairs)
      case Err(err) => Thrown(err)
      case Ok(fields) =>
        if |fields.Keys| == 0 then NoFields
        else Update(!sdkInitialized, e, fields,
                    Session.UpdateOptions(Some(mergeNestedObjects), Some(createNewFields), None, Some(preferUserId)),
                    |fields.Keys|)
  }

  /** A form with no row whose key is filled in never reaches the SDK. */
  lemma {:induction false} NoKeysNoUpdate(pairs: seq<Pair>)
    requires forall i :: 0 <= i < |pairs| ==> KeyOf(pairs[i]) == ""
    ensures GetProfileDataFields(pairs) == Ok(map[])
    decreases |pairs|
  {
    if |pairs| > 0 {
      NoKeysNoUpdate(pairs[..|pairs| - 1]);
    }
  }
}

=== FILE: session.dfy ===
/**
 * The engagement-SDK wrapper of iterable-config.js as a state machine over
 * its configuration record `{apiKey, isInitialized, sdkInstance,
 * currentUserEmail, logoutInProgress}`. The SDK's own functions are foreign:
 * each call's outcome is a parameter, and the one-second logout cooldown
 * timer is the explicit `CooldownElapsed` event.
 */
module Session {
  import opened Maybe
  import opened Json
  import DotNotation

  /** An SDK instance: an identity, and whether it offers `setEmail`. */
  datatype Sdk = Sdk(id: nat, hasSetEmail: bool)

  datatype Session = Session(
    apiKey: Option<string>,
    isInitialized: bool,
    sdkInstance: Option<Sdk>,
    currentUserEmail: Option<string>,
    logoutInProgress: bool)

  /** A string argument that is present and not empty: JavaScript's truthiness for `email` and `apiKey`. */
  predicate Present(s: Option<string>) {
    s.Some? && s.value != ""
  }

  /** The record at module load; the key comes from the build environment. */
  function Initial(apiKey: Option<string>): Session {
    Session(apiKey, false, None, None, false)
  }

  /**
   * What the wrapper keeps consistent: an instance exists exactly when it is
   * initialised, and then it is bound to a non-empty email under a key.
   */
  predicate Inv(s: Session) {
    (s.isInitialized <==> s.sdkInstance.Some?)
    && (s.isInitialized <==> s.currentUserEmail.Some?)
    && (s.isInitialized ==> Present(s.currentUserEmail) && Present(s.apiKey))
  }

  // ---------------------------------------------------------------------
  // Reset and the cooldown
  // ---------------------------------------------------------------------

  /** `resetIterable`: the user state is cleared, the cooldown starts, the key stays. */
  function ResetIterable(s: Session): (r: Session)
    ensures !r.isInitialized && r.sdkInstance.None? && r.currentUserEmail.None?
    ensures r.logoutInProgress && r.apiKey == s.apiKey
  {
    Session(s.apiKey, false, None, None, true)
  }

  /** The cooldown timer firing: only the flag changes. */
  function CooldownElapsed(s: Session): (r: Session)
    ensures !r.logoutInProgress
    ensures Inv(s) ==> Inv(r)
  {
    s.(logoutInProgress := false)
  }

  // ---------------------------------------------------------------------
  // Initialisation
  // ---------------------------------------------------------------------

  /** What the foreign `initializeWithConfig` and `setEmail` do on this call. */
  datatype SdkInit =
    | NoInstance                                  // initializeWithConfig returned null, or threw
    | Instance(sdk: Sdk, setEmailSucceeds: bool)  // setEmailSucceeds matters only when the instance has setEmail

  /**
   * `initializeIterable(email)`: the new record and the returned instance
   * (`None` for `null`). It refuses during the cooldown, without a key or
   * without an email; a different user is reset first; the same user gets
   * the existing instance back.
   */
  function InitializeIterable(s: Session, email: Option<string>, init: SdkInit): (r: (Session, Option<Sdk>))
    ensures s.logoutInProgress || !Present(s.apiKey) || !Present(email) ==> r == (s, None)
    ensures !s.logoutInProgress && Present(s.apiKey) && s.isInitialized && s.currentUserEmail == email && Present(email)
      ==> r == (s, s.sdkInstance)
    ensures r.0.apiKey == s.apiKey
    ensures r.1.Some? ==> r.0.isInitialized && r.0.sdkInstance == r.1 && r.0.currentUserEmail == email
    ensures r.1.None? && !(s.isInitialized && s.currentUserEmail != email) ==> r.0 == s
    ensures s.isInitialized && s.currentUserEmail != email && !r.0.isInitialized ==> r.0 == ResetIterable(s)
    ensures !s.logoutInProgress && Present(s.apiKey) && Present(email) && !(s.isInitialized && s.currentUserEmail == email)
      ==> (r.1.Some? <==> init.Instance? && (!init.sdk.hasSetEmail || init.setEmailSucceeds))
    ensures init.Instance? && r.1.Some? && !(s.isInitialized && s.currentUserEmail == email)
      ==> r.1 == Some(init.sdk) && r.0.currentUserEmail == email
    ensures r.1.Some? && !(s.isInitialized && s.currentUserEmail != email) ==> r.0.logoutInProgress == s.logoutInProgress
  {
    if s.logoutInProgress || !Present(s.apiKey) || !Present(email) then (s, None)
    else
      var s1 := if s.isInitialized && s.currentUserEmail != email then ResetIterable(s) else s;
      if s1.isInitialized && s1.currentUserEmail == email then (s1, s1.sdkInstance)
      else
        match init
        case NoInstance => (s1, None)
        case Instance(sdk, ok) =>
          if sdk.hasSetEmail && !ok then (s1, None)
          else (s1.(isInitialized := true, sdkInstance := Some(sdk), currentUserEmail := email), Some(sdk))
  }

  /**
   * Switching users goes through a reset: whether or not the new
   * initialisation succeeds, the cooldown flag is set afterwards.
   */
  lemma SwitchUserStartsCooldown(s: Session, email: Option<string>, init: SdkInit)
    requires !s.logoutInProgress && Present(s.apiKey) && Present(email)
    requires s.isInitialized && s.currentUserEmail != email
    ensures InitializeIterable(s, email, init).0.logoutInProgress
  {
  }

  /**
   * The cooldown is what blocks a new sign-in after a logout: during it every
   * call is refused, and once it has elapsed a call with a key and an email
   * binds the new instance.
   */
  lemma CooldownReenablesInit(s: Session, email: Option<string>, sdk: Sdk)
    requires Present(s.apiKey) && Present(email)
    ensures InitializeIterable(ResetIterable(s), email, Instance(sdk, true)).1.None?
    ensures var (s1, r) := InitializeIterable(CooldownElapsed(ResetIterable(s)), email, Instance(sdk, true));
      r == Some(sdk) && s1.currentUserEmail == email && !s1.logoutInProgress
  {
  }

  /**
   * Calling again with the email just bound returns the same instance and
   * changes nothing, except while the cooldown of a user switch is running,
   * when the call is refused.
   */
  lemma InitializeAgain(s: Session, email: Option<string>, init: SdkInit, again: SdkInit)
    requires InitializeIterable(s, email, init).1.Some?
    ensures var (s1, sdk) := InitializeIterable(s, email, init);
      InitializeIterable(s1, email, again) == (s1, if s1.logoutInProgress then None else sdk)
  {
  }

  // ---------------------------------------------------------------------
  // trackEvent
  // ---------------------------------------------------------------------

  /** The `eventData` argument of `trackEvent`; an absent `dataFields` is the empty object. */
  datatype EventData = EventData(
    email: Option<string>,
    dataFields: Fields,
    id: Option<Value>,
    createdAt: Option<Value>,
    campaignId: Option<Value>,
    templateId: Option<Value>)

  datatype TrackPayload = TrackPayload(
    eventName: string,
    dataFields: map<string, Value>,
    email: string,
    id: Option<Value>,
    createdAt: Option<Value>,
    campaignId: Option<Value>,
    templateId: Option<Value>)

  /** Why a call's promise rejects. */
  datatype Failure =
    | NotInitialized
    | EmailRequired
    | SdkError                      // the foreign call threw or rejected
    | ConversionError(e: PathError) // the dot-notation conversion threw

  datatype Reply = Resolved | Rejected(reason: Failure)

  /** One call of the wrapper: the record afterwards, what was handed to the SDK, and how the promise settles. */
  datatype Step<P> = Step(session: Session, sent: Option<P>, reply: Reply)

  /** `if (x) payload.k = x`: a field is copied only when truthy. */
  function IfTruthy(v: Option<Value>): (r: Option<Value>)
    ensures r.Some? <==> v.Some? && Truthy(v.value)
    ensures r.Some? ==> r == v
  {
    if v.Some? && Truthy(v.value) then v else None
  }

  /** Whether `trackEvent` must move the SDK's `setEmail` binding to `email` first. */
  predicate Rebinds(s: Session, email: Option<string>) {
    s.sdkInstance.Some? && s.sdkInstance.value.hasSetEmail && s.currentUserEmail != email
  }

  /** `eventData.email || iterableConfig.currentUserEmail`. */
  function TargetEmail(s: Session, data: EventData): Option<string> {
    if Present(data.email) then data.email else s.currentUserEmail
  }

  /** The guards of `trackEvent` pass and `setEmail`, if it is needed, succeeds. */
  predicate Proceeds(s: Session, data: EventData, setEmailSucceeds: bool) {
    s.isInitialized && Present(TargetEmail(s, data)) && (!Rebinds(s, TargetEmail(s, data)) || setEmailSucceeds)
  }

  /**
   * `trackEvent(eventName, eventData)`. `setEmailSucceeds` and
   * `trackSucceeds` are the outcomes of the foreign `setEmail` and `track`.
   */
  function TrackEvent(s: Session, eventName: string, data: EventData, setEmailSucceeds: bool, trackSucceeds: bool)
    : (r: Step<TrackPayload>)
    ensures !s.isInitialized ==> r == Step(s, None, Rejected(NotInitialized))
    ensures s.isInitialized && !Present(TargetEmail(s, data)) ==> r == Step(s, None, Rejected(EmailRequired))
    ensures r.session.apiKey == s.apiKey && r.session.isInitialized == s.isInitialized
    ensures r.session.sdkInstance == s.sdkInstance && r.session.logoutInProgress == s.logoutInProgress
    ensures r.session.currentUserEmail == s.currentUserEmail || r.session.currentUserEmail == TargetEmail(s, data)
    ensures !Rebinds(s, TargetEmail(s, data)) ==> r.session == s
    ensures r.sent.Some? ==> r.session.currentUserEmail == TargetEmail(s, data) || s.sdkInstance.None? || !s.sdkInstance.value.hasSetEmail
    ensures r.sent.Some? ==>
      var p := r.sent.value;
      Some(p.email) == TargetEmail(s, data) && p.eventName == eventName
      && DotNotation.ConvertDotNotationToNested(data.dataFields) == Ok(p.dataFields)
      && p.id == IfTruthy(data.id) && p.createdAt == IfTruthy(data.createdAt)
      && p.campaignId == IfTruthy(data.campaignId) && p.templateId == IfTruthy(data.templateId)
    ensures r.reply == Resolved <==> r.sent.Some? && trackSucceeds
    ensures s.isInitialized && Present(TargetEmail(s, data)) && Rebinds(s, TargetEmail(s, data)) && !setEmailSucceeds
      ==> r == Step(s, None, Rejected(SdkError))
    ensures Proceeds(s, data, setEmailSucceeds) ==> (r.sent.Some? <==> DotNotation.ConvertDotNotationToNested(data.dataFields).Ok?)
    ensures Proceeds(s, data, setEmailSucceeds) && s.sdkInstance.Some? && s.sdkInstance.value.hasSetEmail
      ==> r.session.currentUserEmail == TargetEmail(s, data)
    ensures Proceeds(s, data, setEmailSucceeds) && DotNotation.ConvertDotNotationToNested(data.dataFields).Err?
      ==> r.reply == Rejected(ConversionError(DotNotation.ConvertDotNotationToNested(data.dataFields).error))
  {
    if !s.isInitialized then Step(s, None, Rejected(NotInitialized))
    else
      var email := TargetEmail(s, data);
      if !Present(email) then Step(s, None, Rejected(EmailRequired))
      else
        var rebinds := Rebinds(s, email);
        if rebinds && !setEmailSucceeds then Step(s, None, Rejected(SdkError))
        else
          var s1 := if rebinds then s.(currentUserEmail := email) else s;
          match DotNotation.ConvertDotNotationToNested(data.dataFields)
          case Err(e) => Step(s1, None, Rejected(ConversionError(e)))
          case Ok(nested) =>
            var p := TrackPayload(eventName, nested, email.value,
              IfTruthy(data.id), IfTruthy(data.createdAt), IfTruthy(data.campaignId), IfTruthy(data.templateId));
            Step(s1, Some(p), if trackSucceeds then Resolved else Rejected(SdkError))
  }

  /** While the invariant holds, an initialised session always has an email to track with. */
  lemma TrackNeverLacksEmail(s: Session, eventName: string, data: EventData, setEmailSucceeds: bool, trackSucceeds: bool)
    requires Inv(s)
    ensures TrackEvent(s, eventName, data, setEmailSucceeds, trackSucceeds).reply != Rejected(EmailRequired)
  {
  }

  // ---------------------------------------------------------------------
  // updateUser and updateSubscription
  // ---------------------------------------------------------------------

  /** The `options` argument of `updateUser`; `None` is `undefined`. */
  datatype UpdateOptions = UpdateOptions(
    mergeNestedObjects: Option<bool>,
    createNewFields: Option<bool>,
    userId: Option<string>,
    preferUserId: Option<bool>)

  datatype UserPayload = UserPayload(
    email: string,
    dataFields: map<string, Value>,
    mergeNestedObjects: bool,
    createNewFields: bool,
    userId: Option<string>,
    preferUserId: Option<bool>)

  /** `updateUser(email, dataFields, options)`; it never changes the record. */
  function UpdateUser(s: Session, email: Option<string>, dataFields: Fields, options: UpdateOptions, sdkSucceeds: bool)
    : (r: Step<UserPayload>)
    ensures r.session == s
    ensures !s.isInitialized ==> r.reply == Rejected(NotInitialized) && r.sent.None?
    ensures s.isInitialized && !Present(email) ==> r.reply == Rejected(EmailRequired) && r.sent.None?
    ensures r.sent.Some? ==>
      var p := r.sent.value;
      Some(p.email) == email && DotNotation.ConvertDotNotationToNested(dataFields) == Ok(p.dataFields)
      && (options.mergeNestedObjects.None? ==> p.mergeNestedObjects)
      && (options.mergeNestedObjects.Some? ==> p.mergeNestedObjects == options.mergeNestedObjects.value)
      && (options.createNewFields.None? ==> p.createNewFields)
      && (options.createNewFields.Some? ==> p.createNewFields == options.createNewFields.value)
      && (p.userId.Some? <==> Present(options.userId)) && (p.userId.Some? ==> p.userId == options.userId)
      && p.preferUserId == options.preferUserId
    ensures r.reply == Resolved <==> r.sent.Some? && sdkSucceeds
    ensures s.isInitialized && Present(email) ==> (r.sent.Some? <==> DotNotation.ConvertDotNotationToNested(dataFields).Ok?)
    ensures s.isInitialized && Present(email) && DotNotation.ConvertDotNotationToNested(dataFields).Err?
      ==> r.reply == Rejected(ConversionError(DotNotation.ConvertDotNotationToNested(dataFields).error))
  {
    if !s.isInitialized then Step(s, None, Rejected(NotInitialized))
    else if !Present(email) then Step(s, None, Rejected(EmailRequired))
    else
      match DotNotation.ConvertDotNotationToNested(dataFields)
      case Err(e) => Step(s, None, Rejected(ConversionError(e)))
      case Ok(nested) =>
        var p := UserPayload(email.value, nested,
          options.mergeNestedObjects.GetOr(true), options.createNewFields.GetOr(true),
          if Present(options.userId) then options.userId else None, options.preferUserId);
        Step(s, Some(p), if sdkSucceeds then Resolved else Rejected(SdkError))
  }

  datatype SubscriptionPayload = SubscriptionPayload(unsubscribedChannelIds: seq<int>)

  /** `updateSubscription(email, _, _, unsubscribedChannels)`: the channel list is sent as it is. */
  function UpdateSubscription(s: Session, unsubscribedChannels: seq<int>, sdkSucceeds: bool)
    : (r: Step<SubscriptionPayload>)
    ensures r.session == s
    ensures r.sent.Some? <==> s.isInitialized
    ensures r.sent.Some? ==> r.sent.value.unsubscribedChannelIds == unsubscribedChannels
    ensures r.reply == Resolved <==> s.isInitialized && sdkSucceeds
    ensures !s.isInitialized ==> r.reply == Rejected(NotInitialized)
  {
    if !s.isInitialized then Step(s, None, Rejected(NotInitialized))
    else Step(s, Some(SubscriptionPayload(unsubscribedChannels)), if sdkSucceeds then Resolved else Rejected(SdkError))
  }

  // ---------------------------------------------------------------------
  // Runs of the machine
  // ---------------------------------------------------------------------

  /** Everything that can happen to the record, each foreign outcome included. */
  datatype Event =
    | Init(email: Option<string>, init: SdkInit)
    | Reset
    | Cooldown
    | Track(eventName: string, data: EventData, setEmailSucceeds: bool, trackSucceeds: bool)
    | Update(userEmail: Option<string>, fields: Fields, options: UpdateOptions, sdkSucceeds: bool)
    | Subscribe(channels: seq<int>, sdkSucceeds: bool)

  function Apply(s: Session, e: Event): Session {
    match e
    case Init(email, init) => InitializeIterable(s, email, init).0
    case Reset => ResetIterable(s)
    case Cooldown => CooldownElapsed(s)
    case Track(n, d, a, b) => TrackEvent(s, n, d, a, b).session
    case Update(m, f, o, b) => UpdateUser(s, m, f, o, b).session
    case Subscribe(c, b) => UpdateSubscription(s, c, b).session
  }

  /** Every event keeps the invariant, keeps the key, and only the cooldown clears the flag. */
  lemma ApplyPreserves(s: Session, e: Event)
    requires Inv(s)
    ensures Inv(Apply(s, e))
    ensures Apply(s, e).apiKey == s.apiKey
    ensures s.logoutInProgress && !e.Cooldown? ==> Apply(s, e).logoutInProgress
  {
  }

  function Replay(s: Session, events: seq<Event>): Session
    decreases |events|
  {
    if |events| == 0 then s else Replay(Apply(s, events[0]), events[1..])
  }

  /** From the initial record, every sequence of events reaches a record satisfying the invariant, with the same key. */
  lemma {:induction false} ReplayPreserves(s: Session, events: seq<Event>)
    requires Inv(s)
    ensures Inv(Replay(s, events)) && Replay(s, events).apiKey == s.apiKey
    decreases |events|
  {
    if |events| > 0 {
      ApplyPreserves(s, events[0]);
      ReplayPreserves(Apply(s, events[0]), events[1..]);
    }
  }

  lemma InitialSatisfiesInv(apiKey: Option<string>)
    ensures Inv(Initial(apiKey)) && !Initial(apiKey).logoutInProgress
  {
  }
}

=== FILE: success_page.dfy ===
/**
 * The subscription-success page of subscription-success.js: what it shows
 * for the stored user, the summary of SDK calls, the plan line, and the
 * logout handler.
 */
module SuccessPage {
  import opened Maybe
  import Session
  import Checkout

  /** `localStorage`, as far as this page reads it. */
  type Storage = map<string, string>

  const EmailKey := "iterable_user_email"
  const FirstNameKey := "iterable_user_firstName"
  const LastNameKey := "iterable_user_lastName"
  const SignupEventKey := "iterable_signup_event_id"

  /** The keys logout removes. */
  const UserKeys: set<string> := {EmailKey, FirstNameKey, LastNameKey, SignupEventKey}

  /** Whether `localStorage.getItem(key)` is truthy. */
  predicate Truthy(storage: Storage, key: string) {
    key in storage && storage[key] != ""
  }

  // ---------------------------------------------------------------------
  // The user shown on the page
  // ---------------------------------------------------------------------

  datatype Display = Display(
    loggedIn: bool,             // dropdown shown instead of the login button
    greeting: Option<string>,   // "Hi, <first name>"
    successEmail: string,
    successName: Option<string>)  // left as the page's placeholder when None

  /**
   * `updateUIForLoggedInState`: the user counts as logged in only with both
   * an email and a first name; the email line falls back to "-", and the
   * name line is written only with a first name, joined to a non-empty last
   * name by one space.
   */
  function ShowUser(storage: Storage): (d: Display)
    ensures d.loggedIn <==> Truthy(storage, EmailKey) && Truthy(storage, FirstNameKey)
    ensures d.greeting.Some? <==> d.loggedIn
    ensures d.greeting.Some? ==> d.greeting.value == "Hi, " + storage[FirstNameKey]
    ensures d.successEmail == (if Truthy(storage, EmailKey) then storage[EmailKey] else "-")
    ensures d.successName.Some? <==> Truthy(storage, FirstNameKey)
    ensures d.successName.Some? && Truthy(storage, LastNameKey) ==>
      d.successName.value == storage[FirstNameKey] + " " + storage[LastNameKey]
    ensures d.successName.Some? && !Truthy(storage, LastNameKey) ==>
      d.successName.value == storage[FirstNameKey]
  {
    var loggedIn := Truthy(storage, EmailKey) && Truthy(storage, FirstNameKey);
    var first := if Truthy(storage, FirstNameKey) then storage[FirstNameKey] else "";
    var last := if LastNameKey in storage then storage[LastNameKey] else "";
    Display(
      loggedIn,
      if loggedIn then Some("Hi, " + first) else None,
      if Truthy(storage, EmailKey) then storage[EmailKey] else "-",
      if first == "" then None else Some(if last != "" then first + " " + last else first))
  }

  // ---------------------------------------------------------------------
  // The summary of SDK calls
  // ---------------------------------------------------------------------

  datatype ApiCall = ApiCall(name: string, event: string)

  /**
   * `displayAPIsSummary`: "Sign Up" is listed first only when a sign-up
   * event id is stored; the profile update and "Subscription Started" are
   * always listed, in that order.
   */
  function ApiSummary(storage: Storage): (r: seq<ApiCall>)
    ensures |r| == (if Truthy(storage, SignupEventKey) then 3 else 2)
    ensures r[0] == ApiCall("trackEvent", "Sign Up") <==> Truthy(storage, SignupEventKey)
    ensures r[|r| - 2] == ApiCall("updateUser", "User Profile Updated")
    ensures r[|r| - 1] == ApiCall("trackEvent", "Subscription Started")
  {
    var signUp := if Truthy(storage, SignupEventKey) then [ApiCall("trackEvent", "Sign Up")] else [];
    signUp + [ApiCall("updateUser", "User Profile Updated"), ApiCall("trackEvent", "Subscription Started")]
  }

  // ---------------------------------------------------------------------
  // The plan line
  // ---------------------------------------------------------------------

  /** The page's own table from preference to box name. */
  const BoxNames: map<string, string> := map[
    "vegan" := "Vegan and Veggie",
    "gourmet" := "Gourmet",
    "gluten-free" := "Gluten Free",
    "ready-made" := "Ready Made",
    "all" := "Ready Made"]

  /** `boxNameMap[preference] || 'Ready Made'`. */
  function BoxName(preference: string): (r: string)
    ensures r in BoxNames.Values
    ensures preference in BoxNames ==> r == BoxNames[preference]
    ensures preference !in BoxNames ==> r == "Ready Made"
  {
    assert BoxNames["all"] == "Ready Made";
    if preference in BoxNames then BoxNames[preference] else "Ready Made"
  }

  /** The success page's table names every box as the checkout page's `getBoxName` does. */
  lemma BoxNamesAgree(preference: string)
    ensures BoxName(preference) == Checkout.GetBoxName(preference)
  {
    if preference !in {"vegan", "gourmet", "gluten-free"} {
      assert BoxName(preference) == "Ready Made";
    }
  }

  /** The plan read from the query string, each parameter falling back when missing or empty. */
  function PlanFromQuery(query: map<string, string>): (p: Checkout.PlanData)
    ensures p == Checkout.LoadPlanData(
      if "people" in query then Some(query["people"]) else None,
      if "meals" in query then Some(query["meals"]) else None,
      if "preference" in query then Some(query["preference"]) else None)
  {
    Checkout.PlanData(
      Get(query, "people", "2"),
      Get(query, "meals", "5"),
      Get(query, "preference", "all"))
  }

  /** `params.get(key) || fallback`. */
  function Get(query: map<string, string>, key: string, fallback: string): string {
    if key in query && query[key] != "" then query[key] else fallback
  }

  /** The unit after the number of people. */
  function PeopleUnit(people: string): (u: string)
    ensures |u| == 6
    ensures u == "person" <==> people == "1"
  {
    if people == "1" then "person" else "people"
  }

  /** `${boxName} - ${meals} meals for ${people} person|people`. */
  function PlanText(p: Checkout.PlanData): (r: string)
    ensures |r| >= |BoxName(p.preference)| + 6
    ensures r[..|BoxName(p.preference)|] == BoxName(p.preference)
    ensures r[|r| - 6..] == PeopleUnit(p.people)
  {
    BoxName(p.preference) + " - " + p.meals + " meals for " + p.people + " " + PeopleUnit(p.people)
  }

  /**
   * The plan line ends in "person" exactly when it is for one person, and
   * begins with the box name the checkout page gives the preference.
   */
  lemma PlanTextShape(p: Checkout.PlanData)
    ensures var t := PlanText(p);
      |t| >= 6
      && (t[|t| - 6..] == "person" <==> p.people == "1")
      && t[..|Checkout.GetBoxName(p.preference)|] == Checkout.GetBoxName(p.preference)
  {
    var t := PlanText(p);
    var head := BoxName(p.preference) + " - " + p.meals + " meals for " + p.people + " ";
    assert t == head + PeopleUnit(p.people);
    assert t[|t| - 6..] == PeopleUnit(p.people);
    BoxNamesAgree(p.preference);
    assert t == BoxName(p.preference) + (" - " + p.meals + " meals for " + p.people + " " + PeopleUnit(p.people));
  }

  // ---------------------------------------------------------------------
  // Logout
  // ---------------------------------------------------------------------

  /**
   * `handleLogout`: the SDK session is reset when it is initialised, and the
   * four user keys are removed from storage; nothing else is touched.
   */
  function HandleLogout(storage: Storage, s: Session.Session): (r: (Storage, Session.Session))
    ensures r.0.Keys == storage.Keys - UserKeys
    ensures forall k :: k in r.0 ==> r.0[k] == storage[k]
    ensures s.isInitialized ==> r.1 == Session.ResetIterable(s)
    ensures !s.isInitialized ==> r.1 == s
  {
    (storage - UserKeys, if s.isInitialized then Session.ResetIterable(s) else s)
  }

  /**
   * After logout the page shows nobody: the login button is back, the email
   * line reads "-", no name is written, only the two fixed calls are listed,
   * and the SDK session holds no user.
   */
  lemma LogoutShowsNobody(storage: Storage, s: Session.Session)
    requires Session.Inv(s)
    ensures var (st, s2) := HandleLogout(storage, s);
      var d := ShowUser(st);
      !d.loggedIn && d.successEmail == "-" && d.successName.None?
      && |ApiSummary(st)| == 2
      && !s2.isInitialized && s2.currentUserEmail.None? && Session.Inv(s2)
  {
    var st := HandleLogout(storage, s).0;
    assert EmailKey !in st && FirstNameKey !in st && SignupEventKey !in st;
  }
}

=== FILE: text.dfy ===
/**
 * The JavaScript string primitives the site's code relies on, restated over
 * `string` (a sequence of Unicode scalar values): the `\s`/`trim` whitespace
 * class, `split` on one character, `startsWith`, `replace` of the first
 * occurrence, ASCII case mapping, and decimal digit strings (`String(n)`,
 * `parseInt` on a digit run, `padStart(2, '0')`).
 */
module Text {
  import opened Maybe

  /** WhiteSpace and LineTerminator of ECMA-262: the class `\s` matches and `trim` removes. */
  predicate IsSpace(c: char) {
    || c == '\t' || c == '\n' || c == '\U{B}' || c == '\U{C}' || c == '\r' || c == ' '
    || c == '\U{A0}' || c == '\U{1680}' || ('\U{2000}' <= c <= '\U{200A}')
    || c == '\U{2028}' || c == '\U{2029}' || c == '\U{202F}' || c == '\U{205F}'
    || c == '\U{3000}' || c == '\U{FEFF}'
  }

  /** The characters a regular-expression `.` does not match. */
  predicate IsLineTerminator(c: char) {
    c == '\n' || c == '\r' || c == '\U{2028}' || c == '\U{2029}'
  }

  /** `\d`: an ASCII decimal digit. */
  predicate IsDigit(c: char) {
    '0' <= c <= '9'
  }

  predicate IsAsciiLetter(c: char) {
    ('a' <= c <= 'z') || ('A' <= c <= 'Z')
  }

  /** `\w`: an ASCII letter, digit or underscore. */
  predicate IsWordChar(c: char) {
    IsAsciiLetter(c) || IsDigit(c) || c == '_'
  }

  predicate All(s: string, p: char -> bool) {
    forall i :: 0 <= i < |s| ==> p(s[i])
  }

  function LowerChar(c: char): char {
    if 'A' <= c <= 'Z' then (c as int + 32) as char else c
  }

  function UpperChar(c: char): char {
    if 'a' <= c <= 'z' then (c as int - 32) as char else c
  }

  /** `toLowerCase` restricted to ASCII letters; every other character is kept. */
  function Lower(s: string): (r: string)
    ensures |r| == |s|
    ensures forall i :: 0 <= i < |s| ==> r[i] == LowerChar(s[i])
  {
    seq(|s|, i requires 0 <= i < |s| => LowerChar(s[i]))
  }

  /** Length of the longest run of characters satisfying `p` that starts at index `i`. */
  function Run(s: string, i: nat, p: char -> bool): (k: nat)
    requires i <= |s|
    ensures i + k <= |s|
    ensures forall j :: i <= j < i + k ==> p(s[j])
    ensures i + k == |s| || !p(s[i + k])
    decreases |s| - i
  {
    if i == |s| || !p(s[i]) then 0 else 1 + Run(s, i + 1, p)
  }

  /** Length of the longest run of characters satisfying `p` that ends the string. */
  function TrailingRun(s: string, p: char -> bool): (k: nat)
    ensures k <= |s|
    ensures forall j :: |s| - k <= j < |s| ==> p(s[j])
    ensures k == |s| || !p(s[|s| - k - 1])
  {
    if |s| == 0 || !p(s[|s| - 1]) then 0 else 1 + TrailingRun(s[..|s| - 1], p)
  }

  /** A run of `p` that reaches the end is contained in the trailing run. */
  lemma TrailingRunCovers(s: string, p: char -> bool, j: nat)
    requires j <= |s| && forall i :: j <= i < |s| ==> p(s[i])
    ensures |s| - TrailingRun(s, p) <= j
  {
  }

  /** Every character of `s[i..j]` satisfies `p`. */
  predicate Each(s: string, i: int, j: int, p: char -> bool)
    requires 0 <= i <= j <= |s|
  {
    forall x :: i <= x < j ==> p(s[x])
  }

  /** `s[i..j]` is the longest run of characters satisfying `p` that starts at `i`. */
  predicate MaxRun(s: string, i: int, j: int, p: char -> bool) {
    0 <= i <= j <= |s| && Each(s, i, j, p) && (j == |s| || !p(s[j]))
  }

  /** Any run of `p` from `i` lies within the maximal one. */
  lemma MaxRunCovers(s: string, i: int, j: int, p: char -> bool, k: int)
    requires MaxRun(s, i, j, p) && i <= k <= |s| && Each(s, i, k, p)
    ensures k <= j
  {
  }

  lemma MaxRunUnique(s: string, i: int, j: int, k: int, p: char -> bool)
    requires MaxRun(s, i, j, p) && MaxRun(s, i, k, p)
    ensures j == k
  {
    MaxRunCovers(s, i, j, p, k);
    MaxRunCovers(s, i, k, p, j);
  }

  /** The end of the maximal run of `p` from `i`, found by scanning forward. */
  method RunEnd(s: string, i: nat, p: char -> bool) returns (j: nat)
    requires i <= |s|
    ensures MaxRun(s, i, j, p)
  {
    j := i;
    while j < |s| && p(s[j])
      invariant i <= j <= |s| && Each(s, i, j, p)
    {
      j := j + 1;
    }
  }

  /** `String.prototype.trim`: whitespace removed from both ends and nothing else. */
  function Trim(s: string): (r: string)
    ensures exists a, b :: 0 <= a <= b <= |s| && r == s[a..b] && All(s[..a], IsSpace) && All(s[b..], IsSpace)
    ensures Unpadded(r)
  {
    var a := Run(s, 0, IsSpace);
    var t := s[a..];
    var b := TrailingRun(t, IsSpace);
    var e := a + |t| - b;
    assert t[..|t| - b] == s[a..e];
    assert All(s[..a], IsSpace) by {
      forall j | 0 <= j < a ensures IsSpace(s[..a][j]) {
        assert s[..a][j] == s[j];
      }
    }
    assert All(s[e..], IsSpace) by {
      forall j | 0 <= j < |s| - e ensures IsSpace(s[e..][j]) {
        assert s[e..][j] == t[|t| - b + j];
      }
    }
    assert 0 <= a <= e <= |s| && t[..|t| - b] == s[a..e] && All(s[..a], IsSpace) && All(s[e..], IsSpace);
    t[..|t| - b]
  }

  /** Trimming a string that neither starts nor ends with whitespace changes nothing. */
  lemma TrimUnpadded(s: string)
    requires Unpadded(s)
    ensures Trim(s) == s
  {
    var a := Run(s, 0, IsSpace);
    if |s| > 0 {
      assert a == 0;
      assert TrailingRun(s, IsSpace) == 0;
    }
  }

  /** Neither starts nor ends with whitespace: what `trim` returns. */
  predicate Unpadded(s: string) {
    |s| == 0 || (!IsSpace(s[0]) && !IsSpace(s[|s| - 1]))
  }

  /** Trimming a string that is unpadded but for one leading space removes just that space. */
  lemma TrimLeadingSpace(s: string)
    requires Unpadded(s)
    ensures Trim([' '] + s) == s
  {
    var t := [' '] + s;
    assert Run(t, 0, IsSpace) == 1 + Run(t, 1, IsSpace);
    if |s| > 0 {
      assert t[1] == s[0];
      assert Run(t, 1, IsSpace) == 0;
    }
    assert t[1..] == s;
    TrimUnpadded(s);
  }

  /** Index of the first occurrence of `c` in `s`, if any. */
  function IndexOfChar(s: string, c: char): (r: Option<nat>)
    ensures r.Some? ==> r.value < |s| && s[r.value] == c && c !in s[..r.value]
    ensures r.None? <==> c !in s
  {
    if |s| == 0 then None
    else if s[0] == c then Some(0)
    else match IndexOfChar(s[1..], c)
      case None => None
      case Some(i) => assert s[..i + 1] == [s[0]] + s[1..][..i]; Some(i + 1)
  }

  /** A character's first occurrence is where it sits when it does not occur earlier. */
  lemma IndexOfCharAt(s: string, c: char, k: nat)
    requires k < |s| && s[k] == c && c !in s[..k]
    ensures IndexOfChar(s, c) == Some(k)
  {
    assert c in s;
  }

  /** `s.split(sep)` for a one-character separator: the maximal separator-free pieces, in order. */
  function Split(s: string, sep: char): (parts: seq<string>)
    ensures |parts| >= 1
    ensures forall i :: 0 <= i < |parts| ==> sep !in parts[i]
    decreases |s|
  {
    match IndexOfChar(s, sep)
    case None => [s]
    case Some(i) => [s[..i]] + Split(s[i + 1..], sep)
  }

  /** Splitting text that starts with a separator-free piece and a separator. */
  lemma SplitCons(a: string, b: string, sep: char)
    requires sep !in a
    ensures Split(a + [sep] + b, sep) == [a] + Split(b, sep)
  {
    var s := a + [sep] + b;
    IndexOfCharAt(s, sep, |a|);
    assert s[..|a|] == a;
    assert s[|a| + 1..] == b;
  }

  /** `parts.join(sep)`. */
  function Join(parts: seq<string>, sep: char): string {
    if |parts| == 0 then ""
    else if |parts| == 1 then parts[0]
    else parts[0] + [sep] + Join(parts[1..], sep)
  }

  /** Splitting loses nothing: joining the pieces back gives the original string. */
  lemma {:induction false} JoinSplit(s: string, sep: char)
    ensures Join(Split(s, sep), sep) == s
    decreases |s|
  {
    match IndexOfChar(s, sep)
    case None =>
    case Some(i) =>
      var rest := Split(s[i + 1..], sep);
      JoinSplit(s[i + 1..], sep);
      assert Split(s, sep) == [s[..i]] + rest;
      assert s == s[..i] + [sep] + s[i + 1..];
  }

  /** A string without the separator splits into itself alone. */
  lemma SplitWithoutSep(s: string, sep: char)
    requires sep !in s
    ensures Split(s, sep) == [s]
  {
  }

  /** A string containing the separator splits into at least two pieces. */
  lemma SplitWithSep(s: string, sep: char)
    requires sep in s
    ensures |Split(s, sep)| >= 2
  {
    var i := IndexOfChar(s, sep).value;
    assert |Split(s, sep)| == 1 + |Split(s[i + 1..], sep)|;
  }

  /** The first piece of a split is the text before the first separator. */
  lemma SplitHead(s: string, sep: char)
    ensures Split(s, sep)[0] == (match IndexOfChar(s, sep) case None => s case Some(i) => s[..i])
  {
  }

  predicate StartsWith(s: string, prefix: string) {
    |prefix| <= |s| && s[..|prefix|] == prefix
  }

  predicate OccursAt(s: string, pat: string, i: nat) {
    i + |pat| <= |s| && s[i..i + |pat|] == pat
  }

  /** `s.indexOf(pat, from)`: the first occurrence at or after `from`. */
  function IndexOf(s: string, pat: string, from: nat): (r: Option<nat>)
    requires from <= |s|
    ensures r.Some? ==> from <= r.value && OccursAt(s, pat, r.value)
    ensures r.Some? ==> forall j :: from <= j < r.value ==> !OccursAt(s, pat, j)
    ensures r.None? ==> forall j :: from <= j ==> !OccursAt(s, pat, j)
    decreases |s| - from
  {
    if OccursAt(s, pat, from) then Some(from)
    else if from == |s| then None
    else IndexOf(s, pat, from + 1)
  }

  /** `s.replace(pat, rep)` with a string pattern: only the first occurrence is replaced. */
  function ReplaceFirst(s: string, pat: string, rep: string): (r: string)
    ensures IndexOf(s, pat, 0).None? ==> r == s
    ensures IndexOf(s, pat, 0).Some? ==>
      var i := IndexOf(s, pat, 0).value; s == s[..i] + pat + s[i + |pat|..] && r == s[..i] + rep + s[i + |pat|..]
  {
    match IndexOf(s, pat, 0)
    case None => s
    case Some(i) => s[..i] + rep + s[i + |pat|..]
  }

  /** `s.replace(/[...]/g, '')`: every character of the class `drop` deleted, the rest kept in order. */
  function RemoveChars(s: string, drop: char -> bool): (r: string)
    ensures |r| <= |s|
    ensures forall i :: 0 <= i < |r| ==> !drop(r[i])
    ensures (forall i :: 0 <= i < |s| ==> !drop(s[i])) ==> r == s
  {
    if |s| == 0 then ""
    else (if drop(s[0]) then "" else [s[0]]) + RemoveChars(s[1..], drop)
  }

  /** Deleting characters distributes over concatenation. */
  lemma {:induction false} RemoveCharsAppend(a: string, b: string, drop: char -> bool)
    ensures RemoveChars(a + b, drop) == RemoveChars(a, drop) + RemoveChars(b, drop)
    decreases |a|
  {
    if |a| == 0 {
      assert a + b == b;
    } else {
      assert (a + b)[1..] == a[1..] + b;
      RemoveCharsAppend(a[1..], b, drop);
    }
  }

  /** A deleted character leaves no trace wherever it stands. */
  lemma RemoveCharsSkips(a: string, b: string, c: char, drop: char -> bool)
    requires drop(c)
    ensures RemoveChars(a + [c] + b, drop) == RemoveChars(a + b, drop)
  {
    RemoveCharsAppend(a + [c], b, drop);
    RemoveCharsAppend(a, [c], drop);
    RemoveCharsAppend(a, b, drop);
    assert RemoveChars([c], drop) == RemoveChars([], drop) == [];
  }

  function DigitChar(d: nat): (c: char)
    requires d < 10
    ensures IsDigit(c)
  {
    ('0' as int + d) as char
  }

  function DigitValue(c: char): (d: nat)
    requires IsDigit(c)
    ensures d < 10 && DigitChar(d) == c
  {
    c as int - '0' as int
  }

  /** `String(n)` for a non-negative integer: decimal digits without leading zeros. */
  function NatToDecimal(n: nat): (r: string)
    ensures |r| >= 1 && All(r, IsDigit)
    ensures |r| > 1 ==> r[0] != '0'
    decreases n
  {
    if n < 10 then [DigitChar(n)] else NatToDecimal(n / 10) + [DigitChar(n % 10)]
  }

  /** The number a run of decimal digits denotes (what `parseInt` returns for it). */
  function DecimalValue(s: string): nat
    requires All(s, IsDigit)
  {
    if |s| == 0 then 0 else 10 * DecimalValue(s[..|s| - 1]) + DigitValue(s[|s| - 1])
  }

  /** Printing a number and reading it back gives the number. */
  lemma {:induction false} DecimalRoundTrip(n: nat)
    ensures DecimalValue(NatToDecimal(n)) == n
    decreases n
  {
    if n >= 10 {
      var r := NatToDecimal(n);
      assert r[..|r| - 1] == NatToDecimal(n / 10);
      DecimalRoundTrip(n / 10);
    }
  }

  /** A leading zero does not change the value of a digit string. */
  lemma {:induction false} DecimalLeadingZero(s: string)
    requires All(s, IsDigit)
    ensures DecimalValue("0" + s) == DecimalValue(s)
    decreases |s|
  {
    if |s| > 0 {
      assert ("0" + s)[..|"0" + s| - 1] == "0" + s[..|s| - 1];
      DecimalLeadingZero(s[..|s| - 1]);
    }
  }

  /** `s.padStart(2, '0')`. */
  function PadStart2(s: string): (r: string)
    ensures |s| >= 2 ==> r == s
    ensures |s| < 2 ==> |r| == 2 && r[2 - |s|..] == s && All(r[..2 - |s|], c => c == '0')
  {
    if |s| >= 2 then s else seq(2 - |s|, _ => '0') + s
  }

  /** Zero padding keeps a digit string a digit string of the same value. */
  lemma PadStart2Value(s: string)
    requires All(s, IsDigit)
    ensures All(PadStart2(s), IsDigit)
    ensures DecimalValue(PadStart2(s)) == DecimalValue(s)
  {
    if |s| == 1 {
      assert PadStart2(s) == "0" + s;
      DecimalLeadingZero(s);
    } else if |s| == 0 {
      assert PadStart2(s) == "0" + ("0" + s);
      DecimalLeadingZero(s);
      DecimalLeadingZero("0" + s);
    }
  }
}

=== FILE: validators.dfy ===
/**
 * The checkout form's field checks: `validateEmail`, `validatePhoneNumber`
 * (New Zealand numbers with an optional `+64` or `0` prefix) and
 * `formatPhoneNumber`, which reduces a number to the national digits sent to
 * the marketing platform.
 */
module Validators {
  import opened Maybe
  import opened Text

  // ---------------------------------------------------------------------
  // Email
  // ---------------------------------------------------------------------

  /** `[^\s@]`: one character of an address part. */
  predicate IsEmailChar(c: char) {
    !IsSpace(c) && c != '@'
  }

  predicate IsEmailPart(x: string) {
    |x| >= 1 && All(x, IsEmailChar)
  }

  /**
   * The language of `^[^\s@]+@[^\s@]+\.[^\s@]+$`: a local part, `@`, a
   * domain part, a dot and a final part, all three non-empty and free of
   * whitespace and `@`. The `@` sits at `k`, the chosen dot at `m`.
   */
  predicate EmailPattern(s: string) {
    exists k, m :: 0 < k < m < |s| - 1 && s[k] == '@' && s[m] == '.'
      && IsEmailPart(s[..k]) && IsEmailPart(s[k + 1..m]) && IsEmailPart(s[m + 1..])
  }

  predicate NotSpace(c: char) {
    !IsSpace(c)
  }

  /** What must follow the `@`: no second `@`, and a dot with text on both sides. */
  predicate DomainShape(d: string) {
    '@' !in d && |d| >= 3 && '.' in d[1..|d| - 1]
  }

  /**
   * `validateEmail`: no whitespace anywhere, exactly one `@` with text before
   * it, and a dot after it that is neither the first nor the last character
   * of the domain.
   */
  function ValidateEmail(email: string): (ok: bool)
    ensures ok <==> EmailPattern(email)
  {
    var ok := All(email, NotSpace) &&
      match IndexOfChar(email, '@')
      case None => false
      case Some(k) => k >= 1 && DomainShape(email[k + 1..]);
    EmailShapeSound(email);
    EmailShapeComplete(email);
    ok
  }

  lemma EmailShapeSound(email: string)
    ensures (All(email, NotSpace) && IndexOfChar(email, '@').Some? &&
      var k := IndexOfChar(email, '@').value; k >= 1 && DomainShape(email[k + 1..])) ==> EmailPattern(email)
  {
    if All(email, NotSpace) && IndexOfChar(email, '@').Some? {
      var k := IndexOfChar(email, '@').value;
      if k >= 1 && DomainShape(email[k + 1..]) {
        EmailWitness(email, k);
      }
    }
  }

  /** An address with a lone leading `@` at `k` and a domain of the accepted shape matches, splitting at any inner dot. */
  lemma EmailWitness(email: string, k: nat)
    requires All(email, NotSpace) && 1 <= k < |email| && email[k] == '@' && '@' !in email[..k]
    requires DomainShape(email[k + 1..])
    ensures EmailPattern(email)
  {
    var d := email[k + 1..];
    var t :| 0 <= t < |d| - 2 && d[1..|d| - 1][t] == '.';
    var m := k + 2 + t;
    assert email[m] == '.';
    EmailPartOfSlice(email, 0, k);
    assert email[k + 1..m] == d[..t + 1];
    EmailPartOfSlice(email, k + 1, m);
    assert email[m + 1..] == d[t + 2..];
    EmailPartOfSlice(email, m + 1, |email|);
    assert 0 < k < m < |email| - 1 && email[k] == '@' && email[m] == '.'
      && IsEmailPart(email[..k]) && IsEmailPart(email[k + 1..m]) && IsEmailPart(email[m + 1..]);
  }

  lemma EmailPartOfSlice(s: string, i: nat, j: nat)
    requires i < j <= |s| && All(s, NotSpace) && '@' !in s[i..j]
    ensures IsEmailPart(s[i..j])
  {
  }

  lemma EmailShapeComplete(email: string)
    ensures EmailPattern(email) ==>
      (All(email, NotSpace) && IndexOfChar(email, '@').Some? &&
       var k := IndexOfChar(email, '@').value; k >= 1 && DomainShape(email[k + 1..]))
  {
    if EmailPattern(email) {
      var k, m :| 0 < k < m < |email| - 1 && email[k] == '@' && email[m] == '.'
        && IsEmailPart(email[..k]) && IsEmailPart(email[k + 1..m]) && IsEmailPart(email[m + 1..]);
      EmailCompleteAt(email, k, m);
    }
  }

  /** A match with its `@` at `k` and its dot at `m` passes the checks of `validateEmail`. */
  lemma EmailCompleteAt(email: string, k: nat, m: nat)
    requires 0 < k < m < |email| - 1 && email[k] == '@' && email[m] == '.'
    requires IsEmailPart(email[..k]) && IsEmailPart(email[k + 1..m]) && IsEmailPart(email[m + 1..])
    ensures All(email, NotSpace) && IndexOfChar(email, '@') == Some(k) && DomainShape(email[k + 1..])
  {
    SliceAround(email, 0, k);
    SliceAround(email, k + 1, m);
    DomainOfParts(email[k + 1..m], email[m + 1..]);
    EmailNoSpace(email[..k], email[k + 1..]);
    IndexOfCharAt(email, '@', k);
  }

  lemma SliceAround(s: string, i: nat, j: nat)
    requires i <= j < |s|
    ensures s[i..] == s[i..j] + [s[j]] + s[j + 1..]
  {
  }

  /** A domain part, a dot and a final part make a domain of the accepted shape. */
  lemma DomainOfParts(b: string, c: string)
    requires IsEmailPart(b) && IsEmailPart(c)
    ensures DomainShape(b + ['.'] + c) && All(b + ['.'] + c, NotSpace)
  {
    var d := b + ['.'] + c;
    assert d[1..|d| - 1][|b| - 1] == '.';
    forall i | 0 <= i < |d|
      ensures NotSpace(d[i]) && d[i] != '@'
    {
      if i < |b| {
        assert d[i] == b[i];
      } else if i > |b| {
        assert d[i] == c[i - |b| - 1];
      }
    }
  }

  lemma EmailNoSpace(a: string, d: string)
    requires IsEmailPart(a) && All(d, NotSpace)
    ensures All(a + ['@'] + d, NotSpace)
  {
    var e := a + ['@'] + d;
    forall i | 0 <= i < |e|
      ensures NotSpace(e[i])
    {
      if i < |a| {
        assert e[i] == a[i];
      } else if i > |a| {
        assert e[i] == d[i - |a| - 1];
      }
    }
  }

  // ---------------------------------------------------------------------
  // Phone numbers
  // ---------------------------------------------------------------------

  /** `[\s\-\(\)]`: the separators `validatePhoneNumber` strips. */
  predicate IsPhoneSeparator(c: char) {
    IsSpace(c) || c == '-' || c == '(' || c == ')'
  }

  /** `[\s\-\(\)\+]`: the characters `formatPhoneNumber` strips. */
  predicate IsFormatStripped(c: char) {
    IsPhoneSeparator(c) || c == '+'
  }

  /** `[2-9]\d{7,9}`: a national number of eight to ten digits not starting with 0 or 1. */
  predicate IsNationalNumber(b: string) {
    8 <= |b| <= 10 && All(b, IsDigit) && '2' <= b[0] <= '9'
  }

  /** The alternatives of the optional group `(\+64|0)?`. */
  const PhonePrefixes: seq<string> := ["", "0", "+64"]

  /** The language of `^(\+64|0)?[2-9]\d{7,9}$`. */
  predicate PhonePattern(s: string) {
    exists i :: 0 <= i < |PhonePrefixes| && StartsWith(s, PhonePrefixes[i]) && IsNationalNumber(s[|PhonePrefixes[i]|..])
  }

  /** The length of the prefix a cleaned number is read with, tried in the regex's order. */
  function PrefixLength(s: string): (n: nat)
    ensures n in {0, 1, 3} && n <= |s|
    ensures n == 3 <==> StartsWith(s, "+64")
    ensures n == 1 <==> StartsWith(s, "0")
  {
    if StartsWith(s, "+64") then assert s[0] == '+'; 3 else if StartsWith(s, "0") then 1 else 0
  }

  /** `validatePhoneNumber`: separators stripped, then a national number behind an optional prefix. */
  function ValidatePhoneNumber(phone: string): (ok: bool)
    ensures ok <==> PhonePattern(RemoveChars(phone, IsPhoneSeparator))
  {
    var c := RemoveChars(phone, IsPhoneSeparator);
    var ok := IsNationalNumber(c[PrefixLength(c)..]);
    PhoneCheck(c);
    ok
  }

  /** Only the prefix the cleaned text starts with can lead to a match. */
  lemma PhoneCheck(c: string)
    ensures IsNationalNumber(c[PrefixLength(c)..]) <==> PhonePattern(c)
  {
    var n := PrefixLength(c);
    if n == 0 {
      assert StartsWith(c, PhonePrefixes[0]);
    } else if n == 1 {
      assert StartsWith(c, PhonePrefixes[1]);
    } else {
      assert StartsWith(c, PhonePrefixes[2]);
    }
    if PhonePattern(c) {
      var i :| 0 <= i < |PhonePrefixes| && StartsWith(c, PhonePrefixes[i]) && IsNationalNumber(c[|PhonePrefixes[i]|..]);
      var b := c[|PhonePrefixes[i]|..];
      assert '2' <= b[0] <= '9';
      if i == 0 {
        assert c[0] == b[0];
      } else if i == 1 {
        assert c[0] == '0';
      } else {
        assert c[..3] == "+64";
      }
    }
  }

  /** Inserting a separator anywhere in a number does not change whether it is accepted. */
  lemma SeparatorsIgnored(a: string, b: string, sep: char)
    requires IsPhoneSeparator(sep)
    ensures ValidatePhoneNumber(a + [sep] + b) == ValidatePhoneNumber(a + b)
    ensures FormatPhoneNumber(a + [sep] + b) == FormatPhoneNumber(a + b)
  {
    RemoveCharsSkips(a, b, sep, IsPhoneSeparator);
    RemoveCharsSkips(a, b, sep, IsFormatStripped);
  }

  /** `formatPhoneNumber`: separators and `+` stripped, then a leading `64` or else a leading `0` removed. */
  function FormatPhoneNumber(phone: string): (r: string)
    ensures forall i :: 0 <= i < |r| ==> !IsFormatStripped(r[i])
    ensures All(phone, IsDigit) && StartsWith(phone, "0") && !StartsWith(phone, "64") ==> r == phone[1..]
    ensures All(phone, IsDigit) && !StartsWith(phone, "0") && !StartsWith(phone, "64") ==> r == phone
  {
    var c := RemoveChars(phone, IsFormatStripped);
    if StartsWith(c, "64") then c[2..] else if StartsWith(c, "0") then c[1..] else c
  }

  /** Stripping one class of characters and then another strips their union. */
  lemma {:induction false} RemoveCharsTwice(s: string, p: char -> bool, q: char -> bool, u: char -> bool)
    requires forall c :: u(c) == (p(c) || q(c))
    ensures RemoveChars(RemoveChars(s, p), q) == RemoveChars(s, u)
    decreases |s|
  {
    if |s| > 0 {
      RemoveCharsTwice(s[1..], p, q, u);
      var head := if p(s[0]) then "" else [s[0]];
      RemoveCharsAppend(head, RemoveChars(s[1..], p), q);
    }
  }

  predicate IsPlus(c: char) {
    c == '+'
  }

  /** `formatPhoneNumber` strips in one pass what `validatePhoneNumber` strips, and then the `+` signs. */
  lemma FormatCleaning(phone: string)
    ensures RemoveChars(phone, IsFormatStripped) == RemoveChars(RemoveChars(phone, IsPhoneSeparator), IsPlus)
  {
    RemoveCharsTwice(phone, IsPhoneSeparator, IsPlus, IsFormatStripped);
  }

  /** Removing the `+` signs from a prefixed national number leaves the prefix's digits and the number. */
  lemma StripPlusOfPrefixed(c: string, n: nat)
    requires n == PrefixLength(c) && IsNationalNumber(c[n..])
    ensures RemoveChars(c, IsPlus) == (if n == 3 then "64" else if n == 1 then "0" else "") + c[n..]
  {
    var b := c[n..];
    assert c == c[..n] + b;
    RemoveCharsAppend(c[..n], b, IsPlus);
    assert RemoveChars(b, IsPlus) == b;
    StripPlusOfPrefix(c, n);
  }

  lemma StripPlusOfPrefix(c: string, n: nat)
    requires n == PrefixLength(c)
    ensures RemoveChars(c[..n], IsPlus) == (if n == 3 then "64" else if n == 1 then "0" else "")
  {
    if n == 3 {
      assert c[..n] == "+64";
      assert RemoveChars("+64", IsPlus) == RemoveChars("64", IsPlus);
    } else if n == 1 {
      assert c[..n] == "0";
    } else {
      assert c[..n] == "";
    }
  }

  /**
   * On an accepted number, `formatPhoneNumber` yields exactly its national
   * digits, except that a national number that itself begins with `64` and
   * was written without a prefix loses those two digits as if they were the
   * country code.
   */
  lemma FormatValidPhone(phone: string)
    requires ValidatePhoneNumber(phone)
    ensures var c := RemoveChars(phone, IsPhoneSeparator); var n := PrefixLength(c);
      FormatPhoneNumber(phone) == (if n == 0 && StartsWith(c, "64") then c[2..] else c[n..])
    ensures All(FormatPhoneNumber(phone), IsDigit)
  {
    var c := RemoveChars(phone, IsPhoneSeparator);
    var f := RemoveChars(phone, IsFormatStripped);
    FormatCleaning(phone);
    FormatOfCleaned(c, f);
  }

  lemma FormatOfCleaned(c: string, f: string)
    requires IsNationalNumber(c[PrefixLength(c)..]) && f == RemoveChars(c, IsPlus)
    ensures var n := PrefixLength(c);
      (if StartsWith(f, "64") then f[2..] else if StartsWith(f, "0") then f[1..] else f) ==
      (if n == 0 && StartsWith(c, "64") then c[2..] else c[n..])
    ensures All(if PrefixLength(c) == 0 && StartsWith(c, "64") then c[2..] else c[PrefixLength(c)..], IsDigit)
  {
    var n := PrefixLength(c);
    var b := c[n..];
    StripPlusOfPrefixed(c, n);
    assert n == 0 ==> c[2..] == b[2..];
    if n == 3 {
      assert f == "64" + b;
      assert f[2..] == b;
    } else if n == 1 {
      assert f == "0" + b;
      assert f[1..] == b;
    } else {
      assert f == b;
      assert b[0] != '0';
    }
  }

  /**
   * Every national number that begins with `64` and is written without a
   * prefix is accepted, and then formatted two digits short.
   */
  lemma FormatDropsLeading64(b: string)
    requires IsNationalNumber(b) && StartsWith(b, "64")
    ensures ValidatePhoneNumber(b)
    ensures FormatPhoneNumber(b) == b[2..]
  {
    DigitsAreKept(b);
    assert PrefixLength(b) == 0 by {
      assert b[0] == '6';
    }
    FormatValidPhone(b);
  }

  /** A string of digits passes through both cleanings unchanged. */
  lemma DigitsAreKept(s: string)
    requires All(s, IsDigit)
    ensures RemoveChars(s, IsPhoneSeparator) == s && RemoveChars(s, IsFormatStripped) == s
  {
    forall i | 0 <= i < |s|
      ensures !IsFormatStripped(s[i])
    {
      assert IsDigit(s[i]);
    }
  }
}
